=== FILE: README.md ===
# Quartz.NET job stores on MongoDB, in Dafny

This project models the scheduling core of quartznet-mongodb. That library is a
Quartz.NET `IJobStore` that keeps jobs, triggers and their states in MongoDB
collections. The model covers four parts:

- **The clustered `JobStore`.** The store is one immutable `Store` record: the
  Jobs, Triggers, TriggerStates, Calendars, PausedTriggerGroups,
  PausedJobGroups, BlockedJobs and Instances collections, the process-wide
  fired-trigger counter and the misfire threshold. Every public method is a
  pure function from the store (plus the clock reading and this instance's
  id) to a `Step`: the store afterwards and the returned value or the
  exception thrown. Writes made before an exception stay, as they do in
  MongoDB. The modules follow the source:
  - `Store` holds the collections, the TriggerStates queries and updates, and
    the invariant `Valid`;
  - `Storage` covers storing, replacing and removing jobs, triggers and
    calendars, and `GetTriggerState`;
  - `Misfire` covers the misfire threshold and `ApplyMisfire`;
  - `FireIds` covers the fired-trigger record ids;
  - `PauseResume` covers pausing and resuming;
  - `Acquisition` covers `AcquireNextTriggers`;
  - `Firing` covers `TriggersFired` and `TriggeredJobComplete`.
- **The `NaiveJobStore`** (module `Naive`). Here each trigger document
  carries its own `State` element. Acquisition is a filter, a sort and a
  take.
- **The BSON codecs.** These are `TriggerKeySerializer`, `DateTimeSerializer`,
  `TimeOfDaySerializer`, `JobDataMapSerializer` and
  `NameValueCollectionSerializer`, over the algebraic `Bson.Value`.
- **The id-member conventions** (module `Conventions`).

Three choices are made explicit as parameters rather than fixed:

- **The driver.** `Store.Driver(multi, ninMatchesMissing)` says two things:
  whether an `Update` without `UpdateFlags.Multi` changes every match (the 1.x
  driver changes only the first), and whether `$nin` matches a record with no
  `InstanceId`. `Store.LegacyDriver` is the combination the code was written
  against. Neither store ever passes the multi flag.
- **Trigger schedule arithmetic.** `Quartz.Schedule` supplies
  `UpdateAfterMisfire` and `Triggered` as uninterpreted functions of the
  trigger and its resolved calendar.
- **The clock.** The clock is an argument (`now`, in ticks).

Collections with an observable natural order (Triggers, TriggerStates) are
sequences of documents with unique `_id`s, because the store's loops visit
them in that order. Jobs is a map. The marker collections are sets of the
keys a lookup by `_id` can find. The BlockedJobs marker that firing saves has
no `_id`, so the driver gives it a generated one; no lookup or removal can
reach it, and `blockedJobs` does not hold it (see "## Findings").

Where the store's documentation and its code differ, the model follows the
code. The written behaviour is modelled as it is, and an intended version sits
next to it (see "## Findings"). For example, `GetTriggerState` is documented
to report `None` for an unknown trigger, but the code dereferences the
missing state document. `RemoveJob` is documented to return whether the job
existed, but it returns false for a non-durable job that had triggers.

## Model

| member | source | states |
|---|---|---|
| Store.UpdateStateOf | src/Quartz.Impl.MongoDB/JobStore.cs:1345-1348 | A TriggerStates update changes exactly the records it picks; a record the query does not match never changes; with the multi flag every match changes |
| Store.UpdateByKey | src/Quartz.Impl.MongoDB/JobStore.cs:1401-1404 | An update by `_id` changes the one record with that key when the query matches it, whatever the multi flag, and no other record |
| Store.SingleUpdatePicksOne | src/Quartz.Impl.MongoDB/JobStore.cs:944-954 | Without the multi flag an update changes at most one record |
| Store.TriggersForJob | src/Quartz.Impl.MongoDB/JobStore.cs:926-935 | GetTriggersForJob lists exactly the stored triggers that name the job, and no trigger twice |
| Store.JobTriggerKeys | src/Quartz.Impl.MongoDB/JobStore.cs:926-935 | In a valid store the keys of a job's triggers are exactly the stored keys whose trigger names that job |
| Store.DeleteTriggerDocuments | src/Quartz.Impl.MongoDB/JobStore.cs:553-556 | Removing a trigger's two documents makes the key unknown in both collections and leaves every other key's documents alone |
| Misfire.SetMisfireThreshold | src/Quartz.Impl.MongoDB/JobStore.cs:176-187 | A threshold under one millisecond is rejected with ArgumentException and the old one is kept; any other is stored |
| Misfire.MisfireTime | src/Quartz.Impl.MongoDB/JobStore.cs:1277-1281 | The misfire time is `now` minus the threshold rounded to a whole millisecond, and `now` itself when the threshold is not positive |
| Misfire.WholeMillisecondsExact | src/Quartz.Impl.MongoDB/JobStore.cs:1277-1281 | With a whole-millisecond threshold the misfire time is exactly `now - threshold` |
| Misfire.CalendarFor | src/Quartz.Impl.MongoDB/JobStore.cs:1290-1294 | The calendar handed to the trigger is the one it names when that one is stored, otherwise none |
| Misfire.ApplyMisfire | src/Quartz.Impl.MongoDB/JobStore.cs:1275-1315 | A trigger that has not misfired, or ignores misfires, is untouched and not reported; a misfired one gets its misfire update; only Triggers and TriggerStates change; a trigger whose next fire time did not move is not reported |
| Misfire.ApplyMisfireEffect | src/Quartz.Impl.MongoDB/JobStore.cs:1283-1314 | In a valid store the updated trigger is saved, it is reported as misfired exactly when its next fire time changed, a trigger left with no next fire time is Complete, and the store stays valid |
| FireIds.Increment64 | src/Quartz.Impl.MongoDB/JobStore.cs:197 | `Interlocked.Increment` is +1 modulo 2^64 within the long range, so the largest long wraps to the smallest |
| FireIds.ParseDecimalText | src/Quartz.Impl.MongoDB/JobStore.cs:198 | The invariant-culture rendering of a long reads back as that long |
| FireIds.DecimalTextInjective | src/Quartz.Impl.MongoDB/JobStore.cs:198 | Different counter values give different id texts |
| FireIds.GetFiredTriggerRecordId | src/Quartz.Impl.MongoDB/JobStore.cs:189-199 | The counter advances by one step and the id returned reads back as the new counter value |
| FireIds.SuccessiveIdsDiffer | src/Quartz.Impl.MongoDB/JobStore.cs:195-199 | Two successive ids differ, and the second is the first plus one unless the counter wrapped |
| Storage.StoreJob | src/Quartz.Impl.MongoDB/JobStore.cs:327-355 | With the key stored and replace off, fails with ObjectAlreadyExists and no write; otherwise fails with no write exactly when the job carries data, because the job document's JobDataMap element throws; on success it stores what the intended version stores |
| Storage.StoreJobIntended | src/Quartz.Impl.MongoDB/JobStore.cs:327-355 | With a JobDataMap encoder that does not throw: fails exactly when the key is stored and replace is off, with ObjectAlreadyExists and no write; otherwise the job is stored under its key and no other job changes |
| Storage.StoreJobWithDataFails | src/Quartz.Impl.MongoDB/JobStore.cs:327-355 | As written, storing a job with data throws NullReferenceException or InvalidCastException, by its first value, and writes nothing, with or without replace; the intended version stores it |
| Storage.StoreJobKeepsValid | src/Quartz.Impl.MongoDB/JobStore.cs:327-355 | Storing a job keeps the store's invariant |
| Storage.StoreJobIntendedKeepsValid | src/Quartz.Impl.MongoDB/JobStore.cs:327-355 | Storing a job with the intended encoding keeps the store's invariant |
| Storage.DeleteJob | src/Quartz.Impl.MongoDB/JobStore.cs:379-398 | Reports whether the job existed; removes it and the blocked marker stored under its key; drops its group's paused marker exactly when no job of the group is left |
| Storage.DeleteJobKeepsValid | src/Quartz.Impl.MongoDB/JobStore.cs:379-398 | Deleting a job that has no triggers keeps the invariant |
| Storage.RemoveTrigger | src/Quartz.Impl.MongoDB/JobStore.cs:543-576 | Reports whether the trigger existed; an unknown key changes nothing; a known one loses its trigger and state documents; the overload without orphan removal touches nothing else |
| Storage.RemoveTriggerKeepsValid | src/Quartz.Impl.MongoDB/JobStore.cs:543-576 | In a valid store the orphan-removing overload deletes the job exactly when it is not durable and this was its only trigger; the other overload never deletes a job; the invariant holds |
| Storage.RemoveTriggersKeepsValid | src/Quartz.Impl.MongoDB/JobStore.cs:418-431 | RemoveTriggers on a valid store succeeds and keeps it valid |
| Storage.RemoveTriggersRemovesAll | src/Quartz.Impl.MongoDB/JobStore.cs:418-431 | After RemoveTriggers none of the keys is stored |
| Storage.RemoveTriggersReportsAllFound | src/Quartz.Impl.MongoDB/JobStore.cs:418-431 | With distinct keys, RemoveTriggers reports true exactly when every key was stored |
| Storage.RemoveTriggersKeepsAbsent | src/Quartz.Impl.MongoDB/JobStore.cs:418-431 | RemoveTriggers never brings back a trigger that was absent |
| Storage.CascadeRemovesJobTriggers | src/Quartz.Impl.MongoDB/JobStore.cs:373-377 | Removing exactly a job's triggers one by one deletes all of them, and the job too when it is not durable and had one; no other job is touched |
| Storage.JobCascade | src/Quartz.Impl.MongoDB/JobStore.cs:366-377 | RemoveJob's cascade leaves no trigger of the job, and removes the job itself when it is not durable and had a trigger |
| Storage.RemoveJobRemoves | src/Quartz.Impl.MongoDB/JobStore.cs:366-401 | In a valid store RemoveJob succeeds, keeps it valid, and leaves neither the job nor any trigger of it; no other job is removed |
| Storage.RemoveJobReturnsAsWritten | src/Quartz.Impl.MongoDB/JobStore.cs:366-401 | As written, RemoveJob returns true only for a stored job that is durable or had no trigger |
| Storage.OneJobOneTrigger | src/Quartz.Impl.MongoDB/JobStore.cs:366-401 | The one-job, one-trigger witness store is valid |
| Storage.RemoveJobReportsFalseForExistingJob | src/Quartz.Impl.MongoDB/JobStore.cs:362-379 | On a stored non-durable job with one trigger, RemoveJob returns false although the job existed |
| Storage.RemoveJobIntendedReportsFound | src/Quartz.Impl.MongoDB/JobStore.cs:362-364 | The intended RemoveJob returns exactly whether the job was stored, and leaves neither the job nor its triggers |
| Storage.RemoveJobsRemoves | src/Quartz.Impl.MongoDB/JobStore.cs:403-416 | RemoveJobs on a valid store succeeds, keeps it valid, and removes exactly the listed jobs |
| Storage.InitialState | src/Quartz.Impl.MongoDB/JobStore.cs:510-528 | A new trigger starts paused exactly when its group or its job's group is paused, blocked exactly when a marker is stored under its job's key (PausedAndBlocked when both hold), and Waiting otherwise |
| Storage.StoreTrigger | src/Quartz.Impl.MongoDB/JobStore.cs:487-530 | Fails with ObjectAlreadyExists, and writes nothing, exactly when the key is stored and replace is off; the only other failure is JobPersistence |
| Storage.StoreTriggerStores | src/Quartz.Impl.MongoDB/JobStore.cs:487-530 | In a valid store a trigger of a stored job is stored with its initial, unowned state record; the store stays valid; no job and no other trigger changes |
| Storage.StoreTriggerMissingJob | src/Quartz.Impl.MongoDB/JobStore.cs:499-506 | A trigger whose job is missing is rejected with JobPersistenceException; with replace, the previous trigger is gone by then |
| Storage.Report | src/Quartz.Impl.MongoDB/JobStore.cs:696-717 | Both paused states report Paused; Waiting, Locked, Acquired and Executing report Normal; Complete, Blocked and Error report their namesakes; a stored state never reports None |
| Storage.GetTriggerState | src/Quartz.Impl.MongoDB/JobStore.cs:686-719 | As written, a missing state document throws NullReferenceException; otherwise its state is reported |
| Storage.GetTriggerStateIntended | src/Quartz.Impl.MongoDB/JobStore.cs:681-719 | The intended version reports None exactly for a trigger with no state document, and otherwise agrees with the written one |
| Storage.StoredTriggerReports | src/Quartz.Impl.MongoDB/JobStore.cs:510-528 | Right after StoreTrigger a trigger reports Paused, Blocked or Normal according to the paused groups and the markers stored under its job's key |
| Storage.ReportedNotFoundIffAbsent | src/Quartz.Impl.MongoDB/JobStore.cs:686-719 | In a valid store either version finds a state for exactly the stored triggers |
| Storage.GetTriggerStateThrowsOnUnknown | src/Quartz.Impl.MongoDB/JobStore.cs:688-694 | On an empty store every key throws in the written version and reports None in the intended one |
| Storage.StoreJobAndTrigger | src/Quartz.Impl.MongoDB/JobStore.cs:292-296 | A stored job's key is rejected with ObjectAlreadyExists before any write; a job with data is rejected before any write |
| Storage.StoreJobAndTriggerLinks | src/Quartz.Impl.MongoDB/JobStore.cs:292-296 | Storing a new job and a new trigger of it succeeds exactly when the job carries no data, and then GetTriggersForJob lists that trigger; otherwise nothing is written; the store stays valid |
| Storage.CheckCollisions | src/Quartz.Impl.MongoDB/JobStore.cs:438-454 | The pre-check finds a collision exactly when some job or trigger of the entries is already stored |
| Storage.AnyTriggerExists | src/Quartz.Impl.MongoDB/JobStore.cs:446-451 | True exactly when some trigger of the list is stored |
| Storage.StoreJobsAndTriggers | src/Quartz.Impl.MongoDB/JobStore.cs:433-465 | Without replace, any collision is rejected with ObjectAlreadyExists before any write |
| Storage.StoreTriggersStores | src/Quartz.Impl.MongoDB/JobStore.cs:459-462 | Storing triggers of stored jobs succeeds, keeps the store valid, the jobs and every stored trigger, and stores each one |
| Storage.StoreEntryStores | src/Quartz.Impl.MongoDB/JobStore.cs:456-462 | The entry's job write fails with no write exactly when the job carries data; otherwise its job and all its triggers end up stored |
| Storage.StoreEntriesStores | src/Quartz.Impl.MongoDB/JobStore.cs:456-462 | Storing entries whose triggers belong to their own job keeps the store valid and everything already stored; it succeeds exactly when no job of the entries carries data, and then stores every job and trigger of the entries |
| Storage.StoreJobsAndTriggersStores | src/Quartz.Impl.MongoDB/JobStore.cs:433-465 | Fails exactly when a collision is found without replace or some job carries data; the store stays valid and keeps what it held; on success everything of the entries is stored |
| Storage.ReplaceTrigger | src/Quartz.Impl.MongoDB/JobStore.cs:585-616 | An unknown key returns false with no write; a new trigger of another job is rejected with JobPersistenceException and no write; success reports that the key was stored |
| Storage.ReplaceTriggerIntended | src/Quartz.Impl.MongoDB/JobStore.cs:585-616 | The same guards as the written version |
| Storage.ReplaceTriggerLosesJob | src/Quartz.Impl.MongoDB/JobStore.cs:601 | Replacing the only trigger of a non-durable job throws, and leaves neither the job nor any trigger |
| Storage.ReplaceTriggerIntendedReplaces | src/Quartz.Impl.MongoDB/JobStore.cs:585-616 | The intended ReplaceTrigger stores a new trigger of the same job in place of the old, keeps every job, and keeps the invariant |
| Storage.TriggersWithCalendar | src/Quartz.Impl.MongoDB/JobStore.cs:775 | The cursor is never null; it lists exactly the stored triggers naming the calendar |
| Storage.RemoveCalendar | src/Quartz.Impl.MongoDB/JobStore.cs:773-784 | A failure is JobPersistenceException and writes nothing |
| Storage.RemoveCalendarAlwaysThrows | src/Quartz.Impl.MongoDB/JobStore.cs:775-779 | As written, RemoveCalendar throws for every calendar and store |
| Storage.RemoveCalendarIntendedGuards | src/Quartz.Impl.MongoDB/JobStore.cs:773-784 | The intended version throws exactly when a trigger names the calendar; otherwise only the calendar goes; so no trigger is left naming a missing calendar |
| Storage.ClearLeavesNothing | src/Quartz.Impl.MongoDB/JobStore.cs:262-279 | After ClearAllSchedulingData the store is valid, every trigger and job is unknown, and the instance leases are kept |
| PauseResume.PauseTrigger | src/Quartz.Impl.MongoDB/JobStore.cs:940-956 | Pausing writes only TriggerStates |
| PauseResume.PauseTriggerPauses | src/Quartz.Impl.MongoDB/JobStore.cs:940-956 | A paused trigger ends Paused whatever its state, Blocked included, owner kept; no other record changes; the invariant holds |
| PauseResume.PauseKeysPauses | src/Quartz.Impl.MongoDB/JobStore.cs:1014-1024 | Pausing a list of keys pauses each stored one and changes no other record |
| PauseResume.PauseJobPauses | src/Quartz.Impl.MongoDB/JobStore.cs:1014-1024 | After PauseJob every trigger of the job is Paused and every other record is unchanged |
| PauseResume.PauseGroups | src/Quartz.Impl.MongoDB/JobStore.cs:966-1008 | PauseTriggers and PauseJobs throw NotImplementedException and write nothing |
| PauseResume.PauseAll | src/Quartz.Impl.MongoDB/JobStore.cs:1233-1244 | Writes nothing, and throws NotImplementedException exactly when a trigger is stored |
| PauseResume.ResumeTriggers | src/Quartz.Impl.MongoDB/JobStore.cs:1128-1158 | Writes nothing; throws NotImplementedException exactly when a stored trigger's group equals the matcher's value; otherwise returns an empty list |
| PauseResume.ResumeAll | src/Quartz.Impl.MongoDB/JobStore.cs:1255-1268 | Clears the paused job groups and nothing else, then throws NotImplementedException exactly when a trigger is stored |
| PauseResume.ResumedState | src/Quartz.Impl.MongoDB/JobStore.cs:1105-1112 | A resumed trigger returns to Blocked exactly when a marker is stored under its job's key, and to Waiting otherwise |
| PauseResume.ResumeTrigger | src/Quartz.Impl.MongoDB/JobStore.cs:1085-1118 | An unknown trigger is ignored; a stored trigger without a state document throws NullReferenceException; nothing else fails |
| PauseResume.ResumeTriggerIntended | src/Quartz.Impl.MongoDB/JobStore.cs:1085-1118 | The same outcomes as the written version |
| PauseResume.ResumeWith | src/Quartz.Impl.MongoDB/JobStore.cs:1085-1118 | Resuming writes only Triggers and TriggerStates |
| PauseResume.ResumeFrame | src/Quartz.Impl.MongoDB/JobStore.cs:1085-1118 | In a valid store resuming succeeds, keeps the invariant, the jobs, the markers, the set of stored triggers, and every other key's documents |
| PauseResume.ResumeEffect | src/Quartz.Impl.MongoDB/JobStore.cs:1097-1116 | A paused trigger leaves the paused states (Waiting or Blocked as written; Complete when the intended version's misfire finished it); a trigger that was not paused keeps its record |
| PauseResume.ResumeTriggerForgetsCompletion | src/Quartz.Impl.MongoDB/JobStore.cs:1114-1116 | As written, a paused trigger whose misfire leaves no next fire time is saved Waiting or Blocked instead of Complete |
| PauseResume.ResumeTriggerIntendedKeepsCompletion | src/Quartz.Impl.MongoDB/JobStore.cs:1114-1116 | The intended version leaves such a trigger Complete, and any other paused trigger Waiting or Blocked |
| PauseResume.ResumeKeysResumes | src/Quartz.Impl.MongoDB/JobStore.cs:1169-1179 | Resuming a list of keys in a valid store succeeds, keeps it valid, leaves none of the keys paused, and every other key as it was |
| PauseResume.ResumeJobResumes | src/Quartz.Impl.MongoDB/JobStore.cs:1169-1179 | After ResumeJob no trigger of the job is paused and every other record is unchanged |
| PauseResume.ResumeJobs | src/Quartz.Impl.MongoDB/JobStore.cs:1190-1222 | As written, any stored paused job group makes the call throw with the store unchanged; otherwise it can only report the empty set |
| PauseResume.ResumeJobsIntended | src/Quartz.Impl.MongoDB/JobStore.cs:1190-1222 | The intended version reports the paused job groups the matcher selects |
| PauseResume.ResumeJobsLeavesGroupPaused | src/Quartz.Impl.MongoDB/JobStore.cs:1197 | As written, resuming a paused job group fails, writes nothing, and the group stays paused, so a trigger stored into it afterwards starts Paused |
| PauseResume.ResumeJobsWithNoPausedGroup | src/Quartz.Impl.MongoDB/JobStore.cs:1190-1222 | As written, with no paused job group stored, the call succeeds, reports no group, keeps the store valid and leaves no trigger of the value's jobs paused |
| PauseResume.ResumeJobsIntendedResumes | src/Quartz.Impl.MongoDB/JobStore.cs:1190-1222 | The intended version succeeds, clears exactly the reported groups from the paused job groups, and leaves no trigger of the value's jobs paused |
| PauseResume.ResumeKeysKeepMarkers | src/Quartz.Impl.MongoDB/JobStore.cs:1085-1118 | Resuming triggers never touches the marker collections |
| Acquisition.Lease | src/Quartz.Impl.MongoDB/JobStore.cs:1327-1332 | This instance's lease expires at now + ten minutes, no lease that lapsed before now is left, every other live lease is kept, and nothing else changes |
| Acquisition.Take | src/Quartz.Impl.MongoDB/JobStore.cs:1401-1407 | Acquiring one trigger advances the fired-trigger counter by one step and returns the trigger carrying the new counter's decimal text; only Triggers, TriggerStates and the counter change |
| Acquisition.Reclaimed | src/Quartz.Impl.MongoDB/JobStore.cs:1334-1339 | The reclaim step changes only TriggerStates and the leases |
| Acquisition.LockedBy | src/Quartz.Impl.MongoDB/JobStore.cs:1350-1356 | The walk visits exactly the stored triggers whose record this instance holds Locked |
| Acquisition.AcquireKeepsValid | src/Quartz.Impl.MongoDB/JobStore.cs:1322-1430 | On a valid store acquisition succeeds, keeps it valid, and leaves each returned trigger saved as returned with its record Acquired by this instance |
| Acquisition.AcquireRenewsLease | src/Quartz.Impl.MongoDB/JobStore.cs:1327-1332 | The lease is renewed to now + ten minutes and no lapsed lease is left; apart from triggers, records and the counter nothing changes |
| Acquisition.AcquireBounds | src/Quartz.Impl.MongoDB/JobStore.cs:1360-1418 | Every returned trigger fires no later than noLaterThan + timeWindow and the first returned one + timeWindow; a positive maxCount bounds the count |
| Acquisition.AcquireOncePerJob | src/Quartz.Impl.MongoDB/JobStore.cs:1387-1399 | A job that disallows concurrent execution has at most one returned trigger |
| Acquisition.AcquireNumbers | src/Quartz.Impl.MongoDB/JobStore.cs:1401-1408 | Returned triggers carry successive fired-trigger ids in order, so none repeats unless the counter passes the largest long |
| Acquisition.AcquireReleasesLocks | src/Quartz.Impl.MongoDB/JobStore.cs:1421-1426 | With the multi flag no record is left Locked by this instance |
| Acquisition.AcquireSparesLiveOwners | src/Quartz.Impl.MongoDB/JobStore.cs:1334-1356 | A record held in a non-Waiting state by another live instance, and its trigger, come through unchanged, and that trigger is not returned |
| Acquisition.PreparedReady | src/Quartz.Impl.MongoDB/JobStore.cs:1334-1348 | With the corrected reclaim, a record Locked by this instance before the walk was Waiting, already ours, or held by a lapsed instance |
| Acquisition.AcquireIntendedTakesReady | src/Quartz.Impl.MongoDB/JobStore.cs:1334-1356 | With the corrected reclaim no Paused, Blocked, Complete, Error or Executing record is ever handed out |
| Acquisition.PreparedWaitingAsWritten | src/Quartz.Impl.MongoDB/JobStore.cs:1340-1347 | As written, a record Locked by this instance before the walk was, after the reclaim, Waiting or already Locked by this instance |
| Acquisition.AcquireTakesLockable | src/Quartz.Impl.MongoDB/JobStore.cs:1333-1356 | As written, every trigger handed out had, after the reclaim, a Waiting record or one already Locked by this instance |
| Acquisition.PausedStore | src/Quartz.Impl.MongoDB/JobStore.cs:510-528 | The witness store, with a paused unowned trigger, is valid |
| Acquisition.PausedTriggerAcquired | src/Quartz.Impl.MongoDB/JobStore.cs:1334-1339 | As written, with `$nin` matching a missing owner, a Paused trigger nobody holds is reclaimed to Waiting and handed out |
| Acquisition.PausedTriggerKeptIntended | src/Quartz.Impl.MongoDB/JobStore.cs:1334-1339 | With the corrected reclaim the same call leaves the paused trigger alone and returns nothing |
| Firing.BlockJob | src/Quartz.Impl.MongoDB/JobStore.cs:1504-1521 | Blocking writes only TriggerStates |
| Firing.BlockJobEffect | src/Quartz.Impl.MongoDB/JobStore.cs:1504-1521 | Blocking keeps the invariant and touches only the job's records, each left alone or turned Waiting→Blocked, Paused→PausedAndBlocked; with the multi flag every one is |
| Firing.UnblockJob | src/Quartz.Impl.MongoDB/JobStore.cs:1558-1575 | Unblocking writes only TriggerStates |
| Firing.UnblockJobEffect | src/Quartz.Impl.MongoDB/JobStore.cs:1558-1575 | Unblocking keeps the invariant and touches only the job's records, each left alone or turned back; with the multi flag every one is |
| Firing.BlockJobAt | src/Quartz.Impl.MongoDB/JobStore.cs:1504-1521 | Per record: another job's record is left alone; the job's record is left alone or blocked, and blocked whenever every match is updated |
| Firing.UnblockJobAt | src/Quartz.Impl.MongoDB/JobStore.cs:1558-1575 | Per record: another job's record is left alone; the job's record is left alone or unblocked, and unblocked whenever every match is updated |
| Firing.UnblockKeepsWaiting | src/Quartz.Impl.MongoDB/JobStore.cs:1558-1575 | Unblocking never changes a Waiting record, so the completed trigger stays Waiting |
| Firing.UnblockUndoesBlock | src/Quartz.Impl.MongoDB/JobStore.cs:1504-1575 | Unblocking right after blocking gives every record that was not already blocked its state back |
| Firing.FireOne | src/Quartz.Impl.MongoDB/JobStore.cs:1462-1500 | A trigger that is gone, not Acquired, or names a missing calendar is skipped with no write |
| Firing.TriggersFired | src/Quartz.Impl.MongoDB/JobStore.cs:1456-1527 | A successful call reports at most one bundle per given trigger |
| Firing.FireOneOutcome | src/Quartz.Impl.MongoDB/JobStore.cs:1462-1521 | In a valid store firing succeeds; it fires exactly when the trigger is fireable; the bundle carries the stored job and the triggered copy, which is saved; the record is Executing; no marker becomes findable |
| Firing.FireEffect | src/Quartz.Impl.MongoDB/JobStore.cs:1486-1521 | A fired trigger is saved triggered and its record is Executing with its owner kept; the jobs stay, and the marker saved for a concurrency-disallowed job has no `_id`, so the markers a lookup can find do not change |
| Firing.FireIntended | src/Quartz.Impl.MongoDB/JobStore.cs:1504-1521 | With the marker saved under the job's key, firing a trigger of a concurrency-disallowed job marks that job blocked, adds no other marker, and writes only Triggers, TriggerStates and the markers |
| Firing.FiredJobStaysUnmarked | src/Quartz.Impl.MongoDB/JobStore.cs:1504-1521 | As written, after firing a trigger of a concurrency-disallowed job, a new trigger of that job starts Waiting, not Blocked |
| Firing.FiredJobMarkedIntended | src/Quartz.Impl.MongoDB/JobStore.cs:1504-1521 | With the marker under the job's key, the job is marked after the firing and a new trigger of it starts Blocked |
| Firing.FireFrame | src/Quartz.Impl.MongoDB/JobStore.cs:1504-1521 | Other triggers' documents stay; their records change only by the blocking of the fired job's triggers, all of which are blocked with the multi flag |
| Firing.FireOneAdvances | src/Quartz.Impl.MongoDB/JobStore.cs:1462-1521 | Firing never moves a record out of Executing and never into Acquired |
| Firing.TriggersFiredKeepsValid | src/Quartz.Impl.MongoDB/JobStore.cs:1456-1527 | Given triggers of stored jobs, TriggersFired on a valid store succeeds, keeps it valid and the jobs, and only advances records |
| Firing.TriggersFiredExecutes | src/Quartz.Impl.MongoDB/JobStore.cs:1456-1527 | Every reported trigger is one of those given, was Acquired, and is left Executing and saved as fired |
| Firing.TriggersFiredOncePerKey | src/Quartz.Impl.MongoDB/JobStore.cs:1465-1484 | No trigger is fired twice in one call, even when listed twice |
| Firing.PersistData | src/Quartz.Impl.MongoDB/JobStore.cs:1551-1555 | Once the data document is built, the update by `_id` stores the job's data when the job is stored, and does nothing once it is gone |
| Firing.DataDocument | src/Quartz.Impl.MongoDB/JobStore.cs:1551-1555 | As written, the data document fails exactly when the map has entries, because `ToBsonDocument` goes through the registered JobDataMapSerializer; the intended encoder never fails |
| Firing.Release | src/Quartz.Impl.MongoDB/JobStore.cs:1541-1579 | The reset to Waiting is always written; the release throws exactly when the job persists data and its data document fails, and then nothing else changes; otherwise it writes only TriggerStates and Jobs and removes exactly the job's marker |
| Firing.ReleaseKeepsValid | src/Quartz.Impl.MongoDB/JobStore.cs:1541-1579 | The release keeps the invariant and the triggers; on success it writes the data of a job that persists it and removes the marker; when the data write throws, no job and no marker changes |
| Firing.ReleaseResets | src/Quartz.Impl.MongoDB/JobStore.cs:1541-1544 | The completed trigger's record is Waiting with no owner, also when the data write throws afterwards |
| Firing.ReleaseFrame | src/Quartz.Impl.MongoDB/JobStore.cs:1541-1575 | Other records change only by the unblocking of the job's triggers, every one of them with the multi flag; when the data write throws, no other record changes |
| Firing.Removal | src/Quartz.Impl.MongoDB/JobStore.cs:475-478 | `RemoveTrigger(key)` removes the trigger through the orphan-removing overload |
| Firing.RemovalEffect | src/Quartz.Impl.MongoDB/JobStore.cs:475-478 | Removing a trigger in a valid store removes its two documents, keeps every other trigger and record, and drops blocked markers at most |
| Firing.InstructKeepsValid | src/Quartz.Impl.MongoDB/JobStore.cs:1582-1643 | Every instruction succeeds, keeps the invariant, and drops blocked markers at most |
| Firing.InstructSetsTrigger | src/Quartz.Impl.MongoDB/JobStore.cs:1606-1622 | SetTriggerComplete and SetTriggerError set that state on the trigger's record, owner kept, and leave every other record |
| Firing.InstructSetsJob | src/Quartz.Impl.MongoDB/JobStore.cs:1623-1643 | With the multi flag, the job-wide instructions set every record of the job to that state and leave every other record |
| Firing.InstructDeletes | src/Quartz.Impl.MongoDB/JobStore.cs:1582-1605 | As written, DeleteTrigger removes the trigger whatever its fire times |
| Firing.InstructIntendedDeletes | src/Quartz.Impl.MongoDB/JobStore.cs:1582-1605 | With the double check reading the stored trigger, a trigger rescheduled during execution is kept and any other is removed |
| Firing.TriggeredJobCompleteKeepsValid | src/Quartz.Impl.MongoDB/JobStore.cs:1536-1645 | TriggeredJobComplete keeps a valid store valid and adds no marker; it succeeds exactly when the job does not persist a non-empty data map, and then clears the marker and stores the data; when it throws, no job and no marker changes |
| Firing.CompletionWithDataStaysBlocked | src/Quartz.Impl.MongoDB/JobStore.cs:1536-1579 | As written, completing a job that persists a non-empty data map throws NullReferenceException or InvalidCastException, by its first value; the data is not stored, the marker stays, no trigger changes and no other record changes, so blocked triggers stay blocked |
| Firing.TriggeredJobCompleteIntendedKeepsValid | src/Quartz.Impl.MongoDB/JobStore.cs:1536-1645 | With the intended encoder the completion always succeeds, keeps the invariant, clears the marker, adds none, and stores the data of a job that persists it |
| Firing.TriggeredJobCompleteIntendedUnblocks | src/Quartz.Impl.MongoDB/JobStore.cs:1536-1575 | With the intended encoder and the multi flag, completing a concurrency-disallowed job unblocks its other triggers whatever its data, and leaves other jobs' records |
| Firing.TriggeredJobCompleteSetsTrigger | src/Quartz.Impl.MongoDB/JobStore.cs:1541-1622 | When the data write succeeds: DeleteTrigger removes the trigger and its record; the two trigger Set instructions set that state; every instruction that is not job-wide leaves it Waiting; no instance owns it. When the data write throws, the trigger stays, Waiting and unowned |
| Firing.TriggeredJobCompleteSetsJob | src/Quartz.Impl.MongoDB/JobStore.cs:1541-1643 | With the multi flag and a data write that succeeds, the job-wide instructions leave every trigger of the job in that state; when the data write throws, no other record changes |
| Firing.TriggeredJobCompleteUnblocks | src/Quartz.Impl.MongoDB/JobStore.cs:1541-1575 | With the multi flag, completing a concurrency-disallowed job leaves other jobs' records unless the instruction is job-wide; it unblocks the job's other triggers when the data write succeeds, and changes no other record when it throws |
| Firing.FireThenComplete | src/Quartz.Impl.MongoDB/JobStore.cs:1456-1645 | Firing then completing with no instruction leaves the trigger Waiting, unowned and stored as fired; the completion succeeds exactly when the stored job does not persist a non-empty data map, and then removes the marker stored under the job's key; otherwise the markers stay |
| Firing.FireThenCompleteRestores | src/Quartz.Impl.MongoDB/JobStore.cs:1504-1575 | With the multi flag and a data write that succeeds, firing then completing gives every other record that was not blocked before its state back; when the data write throws, the other records stay as the firing left them |
| Firing.RescheduledTriggerDeleted | src/Quartz.Impl.MongoDB/JobStore.cs:1584-1603 | As written, a trigger rescheduled while its job ran is deleted, because the double check re-reads the caller's copy; only a throwing data write, which skips the instruction, keeps it |
| Firing.RescheduledTriggerKeptIntended | src/Quartz.Impl.MongoDB/JobStore.cs:1584-1603 | The intended double check keeps such a trigger, Waiting, and deletes every other one asked to be deleted |
| Naive.Limit | src/Quartz.Impl.MongoDB/NaiveJobStore.cs:129-133 | The limit is the earlier of noLaterThan and now + timeWindow |
| Naive.EligibleTriggers | src/Quartz.Impl.MongoDB/NaiveJobStore.cs:139-143 | The query matches exactly the stored documents with a next fire time at or before the limit and a State other than "Paused"; this is the triggers they hold, in natural order |
| Naive.SortByNext | src/Quartz.Impl.MongoDB/NaiveJobStore.cs:165-166 | The ordering is a permutation of its input, sorted by next fire time with no fire time first |
| Naive.SortIsStable | src/Quartz.Impl.MongoDB/NaiveJobStore.cs:165-166 | Triggers sharing a fire time keep their natural order |
| Naive.Take | src/Quartz.Impl.MongoDB/NaiveJobStore.cs:167 | At most maxCount triggers, none when maxCount is not positive, always a prefix |
| Naive.AcquireNextTriggers | src/Quartz.Impl.MongoDB/NaiveJobStore.cs:127-169 | Throws FileFormatException exactly when maxCount is positive and some matched document carries a State element; otherwise returns the ordered, truncated query result; no store is returned, so nothing is written |
| Naive.AcquireIntended | src/Quartz.Impl.MongoDB/NaiveJobStore.cs:139-168 | Reading every matched document as a trigger: the result is sorted by next fire time, empty when maxCount is not positive, at most maxCount long, and drawn from the eligible triggers |
| Naive.AcquireEligible | src/Quartz.Impl.MongoDB/NaiveJobStore.cs:129-143 | Every trigger in the ordered, truncated query result is stored, not Paused, and due at or before both noLaterThan and now + timeWindow |
| Naive.AcquireCount | src/Quartz.Impl.MongoDB/NaiveJobStore.cs:139-168 | Acquisition succeeds exactly when maxCount is not positive or no matched document carries State, and then returns maxCount triggers, or every eligible one when there are fewer |
| Naive.AcquireTakesEarliest | src/Quartz.Impl.MongoDB/NaiveJobStore.cs:165-168 | In the ordered, truncated query result, an eligible trigger left out fires no earlier than any trigger taken |
| Naive.AcquireKeepsTies | src/Quartz.Impl.MongoDB/NaiveJobStore.cs:165-168 | In the ordered, truncated query result, among triggers with the same fire time those taken are the first ones in natural order |
| Naive.ReadState | src/Quartz.Impl.MongoDB/NaiveJobStore.cs:275-289 | The five state names read back as their namesakes, and every other text as None |
| Naive.GetTriggerState | src/Quartz.Impl.MongoDB/NaiveJobStore.cs:272-290 | A missing document throws NullReferenceException, a missing State KeyNotFoundException, a non-string State InvalidCastException; otherwise the State text is read |
| Naive.SetStates | src/Quartz.Impl.MongoDB/NaiveJobStore.cs:335-472 | A State update gives the selected documents that State (every match with the multi flag, else the first) and changes nothing else |
| Naive.ReadStateText | src/Quartz.Impl.MongoDB/NaiveJobStore.cs:274-288 | Every state except None, written as its text, is read back as itself by GetTriggerState's switch |
| Naive.SetStatesReports | src/Quartz.Impl.MongoDB/NaiveJobStore.cs:335-472 | A stored trigger selected by key, or by any selection with the multi flag, reports the state written and its document carries that State element; one not selected reports what it did before and its document is unchanged |
| Naive.PauseResumeTrigger | src/Quartz.Impl.MongoDB/NaiveJobStore.cs:358-363 | Pausing a stored trigger makes it report Paused; resuming makes it report Normal |
| Naive.PauseResumeBreaksAcquire | src/Quartz.Impl.MongoDB/NaiveJobStore.cs:139-168 | As written, after pausing and resuming a stored trigger that is due, acquisition with a positive maxCount throws FileFormatException |
| Naive.PauseResumeAcquireIntended | src/Quartz.Impl.MongoDB/NaiveJobStore.cs:139-168 | Reading documents regardless of extra elements, the same trigger is acquired after the pause and the resume when maxCount leaves room for every eligible trigger |
| Naive.PauseThenResume | src/Quartz.Impl.MongoDB/NaiveJobStore.cs:335-472 | Resuming after pausing the same selection is resuming alone, whatever the driver |
| Naive.PauseResumeLeavesNormal | src/Quartz.Impl.MongoDB/NaiveJobStore.cs:335-472 | A stored trigger in the selection reports Normal after a pause and a resume: always for a key, for any selection with the multi flag |
| Naive.PauseSelection | src/Quartz.Impl.MongoDB/NaiveJobStore.cs:335-372 | With the multi flag, every stored trigger of a paused selection reports Paused and every other trigger what it did before |
| Naive.Fired | src/Quartz.Impl.MongoDB/NaiveJobStore.cs:634-635 | The fired trigger keeps its key and job, takes the schedule's new fire times, and carries the store's instance id |
| Naive.FireOne | src/Quartz.Impl.MongoDB/NaiveJobStore.cs:634-642 | The fired trigger replaces its document, with no State; the bundle's scheduled and previous times are both the new previous fire time |
| Naive.TriggersFired | src/Quartz.Impl.MongoDB/NaiveJobStore.cs:628-646 | One bundle per given trigger, in order, each for that trigger's key and stamped with the instance id |
| Naive.TriggersFiredStores | src/Quartz.Impl.MongoDB/NaiveJobStore.cs:632-643 | Every given key ends stored, stamped with the instance id and with no State; every other document is as it was |
| Naive.GetTriggerStateIntended | src/Quartz.Impl.MongoDB/NaiveJobStore.cs:272-290 | The intended version reads a missing State as Normal and otherwise agrees with the written one |
| Naive.FiredTriggerStateLost | src/Quartz.Impl.MongoDB/NaiveJobStore.cs:636 | As written, a trigger that has just fired throws KeyNotFoundException when its state is asked |
| Naive.FiredTriggerReportsNormal | src/Quartz.Impl.MongoDB/NaiveJobStore.cs:636 | With a missing State read as Normal, a fired trigger reports Normal |
| Naive.Instructed | src/Quartz.Impl.MongoDB/NaiveJobStore.cs:585-616 | The instruction switch keeps the jobs and the instance id |
| Naive.ClearFireInstanceId | src/Quartz.Impl.MongoDB/NaiveJobStore.cs:623-625 | Clearing keeps the jobs and the instance id |
| Naive.ClearEffect | src/Quartz.Impl.MongoDB/NaiveJobStore.cs:623-625 | Only the FireInstanceId of that one trigger is cleared; every trigger is found as before and every State is kept |
| Naive.TriggeredJobComplete | src/Quartz.Impl.MongoDB/NaiveJobStore.cs:583-626 | Completion keeps the jobs and the instance id, and signals the zero time |
| Naive.InstructedKeepsTrigger | src/Quartz.Impl.MongoDB/NaiveJobStore.cs:585-616 | The switch removes the completed trigger exactly on DeleteTrigger, and otherwise keeps its document |
| Naive.SetByKeyReports | src/Quartz.Impl.MongoDB/NaiveJobStore.cs:604-613 | Setting a stored trigger's State by key to a state's text makes it report that state |
| Naive.TriggeredJobCompleteTrigger | src/Quartz.Impl.MongoDB/NaiveJobStore.cs:583-626 | DeleteTrigger removes the completed trigger; otherwise it stays with FireInstanceId cleared, reporting what it did before after NoInstruction and ReExecuteJob |
| Naive.TriggeredJobCompleteSetsTrigger | src/Quartz.Impl.MongoDB/NaiveJobStore.cs:604-613 | SetTriggerComplete and SetTriggerError leave the completed trigger reporting Complete or Error |
| Naive.InstructedOther | src/Quartz.Impl.MongoDB/NaiveJobStore.cs:585-616 | With the multi flag, the job-wide instructions give the job's other triggers their state; any other instruction leaves their State alone; their documents never change |
| Naive.TriggeredJobCompleteJob | src/Quartz.Impl.MongoDB/NaiveJobStore.cs:594-603 | With the multi flag, the job-wide instructions give every stored trigger of the job that state; other triggers' documents do not change |
| TriggerKeySerializer.Serialize | src/Quartz.Impl.MongoDB/TriggerKeySerializer.cs:70-78 | The encoding is a document of exactly two elements, Group then Name |
| TriggerKeySerializer.Deserialize | src/Quartz.Impl.MongoDB/TriggerKeySerializer.cs:12-43 | A wrong nominal or actual type throws BsonSerializationException; Null decodes to null; another non-document throws; a document decodes to the constructor applied to Group then Name |
| TriggerKeySerializer.DeserializeNominal | src/Quartz.Impl.MongoDB/TriggerKeySerializer.cs:45-48 | The two-argument overload is the four-argument one with the nominal type as the actual type |
| TriggerKeySerializer.QuartzRoundTripSwaps | src/Quartz.Impl.MongoDB/TriggerKeySerializer.cs:26-28 | With Quartz's (name, group) constructor the round trip swaps name and group, so it is the identity exactly when they are equal |
| TriggerKeySerializer.QuartzRoundTripCounterexample | src/Quartz.Impl.MongoDB/TriggerKeySerializer.cs:26-28 | The key ("t1", "DEFAULT") comes back as ("DEFAULT", "t1") |
| TriggerKeySerializer.DeserializeIntended | src/Quartz.Impl.MongoDB/TriggerKeySerializer.cs:12-43 | Every key the intended decoder produces is one whose encoding was its input |
| TriggerKeySerializer.IntendedRoundTrip | src/Quartz.Impl.MongoDB/TriggerKeySerializer.cs:12-78 | The intended decoder returns every key it is given the encoding of |
| DateTimeSerializer.Construct | src/Quartz.Impl.MongoDB/DateTimeSerializer.cs:26-27 | `new DateTime(ticks)` succeeds exactly for ticks in [0, DateTime.MaxValue.Ticks] |
| DateTimeSerializer.Serialize | src/Quartz.Impl.MongoDB/DateTimeSerializer.cs:69-76 | The encoding is the one-element document {Ticks: ticks} |
| DateTimeSerializer.Deserialize | src/Quartz.Impl.MongoDB/DateTimeSerializer.cs:12-47 | A wrong type throws BsonSerializationException; Null decodes to null; another non-document throws; a decoded date came from an Int64 UtcTicks element |
| DateTimeSerializer.DeserializeElement | src/Quartz.Impl.MongoDB/DateTimeSerializer.cs:20-31 | A date the decoder produces was read from the named Int64 element |
| DateTimeSerializer.RoundTripAlwaysFails | src/Quartz.Impl.MongoDB/DateTimeSerializer.cs:12-76 | No DateTime survives the round trip: reading UtcTicks from a {Ticks} document throws |
| DateTimeSerializer.DeserializeIntended | src/Quartz.Impl.MongoDB/DateTimeSerializer.cs:12-47 | Every date the intended decoder produces is valid and its encoding was the input |
| DateTimeSerializer.IntendedRoundTrip | src/Quartz.Impl.MongoDB/DateTimeSerializer.cs:12-76 | The intended decoder returns every valid date it is given the encoding of |
| TimeOfDaySerializer.Construct | src/Quartz.Impl.MongoDB/TimeOfDaySerializer.cs:37 | The TimeOfDay constructor succeeds exactly for in-range hour, minute and second |
| TimeOfDaySerializer.Serialize | src/Quartz.Impl.MongoDB/TimeOfDaySerializer.cs:49-57 | The encoding is exactly the Int32 elements Hour, Minute, Second, in that order |
| TimeOfDaySerializer.Read | src/Quartz.Impl.MongoDB/TimeOfDaySerializer.cs:24-42 | Null decodes to null and only Null does; another non-document throws NotSupportedException; a decoded time is valid and its encoding was the input |
| TimeOfDaySerializer.Deserialize | src/Quartz.Impl.MongoDB/TimeOfDaySerializer.cs:19-22 | The four-argument overload ignores the types |
| TimeOfDaySerializer.DeserializeNominal | src/Quartz.Impl.MongoDB/TimeOfDaySerializer.cs:14-17 | The three-argument overload ignores the type |
| TimeOfDaySerializer.OverloadsAgree | src/Quartz.Impl.MongoDB/TimeOfDaySerializer.cs:14-22 | Both overloads return the same outcome on every value |
| TimeOfDaySerializer.RoundTrip | src/Quartz.Impl.MongoDB/TimeOfDaySerializer.cs:24-57 | Every valid time of day comes back unchanged |
| TimeOfDaySerializer.DecodesExactlyTheEncodings | src/Quartz.Impl.MongoDB/TimeOfDaySerializer.cs:24-57 | A value decodes to a time exactly when it is the encoding of a valid time |
| JobDataMapSerializer.SerializeAsWritten | src/Quartz.Impl.MongoDB/JobDataMapSerializer.cs:74-86 | As written, only the empty map can be serialized (to an empty document); every other map throws |
| JobDataMapSerializer.Serialize | src/Quartz.Impl.MongoDB/JobDataMapSerializer.cs:74-86 | The intended encoding has one element per entry, named by its key and holding its value, in iteration order, and nothing else |
| JobDataMapSerializer.AddAllSpec | src/Quartz.Impl.MongoDB/JobDataMapSerializer.cs:26-31 | The decode loop succeeds exactly when the keys stay distinct, and then appends every element in document order |
| JobDataMapSerializer.Deserialize | src/Quartz.Impl.MongoDB/JobDataMapSerializer.cs:12-47 | A wrong type throws BsonSerializationException; Null decodes to null; another non-document throws; a document decodes entry by entry |
| JobDataMapSerializer.DecodeDocument | src/Quartz.Impl.MongoDB/JobDataMapSerializer.cs:20-36 | A document decodes exactly when its element names are distinct, and then to its elements in order |
| JobDataMapSerializer.AsWrittenRejectsEntries | src/Quartz.Impl.MongoDB/JobDataMapSerializer.cs:79 | As written, every non-empty map fails: with NullReferenceException when its first value is null, with InvalidCastException otherwise |
| JobDataMapSerializer.RoundTrip | src/Quartz.Impl.MongoDB/JobDataMapSerializer.cs:12-86 | The intended encoder round-trips every map |
| NameValueCollectionSerializer.EscapeHasNoPeriod | src/Quartz.Impl.MongoDB/NameValueCollectionSerializer.cs:54 | No encoded element name contains "." |
| NameValueCollectionSerializer.Serialize | src/Quartz.Impl.MongoDB/NameValueCollectionSerializer.cs:41-58 | A null or empty collection is an empty document; otherwise one string element per key, its name escaped, in order |
| NameValueCollectionSerializer.ReadPairs | src/Quartz.Impl.MongoDB/NameValueCollectionSerializer.cs:31-36 | The loop succeeds exactly when every element is a string, and then yields one unescaped pair per element, in order |
| NameValueCollectionSerializer.Deserialize | src/Quartz.Impl.MongoDB/NameValueCollectionSerializer.cs:18-39 | Anything but a document, Null included, throws |
| NameValueCollectionSerializer.RoundTripShape | src/Quartz.Impl.MongoDB/NameValueCollectionSerializer.cs:23-58 | Decoding an encoding succeeds and yields each key unescaped after escaping, with its value kept |
| NameValueCollectionSerializer.NullComesBackEmpty | src/Quartz.Impl.MongoDB/NameValueCollectionSerializer.cs:29-57 | A null collection comes back as an empty one, not as null |
| NameValueCollectionSerializer.UnescapeEscapeWithoutUnderscore | src/Quartz.Impl.MongoDB/NameValueCollectionSerializer.cs:33-54 | A key without "_" survives the round trip |
| NameValueCollectionSerializer.EscapeWithoutPeriod | src/Quartz.Impl.MongoDB/NameValueCollectionSerializer.cs:54 | A key without "." is written unchanged |
| NameValueCollectionSerializer.EscapingCollides | src/Quartz.Impl.MongoDB/NameValueCollectionSerializer.cs:33-54 | The keys "a__period__b" and "a.b" both come back as "a.b" |
| NameValueCollectionSerializer.ReplaceFirstDiffers | src/Quartz.Impl.MongoDB/NameValueCollectionSerializer.cs:33-54 | String.Replace keeps a first character that cannot start the pattern |
| NameValueCollectionSerializer.EscapeIntended | src/Quartz.Impl.MongoDB/NameValueCollectionSerializer.cs:54 | The injective escaping produces no "." |
| NameValueCollectionSerializer.UnescapeEscapeIntended | src/Quartz.Impl.MongoDB/NameValueCollectionSerializer.cs:33-54 | The injective escaping is undone by its reader for every key |
| NameValueCollectionSerializer.SerializeIntended | src/Quartz.Impl.MongoDB/NameValueCollectionSerializer.cs:41-58 | The intended writer: an empty document for null or empty, else one escaped string element per key |
| NameValueCollectionSerializer.DeserializeIntended | src/Quartz.Impl.MongoDB/NameValueCollectionSerializer.cs:23-39 | The intended reader throws on anything but a document |
| NameValueCollectionSerializer.IntendedRoundTrip | src/Quartz.Impl.MongoDB/NameValueCollectionSerializer.cs:23-58 | With the injective escaping every collection of single-valued, non-null keys round-trips, pair by pair |
| Conventions.IdOrKeyOrName | src/Quartz.Impl.MongoDB/IdOrKeyOrNameConvention.cs:11-22 | Id whenever present; Key when Id is absent; Name exactly when neither is; null exactly when none of the three is; a result is always a declared property |
| Conventions.IdOrKey | src/Quartz.Impl.MongoDB/IdOrKeyConvention.cs:11-19 | Id whenever present; Key when Id is absent; null exactly when neither is; never Name; a result is always a declared property |
| Conventions.KeyOrId | src/Quartz.Impl.MongoDB/KeyOrIdConvention.cs:11-19 | Key whenever present, even alongside Id; Id exactly when Key is absent and Id present; null exactly when neither; only these three outcomes |
| Conventions.ConventionsRelate | src/Quartz.Impl.MongoDB/IdOrKeyConvention.cs:11-19 | The two-name conventions disagree exactly on types with both names; the three-name one extends IdOrKey by the Name fallback only |

## Left out

- Connection and bootstrap: configuration lookup, index creation, instance id generation and `Shutdown` are not modelled, because they are I/O. Serializer and class-map registration is not a modelled step, but its effects are modelled where they decide an outcome: the registered JobDataMapSerializer makes `StoreJob` and `TriggeredJobComplete` throw for a job with data, and the naive class maps make acquisition throw on a document with a State element.
- `MongoErrorLog` is not modelled. It is error-log plumbing over a capped collection.
- The naive store's map-reduce queries (group names, paused groups, job and trigger keys) are not modelled. They run as server-side JavaScript.
- Trigger schedule arithmetic (cron, daily intervals, time zones) is a `Schedule` parameter, not computed. `UpdateWithNewCalendar` is used only by `StoreCalendar`, which is not part of this model.
- `DateTimeOffsetSerializer`, `SimpleTriggerImplSerializer`, `CalendarWrapper`, `TimeZoneInfoSerializer` and `SetSerializer` are not part of this model. They depend on constructors and libraries that are not visible. `JobDetailImplSerializer` is modelled only through its JobDataMap element, which decides whether `StoreJob` throws.
- The `lock` blocks and `Interlocked` are not modelled as such. Each public call is one atomic step, and races between instances are interleavings of whole calls.
- Signaler notifications and logging are left out. They do not affect the store. The naive store's `SignalSchedulingChange` argument is returned as a time value.
- The bundle's calendar object and recovery flag are left out. `Firing` bundles carry the job, the trigger and the fire times, but not the `ICalendar` the source attaches.
- Time zones and offsets are not modelled. Times are integer ticks on one timeline. The naive limit compares `limit.DateTime.Ticks` of a local `DateTime.Now`, and that offset is not modelled.
- `ReleaseAcquiredTrigger` is not modelled, because it only throws NotImplementedException (JobStore.cs:1447). `StoreCalendar` is not part of this model either: in the clustered store it updates the calendar's triggers through `UpdateWithNewCalendar`, which is schedule arithmetic, and in the naive store it is a NotImplemented stub (NaiveJobStore.cs:516).
- Read-only queries not named above are not part of this model. These are `RetrieveJob`, `RetrieveTrigger`, `GetJobKeys`, `GetTriggerKeys`, the counts, the group-name lists and `IsJobGroupPaused`. They are used only to define `ResumeJobs`, `ResumeTriggers` and `PauseAll`.
- Storage.DeleteJob: the removal by `_id` at JobStore.cs:386 reaches only a marker stored under the job's key. `blockedJobs` holds only markers stored under a job's key. The markers firing saves get a generated `_id` (see "## Findings"); they pile up in BlockedJobs, but no modelled operation can find or remove them, so they are not represented.
- Storage.InitialState: the lookups at JobStore.cs:518 and :523 find only a marker stored under the job's key. `blockedJobs` holds only markers stored under a job's key. The markers firing saves get a generated `_id` (see "## Findings"); they pile up in BlockedJobs, but no modelled operation can find or remove them, so they are not represented.
- Storage.StoreTriggerStores: the initial state reads the markers through InitialState. `blockedJobs` holds only markers stored under a job's key. The markers firing saves get a generated `_id` (see "## Findings"); they pile up in BlockedJobs, but no modelled operation can find or remove them, so they are not represented.
- Storage.StoredTriggerReports: the report reads the markers through InitialState. `blockedJobs` holds only markers stored under a job's key. The markers firing saves get a generated `_id` (see "## Findings"); they pile up in BlockedJobs, but no modelled operation can find or remove them, so they are not represented.
- PauseResume.ResumedState: the lookup at JobStore.cs:1105 finds only a marker stored under the job's key. `blockedJobs` holds only markers stored under a job's key. The markers firing saves get a generated `_id` (see "## Findings"); they pile up in BlockedJobs, but no modelled operation can find or remove them, so they are not represented.
- Firing.FireEffect: the marker document saved at JobStore.cs:1520 is not represented. `blockedJobs` holds only markers stored under a job's key. The markers firing saves get a generated `_id` (see "## Findings"); they pile up in BlockedJobs, but no modelled operation can find or remove them, so they are not represented.
- Firing.FireThenComplete: the removal at JobStore.cs:1578 never reaches the marker the firing saved. `blockedJobs` holds only markers stored under a job's key. The markers firing saves get a generated `_id` (see "## Findings"); they pile up in BlockedJobs, but no modelled operation can find or remove them, so they are not represented.
- Firing.BlockJobEffect: with the legacy driver (no multi flag), only "left alone or blocked" is proved for each record. Which single record the first-match update reaches is stated per record (`Firing.BlockJobAt`), not as a count.
- Firing.UnblockJobEffect: the job-wide turn back of every record is stated for the multi flag only. An update without Multi changes only the first matching document, so without it the property does not hold.
- Firing.FireFrame: the blocking of every trigger of the fired job is stated for the multi flag only. An update without Multi changes only the first matching document, so without it the property does not hold.
- Firing.ReleaseFrame: the unblocking of every trigger of the job is stated for the multi flag only. An update without Multi changes only the first matching document, so without it the property does not hold.
- Firing.InstructSetsJob: setting every record of the job is stated for the multi flag only. An update without Multi changes only the first matching document, so without it the property does not hold.
- Firing.TriggeredJobCompleteSetsJob: leaving every trigger of the job in the instructed state is stated for the multi flag only. An update without Multi changes only the first matching document, so without it the property does not hold.
- Firing.TriggeredJobCompleteUnblocks: unblocking the job's other triggers is stated for the multi flag only. An update without Multi changes only the first matching document, so without it the property does not hold.
- Firing.FireThenCompleteRestores: giving every other record its state back is stated for the multi flag only. An update without Multi changes only the first matching document, so without it the property does not hold.
- Naive.PauseSelection: pausing every trigger of a selection is stated for the multi flag only. An update without Multi changes only the first matching document, so without it the property does not hold.
- Naive.PauseResumeLeavesNormal: reporting Normal for a selection wider than one key is stated for the multi flag only. An update without Multi changes only the first matching document, so without it the property does not hold.
- Naive.InstructedOther: giving the job's other triggers their state is stated for the multi flag only. An update without Multi changes only the first matching document, so without it the property does not hold.
- Naive.TriggeredJobCompleteJob: the job-wide Set instructions query a serialized `JobKey` element. This is modelled as matching the trigger's job key, because the trigger serializer that writes that element is not visible. The property is stated for the multi flag only.
- Naive.GetTriggerState: a State that is not a string can be written only by something outside both stores. The InvalidCastException branch is modelled but never reached by the store's own writes.
- Naive.ClearFireInstanceId: `Update.Set("FireInstanceId", null)` is taken to store a null that reads back as no instance id. The driver's handling of a null argument is not visible.
- Naive.TriggersFired: the source mutates the caller's trigger objects, so a trigger listed twice is fired twice on the same object. The model fires the caller's value each time and does not model object aliasing.
- Acquisition.AcquireReleasesLocks: without the multi flag the final release resets only one Locked record. The property is proved for the multi flag only.
- Acquisition.LockedBy: the walk visits a snapshot of the Locked records, while the source iterates a lazy cursor over the collection that the loop updates (JobStore.cs:1350-1356). Each call is one atomic step and the loop writes only the records it has already visited, so the snapshot and the cursor visit the same triggers.
- Acquisition.AcquireNumbers: the counter's starting value (`SystemTime.UtcNow().Ticks` at type load) is not modelled. Ids are stated relative to the counter before the call.
- NameValueCollectionSerializer.Serialize: the model's pairs cannot hold a null key, which throws NullReferenceException at NameValueCollectionSerializer.cs:54. Nor can they hold a null value, which reaches `WriteString` at the same line and fails there; the model's values are non-null strings. A key with several values is written as its comma-joined values, which the model takes as one value.
- NameValueCollectionSerializer.IntendedRoundTrip: the round trip is stated for single-valued, non-null keys. A key with two values comes back as one comma-joined value, and `Add` at NameValueCollectionSerializer.cs:35 merges keys that differ only in letter case, including keys that unescape to the same name; case-insensitive merging is not modelled.
- DateTimeSerializer.RoundTripAlwaysFails: the error it names is the model reader's. The model's `ReadString`, `ReadInt32` and `ReadInt64` give InvalidOperationException alike for a wrong element name, a wrong type and a missing element. The 1.x reader reports a name mismatch as a format error, and reader exception types are not distinguished; what is proved is that the read fails.
- TimeOfDaySerializer.Read: the Null branch (TimeOfDaySerializer.cs:29-30) returns null without `ReadNull`, leaving the reader on the value; reader position is not modelled. `Serialize` dereferences a null TimeOfDay (TimeOfDaySerializer.cs:51-53), and the model's writer takes a non-null time only.
- JobDataMapSerializer.SerializeAsWritten: a value that is itself a boxed key/value pair passes the cast and would be written. Entry values are modelled as BSON values, so that case is not representable.
- Misfire.MisfireTime: `TotalMilliseconds` is a double, and `AddMilliseconds` rounds it half away from zero. The model uses exact integer ticks with that rounding, and does not model floating-point precision for thresholds beyond 2^53 ticks.

## Findings

| source | as written | input that shows it | evidently intended | confidence | as-written member | corrected member |
|---|---|---|---|---|---|---|
| src/Quartz.Impl.MongoDB/JobStore.cs:366-401 | RemoveJob removes the job's triggers through the orphan-removing overload before its own existence check | a stored non-durable job with one trigger: the cascade deletes the job, and the call returns false | return whether the job existed, as its documentation says | high, not executed | Storage.RemoveJobReportsFalseForExistingJob | Storage.RemoveJobIntendedReportsFound |
| src/Quartz.Impl.MongoDB/JobStore.cs:585-616 | ReplaceTrigger removes the old trigger through the orphan-removing overload | replacing the only trigger of a non-durable job: the job is deleted first, then storing the new trigger throws JobPersistenceException | keep the job, as StoreTrigger's replace path does | high, not executed | Storage.ReplaceTriggerLosesJob | Storage.ReplaceTriggerIntendedReplaces |
| src/Quartz.Impl.MongoDB/JobStore.cs:686-719 | GetTriggerState calls a member on the state document before testing it, so a missing one is dereferenced | any key on an empty store throws NullReferenceException | report None for an unknown trigger | high, not executed | Storage.GetTriggerStateThrowsOnUnknown | Storage.GetTriggerStateIntended |
| src/Quartz.Impl.MongoDB/JobStore.cs:773-784 | the guard compares the cursor with null, and a cursor is never null | any calendar, even one no trigger names, throws JobPersistenceException | refuse only a calendar that some trigger names | high, not executed | Storage.RemoveCalendarAlwaysThrows | Storage.RemoveCalendarIntendedGuards |
| src/Quartz.Impl.MongoDB/JobStore.cs:1085-1118 | ResumeTrigger saves the record it read before ApplyMisfire, over the Complete that ApplyMisfire wrote | a paused trigger whose misfire update leaves no next fire time ends Waiting, not Complete | keep Complete | medium, not executed | PauseResume.ResumeTriggerForgetsCompletion | PauseResume.ResumeTriggerIntendedKeepsCompletion |
| src/Quartz.Impl.MongoDB/JobStore.cs:1190-1222 | ResumeJobs reads each PausedJobGroups document as a string, which fails for any stored group; the removal that follows targets PausedTriggerGroups | job group g paused: ResumeJobs(Equality g) throws and g stays paused, so a trigger stored into it later starts Paused | read each group's `_id`, report the selected groups and remove them from PausedJobGroups | high, not executed | PauseResume.ResumeJobsLeavesGroupPaused | PauseResume.ResumeJobsIntendedResumes |
| src/Quartz.Impl.MongoDB/JobStore.cs:1334-1339 | the reclaim query `InstanceId $nin <live ids>` also matches records with no InstanceId | a Paused, unowned trigger due now is reset to Waiting and acquired | reclaim only records Locked or Acquired by an instance whose lease lapsed | high, not executed | Acquisition.PausedTriggerAcquired | Acquisition.PausedTriggerKeptIntended |
| src/Quartz.Impl.MongoDB/JobStore.cs:1582-1605 | the DeleteTrigger double check re-reads the caller's trigger copy, which cannot have changed | a trigger rescheduled while its job ran (the caller's copy has no next fire time, the stored one has) is deleted | re-read the stored trigger, and keep it when it has a next fire time | medium, not executed | Firing.RescheduledTriggerDeleted | Firing.RescheduledTriggerKeptIntended |
| src/Quartz.Impl.MongoDB/NaiveJobStore.cs:628-646 | TriggersFired saves the whole trigger document, which drops its State element | GetTriggerState on a trigger just fired throws KeyNotFoundException | a fired trigger reports Normal | medium, not executed | Naive.FiredTriggerStateLost | Naive.FiredTriggerReportsNormal |
| src/Quartz.Impl.MongoDB/TriggerKeySerializer.cs:26-28 | Group is passed as the constructor's first argument, which Quartz's TriggerKey takes as the name | the key ("t1", "DEFAULT") decodes as ("DEFAULT", "t1") | pass Name, then Group | high, not executed | TriggerKeySerializer.QuartzRoundTripCounterexample | TriggerKeySerializer.IntendedRoundTrip |
| src/Quartz.Impl.MongoDB/DateTimeSerializer.cs:27 | the reader asks for UtcTicks, and the writer writes Ticks | every DateTime: its encoding fails to decode | read Ticks | high, not executed | DateTimeSerializer.RoundTripAlwaysFails | DateTimeSerializer.IntendedRoundTrip |
| src/Quartz.Impl.MongoDB/NameValueCollectionSerializer.cs:33-54 | "." is escaped as "__period__" with no escape for the escape text itself | the keys "a__period__b" and "a.b" both decode as "a.b" | an injective escaping | high, not executed | NameValueCollectionSerializer.EscapingCollides | NameValueCollectionSerializer.IntendedRoundTrip |
| src/Quartz.Impl.MongoDB/JobDataMapSerializer.cs:79 | the loop iterates `item.Values`, with each value typed as a key/value pair | any map whose first value is non-null fails with InvalidCastException (a null first value: NullReferenceException) | iterate the entries | high, not executed | JobDataMapSerializer.AsWrittenRejectsEntries | JobDataMapSerializer.RoundTrip |
| src/Quartz.Impl.MongoDB/JobStore.cs:1551-1555 | the completion encodes the JobDataMap through the registered JobDataMapSerializer, which throws on any entry; this comes after the reset to Waiting and before the unblocking, the marker removal and the instruction | completing a job that persists one data entry: the call throws, the data is not stored, the marker stays and triggers blocked by the firing stay Blocked | write the data, unblock the job's triggers, clear the marker and apply the instruction | high, not executed | Firing.CompletionWithDataStaysBlocked | Firing.TriggeredJobCompleteIntendedKeepsValid |
| src/Quartz.Impl.MongoDB/JobStore.cs:327-355 | StoreJob builds the job document through JobDetailImplSerializer, whose JobDataMap element goes through the same serializer | StoreJob of a new job with one data entry throws and stores nothing; StoreJobAndTrigger and StoreJobsAndTriggers throw at that job too | store the job with its data | high, not executed | Storage.StoreJobWithDataFails | Storage.StoreJobIntended |
| src/Quartz.Impl.MongoDB/JobStore.cs:1520 | the blocked marker is saved as the bare job key document, with no `_id`, so the driver generates one, while every lookup and removal of markers matches `_id` | fire a trigger of a concurrency-disallowed job, then store another trigger of that job: the new trigger starts Waiting, not Blocked | save the marker with the job key as its `_id` | medium, not executed | Firing.FiredJobStaysUnmarked | Firing.FiredJobMarkedIntended |
| src/Quartz.Impl.MongoDB/NaiveJobStore.cs:139-168 | acquisition reads every matched document as a trigger through class maps that do not ignore extra elements, but pause, resume and the Set instructions add a State element | store a trigger due now, pause it, resume it: AcquireNextTriggers with a positive maxCount throws FileFormatException | read the triggers ignoring the State element | medium, not executed | Naive.PauseResumeBreaksAcquire | Naive.PauseResumeAcquireIntended |

=== FILE: acquisition.dfy ===
/** AcquireNextTriggers of the clustered store: the instance lease, the
    reclaiming of records whose owner is gone, the locking of waiting
    records, and the walk over the locked triggers that acquires some. */
module Acquisition {
  import opened Wrappers
  import opened Exceptions
  import opened Quartz
  import opened Store
  import Documents
  import Misfire
  import FireIds

  /** An instance's lease: ten minutes, in ticks. */
  const LeaseTicks := 10 * 60 * 1_000 * TicksPerMillisecond

  /** The arguments of one call, with the instance id and the clock read. */
  datatype Request = Request(
    me: string,
    now: int,
    noLaterThan: int,
    maxCount: int,
    timeWindow: int,
    schedule: Schedule)

  /** The walk's state: the store, the triggers acquired so far, the
      concurrency-disallowed jobs already taken, and the first acquired
      trigger's fire time. */
  datatype Acq = Acq(store: Store, result: seq<Trigger>, taken: set<JobKey>, first: Option<int>)

  /** One candidate visited: the new state, whether the walk stops here,
      and whether it failed (a missing job is dereferenced). */
  datatype Visited = Visited(acq: Acq, stop: bool, failed: bool)

  /** Acquiring one trigger: its record becomes Acquired by `me`, the next
      fired-trigger id is drawn, and the trigger is saved carrying it. */
  function Take(s: Store, me: string, t: Trigger): (r: (Store, Trigger))
    requires FireIds.IsInt64(s.fireCounter)
    ensures FireIds.IsInt64(r.0.fireCounter)
    ensures r.0.fireCounter == FireIds.Increment64(s.fireCounter)
    ensures r.1 == t.(fireInstanceId := Some(FireIds.DecimalText(r.0.fireCounter)))
    ensures r.0 == s.(triggers := r.0.triggers, states := r.0.states, fireCounter := r.0.fireCounter)
  {
    var s2 := UpdateStates(s, ById(t.key), SetStateAndOwner(Acquired, me), false);
    var (s3, id) := FireIds.GetFiredTriggerRecordId(s2);
    var t2 := t.(fireInstanceId := Some(id));
    (SaveTrigger(s3, t2), t2)
  }

  /** The loop body once the trigger's misfire handling `m` is done. */
  function Consider(a: Acq, q: Request, t: Trigger, m: Misfire.Outcome): (v: Visited)
    requires FireIds.IsInt64(m.store.fireCounter)
    requires m.trigger.next.Some?
  {
    var a1 := a.(store := m.store);
    if m.misfired then Visited(a1, false, false)
    else if m.trigger.next.value > q.noLaterThan + q.timeWindow then Visited(a1, true, false)
    else if t.jobKey !in m.store.jobs then Visited(a1, true, true)
    else
      var job := m.store.jobs[t.jobKey];
      if job.concurrentDisallowed && t.jobKey in a.taken then Visited(a1, false, false)
      else
        var taken := if job.concurrentDisallowed then a.taken + {t.jobKey} else a.taken;
        var (s3, t2) := Take(m.store, q.me, m.trigger);
        var result := a.result + [t2];
        var first := if a.first.None? then t2.next else a.first;
        Visited(Acq(s3, result, taken, first), |result| == q.maxCount, false)
  }

  /** The body of the loop for one locked trigger. */
  function Visit(a: Acq, q: Request, t: Trigger): (v: Visited)
    requires FireIds.IsInt64(a.store.fireCounter)
    ensures FireIds.IsInt64(v.acq.store.fireCounter)
    ensures v.acq.store == a.store.(triggers := v.acq.store.triggers, states := v.acq.store.states,
                                   fireCounter := v.acq.store.fireCounter)
    ensures |v.acq.result| == |a.result| ==> v.acq.result == a.result && v.acq.store.fireCounter == a.store.fireCounter
    ensures |v.acq.result| != |a.result| ==> |v.acq.result| == |a.result| + 1 && v.acq.result[..|a.result|] == a.result
  {
    if t.next.None? then Visited(a, false, false)
    else if a.first.Some? && t.next.value > a.first.value + q.timeWindow then Visited(a, true, false)
    else
      var m := Misfire.ApplyMisfire(a.store, q.schedule, q.now, t);
      if m.misfired then Visited(a.(store := m.store), false, false)
      else Consider(a, q, t, m)
  }

  /** The walk over the locked triggers, in natural order. */
  function Walk(a: Acq, q: Request, cands: seq<Trigger>): (r: Visited)
    requires FireIds.IsInt64(a.store.fireCounter)
    ensures FireIds.IsInt64(r.acq.store.fireCounter)
    ensures r.acq.store == a.store.(triggers := r.acq.store.triggers, states := r.acq.store.states,
                                   fireCounter := r.acq.store.fireCounter)
    ensures |a.result| <= |r.acq.result| <= |a.result| + |cands| && r.acq.result[..|a.result|] == a.result
    decreases |cands|
  {
    if |cands| == 0 then Visited(a, false, false)
    else
      var v := Visit(a, q, cands[0]);
      if v.failed || v.stop then v else Walk(v.acq, q, cands[1..])
  }

  /** The lease step: this instance's lease is saved as now + ten minutes,
      then every lease that expired before now is removed. */
  function Lease(s: Store, me: string, now: int): (r: Store)
    ensures me in r.instances && r.instances[me] == now + LeaseTicks
    ensures forall i :: i in r.instances ==> r.instances[i] >= now
    ensures forall i :: i in s.instances && i != me && s.instances[i] >= now ==> i in r.instances && r.instances[i] == s.instances[i]
    ensures forall i :: i in r.instances ==> i == me || i in s.instances
    ensures r == s.(instances := r.instances)
  {
    var saved := s.instances[me := now + LeaseTicks];
    s.(instances := map i | i in saved && !(saved[i] < now) :: saved[i])
  }

  /** The records the walk visits: the triggers whose record this instance
      holds Locked, in the Triggers collection's natural order. */
  function LockedBy(s: Store, me: string): (ts: seq<Trigger>)
    ensures forall t :: t in ts ==> t in s.triggers && StateOf(s, t.key) == Some(StateRecord(t.key, Locked, Some(me)))
    ensures forall t :: t in s.triggers && StateOf(s, t.key) == Some(StateRecord(t.key, Locked, Some(me))) ==> t in ts
    ensures |ts| <= |s.triggers|
    ensures Documents.UniqueKeys(s.triggers, TriggerKeyOf) ==> Documents.UniqueKeys(ts, TriggerKeyOf)
  {
    var p := (t: Trigger) => StateOf(s, t.key) == Some(StateRecord(t.key, Locked, Some(me)));
    Documents.FilterUnique(s.triggers, p, TriggerKeyOf);
    Documents.Filter(s.triggers, p)
  }

  /** The query that releases records whose owner is gone. As written it
      is `InstanceId $nin <live instances>`, which the driver may also let
      match records with no owner; the corrected one matches only records
      Locked or Acquired by an instance whose lease lapsed. */
  function ReclaimQuery(active: set<string>, driver: Driver, corrected: bool): Query {
    if corrected then HeldByGone(active) else OwnerNotIn(active, driver.ninMatchesMissing)
  }

  /** The lease step followed by the reclaim step. */
  function Reclaimed(s: Store, q: Request, driver: Driver, corrected: bool): (r: Store)
    ensures r == s.(instances := r.instances, states := r.states)
  {
    var leased := Lease(s, q.me, q.now);
    UpdateStates(leased, ReclaimQuery(leased.instances.Keys, driver, corrected), SetStateUnsetOwner(Waiting), driver.multi)
  }

  /** The store just before the walk: lease, reclaim, then every Waiting
      record is Locked by this instance. */
  function Prepared(s: Store, q: Request, driver: Driver, corrected: bool): (r: Store)
    ensures r == s.(instances := r.instances, states := r.states)
  {
    UpdateStates(Reclaimed(s, q, driver, corrected), InState(Waiting), SetStateAndOwner(Locked, q.me), driver.multi)
  }

  /** The acquisition with the reclaim step as written or corrected. */
  function AcquireWith(s: Store, q: Request, driver: Driver, corrected: bool): (r: Step<seq<Trigger>>)
    requires FireIds.IsInt64(s.fireCounter)
  {
    var locked := Prepared(s, q, driver, corrected);
    var w := Walk(Acq(locked, [], {}, None), q, LockedBy(locked, q.me));
    if w.failed then Step(w.acq.store, Err(NullReference))
    else
      Step(UpdateStates(w.acq.store, OwnedInState(q.me, Locked), SetStateUnsetOwner(Waiting), driver.multi),
           Ok(w.acq.result))
  }

  /** AcquireNextTriggers as written. `driver` decides whether each Update
      changes all matches or only the first, and whether `$nin` matches a
      record with no owner. */
  function AcquireNextTriggers(s: Store, q: Request, driver: Driver): (r: Step<seq<Trigger>>)
    requires FireIds.IsInt64(s.fireCounter)
  {
    AcquireWith(s, q, driver, false)
  }

  /** AcquireNextTriggers with the corrected reclaim step. */
  function AcquireNextTriggersIntended(s: Store, q: Request, driver: Driver): (r: Step<seq<Trigger>>)
    requires FireIds.IsInt64(s.fireCounter)
  {
    AcquireWith(s, q, driver, true)
  }

  /** What one visit adds: at most the visited trigger, carrying its fire
      time (within both windows), the next fired-trigger id and, for a
      concurrency-disallowed job, a job not taken before. The walk stops
      after an addition exactly when the result reaches maxCount. */
  ghost predicate Appends(a: Acq, q: Request, t: Trigger, v: Visited) {
    && FireIds.IsInt64(a.store.fireCounter)
    && v.acq.store.jobs == a.store.jobs
    && a.taken <= v.acq.taken
    && (|v.acq.result| == |a.result| ==>
          v.acq.result == a.result && v.acq.first == a.first && v.acq.store.fireCounter == a.store.fireCounter)
    && (|v.acq.result| != |a.result| ==>
          && |v.acq.result| == |a.result| + 1 && v.acq.result[..|a.result|] == a.result
          && var x := v.acq.result[|a.result|];
          && x.key == t.key && x.jobKey == t.jobKey
          && t.next.Some? && x.next == t.next
          && x.next.value <= q.noLaterThan + q.timeWindow
          && (a.first.Some? ==> x.next.value <= a.first.value + q.timeWindow)
          && v.acq.first == (if a.first.None? then x.next else a.first)
          && x.fireInstanceId == Some(FireIds.DecimalText(v.acq.store.fireCounter))
          && v.acq.store.fireCounter == FireIds.Increment64(a.store.fireCounter)
          && (t.jobKey in a.store.jobs && a.store.jobs[t.jobKey].concurrentDisallowed ==>
                t.jobKey !in a.taken && t.jobKey in v.acq.taken)
          && (v.stop <==> |v.acq.result| == q.maxCount))
  }

  lemma VisitAppends(a: Acq, q: Request, t: Trigger)
    requires FireIds.IsInt64(a.store.fireCounter)
    ensures Appends(a, q, t, Visit(a, q, t))
  {
  }

  /** Every acquired trigger fires no later than noLaterThan + timeWindow,
      and none later than the first acquired one + timeWindow. */
  ghost predicate Bounded(result: seq<Trigger>, q: Request) {
    && (forall i :: 0 <= i < |result| ==> result[i].next.Some? && result[i].next.value <= q.noLaterThan + q.timeWindow)
    && (forall i :: 1 <= i < |result| ==> result[i].next.value <= result[0].next.value + q.timeWindow)
  }

  /** The walk remembers the first acquired trigger's fire time. */
  ghost predicate Tracks(a: Acq) {
    a.first == if |a.result| == 0 then None else a.result[0].next
  }

  /** One step keeps the bounds, and the walk goes on only below maxCount. */
  lemma BoundedAfter(a: Acq, q: Request, t: Trigger, v: Visited)
    requires Appends(a, q, t, v)
    requires Bounded(a.result, q) && Tracks(a) && (q.maxCount >= 1 ==> |a.result| < q.maxCount)
    ensures Bounded(v.acq.result, q) && Tracks(v.acq)
    ensures q.maxCount >= 1 ==> |v.acq.result| <= q.maxCount
    ensures q.maxCount >= 1 && !v.stop ==> |v.acq.result| < q.maxCount
  {
    if |v.acq.result| != |a.result| {
      assert forall i :: 0 <= i < |a.result| ==> v.acq.result[i] == a.result[i];
    }
  }

  lemma {:induction false} WalkBounds(a: Acq, q: Request, cands: seq<Trigger>)
    requires FireIds.IsInt64(a.store.fireCounter)
    requires Bounded(a.result, q) && Tracks(a) && (q.maxCount >= 1 ==> |a.result| < q.maxCount)
    ensures Bounded(Walk(a, q, cands).acq.result, q)
    ensures q.maxCount >= 1 ==> |Walk(a, q, cands).acq.result| <= q.maxCount
    decreases |cands|
  {
    if |cands| > 0 {
      var v := Visit(a, q, cands[0]);
      VisitAppends(a, q, cands[0]);
      BoundedAfter(a, q, cands[0], v);
      if !v.failed && !v.stop {
        WalkBounds(v.acq, q, cands[1..]);
      }
    }
  }

  /** Each acquired trigger's fired-trigger id is the next counter value. */
  ghost predicate Numbered(a: Acq, c0: int) {
    && a.store.fireCounter == c0 + |a.result|
    && forall i :: 0 <= i < |a.result| ==> a.result[i].fireInstanceId == Some(FireIds.DecimalText(c0 + i + 1))
  }

  /** One step keeps the numbering. */
  lemma NumberedAfter(a: Acq, q: Request, t: Trigger, v: Visited, c0: int)
    requires Appends(a, q, t, v)
    requires Numbered(a, c0) && c0 + |a.result| < FireIds.MaxInt64
    ensures Numbered(v.acq, c0)
  {
    if |v.acq.result| != |a.result| {
      assert forall i :: 0 <= i < |a.result| ==> v.acq.result[i] == a.result[i];
    }
  }

  lemma {:induction false} WalkIds(a: Acq, q: Request, cands: seq<Trigger>, c0: int)
    requires FireIds.IsInt64(a.store.fireCounter)
    requires Numbered(a, c0) && c0 + |a.result| + |cands| <= FireIds.MaxInt64
    ensures Numbered(Walk(a, q, cands).acq, c0)
    decreases |cands|
  {
    if |cands| > 0 {
      var v := Visit(a, q, cands[0]);
      VisitAppends(a, q, cands[0]);
      NumberedAfter(a, q, cands[0], v, c0);
      if !v.failed && !v.stop {
        WalkIds(v.acq, q, cands[1..], c0);
      }
    }
  }

  /** A concurrency-disallowed job has at most one acquired trigger. */
  ghost predicate OncePerJob(result: seq<Trigger>, jobs: map<JobKey, Job>) {
    forall i, j :: 0 <= i < j < |result| && result[i].jobKey == result[j].jobKey && result[i].jobKey in jobs ==>
      !jobs[result[i].jobKey].concurrentDisallowed
  }

  /** The walk's taken set holds every disallowed job it acquired. */
  ghost predicate TakenCovers(a: Acq) {
    forall i :: 0 <= i < |a.result| && a.result[i].jobKey in a.store.jobs && a.store.jobs[a.result[i].jobKey].concurrentDisallowed ==>
      a.result[i].jobKey in a.taken
  }

  /** One step keeps disallowed jobs to one trigger each. */
  lemma OnceAfter(a: Acq, q: Request, t: Trigger, v: Visited)
    requires Appends(a, q, t, v)
    requires OncePerJob(a.result, a.store.jobs) && TakenCovers(a)
    ensures OncePerJob(v.acq.result, v.acq.store.jobs) && TakenCovers(v.acq)
  {
    if |v.acq.result| != |a.result| {
      assert forall i :: 0 <= i < |a.result| ==> v.acq.result[i] == a.result[i];
    }
  }

  lemma {:induction false} WalkOncePerJob(a: Acq, q: Request, cands: seq<Trigger>)
    requires FireIds.IsInt64(a.store.fireCounter)
    requires OncePerJob(a.result, a.store.jobs) && TakenCovers(a)
    ensures OncePerJob(Walk(a, q, cands).acq.result, a.store.jobs)
    decreases |cands|
  {
    if |cands| > 0 {
      var v := Visit(a, q, cands[0]);
      VisitAppends(a, q, cands[0]);
      OnceAfter(a, q, cands[0], v);
      if !v.failed && !v.stop {
        WalkOncePerJob(v.acq, q, cands[1..]);
      }
    }
  }

  /** Marking a stored trigger's record Acquired by `me` keeps the store
      valid and changes no other record. */
  lemma AcquireRecord(s: Store, me: string, k: TriggerKey)
    requires Valid(s) && FindTrigger(s, k).Some?
    ensures var s2 := UpdateStates(s, ById(k), SetStateAndOwner(Acquired, me), false);
      && Valid(s2)
      && StateOf(s2, k) == Some(StateRecord(k, Acquired, Some(me)))
      && (forall k' :: k' != k ==> StateOf(s2, k') == StateOf(s, k'))
  {
    UpdateKeepsValid(s, ById(k), SetStateAndOwner(Acquired, me), false);
    UpdateByKey(s, ById(k), SetStateAndOwner(Acquired, me), false, k);
  }

  /** Taking a stored trigger of a stored job keeps the store valid, saves
      the trigger as returned with its record Acquired by `me`, and changes
      no other trigger or record. */
  lemma TakeStores(s: Store, me: string, t: Trigger)
    requires FireIds.IsInt64(s.fireCounter)
    requires Valid(s) && FindTrigger(s, t.key).Some? && t.jobKey in s.jobs
    ensures Valid(Take(s, me, t).0)
    ensures FindTrigger(Take(s, me, t).0, t.key) == Some(Take(s, me, t).1)
    ensures StateOf(Take(s, me, t).0, t.key) == Some(StateRecord(t.key, Acquired, Some(me)))
    ensures forall k :: k != t.key ==>
      FindTrigger(Take(s, me, t).0, k) == FindTrigger(s, k) && StateOf(Take(s, me, t).0, k) == StateOf(s, k)
  {
    var s2 := UpdateStates(s, ById(t.key), SetStateAndOwner(Acquired, me), false);
    AcquireRecord(s, me, t.key);
    var c := FireIds.Increment64(s.fireCounter);
    var s3 := s2.(fireCounter := c);
    var t2 := t.(fireInstanceId := Some(FireIds.DecimalText(c)));
    assert Take(s, me, t) == (SaveTrigger(s3, t2), t2);
    SameDocuments(s2, s3);
    SaveTriggerKeepsValid(s3, t2);
  }

  /** The loop body after misfire handling, on a valid store holding the
      trigger and its job. */
  lemma ConsiderStore(a: Acq, q: Request, t: Trigger, m: Misfire.Outcome)
    requires FireIds.IsInt64(m.store.fireCounter) && m.trigger.next.Some?
    requires Valid(m.store) && FindTrigger(m.store, t.key).Some? && t.jobKey in m.store.jobs
    requires m.trigger.key == t.key && m.trigger.jobKey == t.jobKey
    ensures var v := Consider(a, q, t, m);
      && !v.failed && Valid(v.acq.store)
      && (forall k :: k != t.key ==>
            FindTrigger(v.acq.store, k) == FindTrigger(m.store, k) && StateOf(v.acq.store, k) == StateOf(m.store, k))
      && (|v.acq.result| != |a.result| ==>
            && |v.acq.result| == |a.result| + 1
            && FindTrigger(v.acq.store, t.key) == Some(v.acq.result[|a.result|])
            && StateOf(v.acq.store, t.key) == Some(StateRecord(t.key, Acquired, Some(q.me))))
  {
    TakeStores(m.store, q.me, m.trigger);
  }

  /** One visit of a stored trigger in a valid store: nothing fails, the
      store stays valid, no other trigger or record changes, and an
      acquired trigger is saved with its record Acquired by this instance. */
  lemma VisitStore(a: Acq, q: Request, t: Trigger)
    requires FireIds.IsInt64(a.store.fireCounter)
    requires Valid(a.store) && FindTrigger(a.store, t.key) == Some(t)
    ensures var v := Visit(a, q, t);
      && !v.failed && Valid(v.acq.store)
      && (forall k :: k != t.key ==>
            FindTrigger(v.acq.store, k) == FindTrigger(a.store, k) && StateOf(v.acq.store, k) == StateOf(a.store, k))
      && (|v.acq.result| != |a.result| ==>
            && FindTrigger(v.acq.store, t.key) == Some(v.acq.result[|a.result|])
            && StateOf(v.acq.store, t.key) == Some(StateRecord(t.key, Acquired, Some(q.me))))
  {
    if t.next.Some? && !(a.first.Some? && t.next.value > a.first.value + q.timeWindow) {
      var m := Misfire.ApplyMisfire(a.store, q.schedule, q.now, t);
      Misfire.ApplyMisfireEffect(a.store, q.schedule, q.now, t);
      if !m.misfired {
        ConsiderStore(a, q, t, m);
      }
    }
  }

  /** Each candidate is the stored copy of its trigger. */
  ghost predicate Current(s: Store, cands: seq<Trigger>) {
    forall i :: 0 <= i < |cands| ==> FindTrigger(s, cands[i].key) == Some(cands[i])
  }

  /** Each acquired trigger is stored as returned, its record Acquired by `me`. */
  ghost predicate Held(a: Acq, me: string) {
    forall i :: 0 <= i < |a.result| ==>
      && FindTrigger(a.store, a.result[i].key) == Some(a.result[i])
      && StateOf(a.store, a.result[i].key) == Some(StateRecord(a.result[i].key, Acquired, Some(me)))
  }

  /** The keys of the candidates. */
  function KeySet(cands: seq<Trigger>): (ks: set<TriggerKey>)
    ensures forall i :: 0 <= i < |cands| ==> cands[i].key in ks
  {
    if |cands| == 0 then {} else {cands[0].key} + KeySet(cands[1..])
  }

  /** A key no candidate has is not among the candidates' keys. */
  lemma {:induction false} NotInKeySet(k: TriggerKey, cands: seq<Trigger>)
    requires forall i :: 0 <= i < |cands| ==> cands[i].key != k
    ensures k !in KeySet(cands)
    decreases |cands|
  {
    if |cands| > 0 {
      assert forall i :: 0 <= i < |cands[1..]| ==> cands[1..][i] == cands[i + 1];
      NotInKeySet(k, cands[1..]);
    }
  }

  /** The walk's preconditions on the store side. */
  ghost predicate Walkable(a: Acq, me: string, cands: seq<Trigger>) {
    && Valid(a.store) && Current(a.store, cands) && Documents.UniqueKeys(cands, TriggerKeyOf) && Held(a, me)
    && (forall i :: 0 <= i < |a.result| ==> a.result[i].key !in KeySet(cands))
  }

  /** The candidates after the first keep unique keys, none of them the
      first one's. */
  lemma KeysTail(cands: seq<Trigger>)
    requires |cands| > 0 && Documents.UniqueKeys(cands, TriggerKeyOf)
    ensures var rest := cands[1..];
      && Documents.UniqueKeys(rest, TriggerKeyOf)
      && cands[0].key !in KeySet(rest)
      && KeySet(cands) == {cands[0].key} + KeySet(rest)
  {
    var rest := cands[1..];
    assert forall i :: 0 <= i < |rest| ==> rest[i] == cands[i + 1];
    assert forall i :: 0 <= i < |rest| ==> TriggerKeyOf(cands[0]) != TriggerKeyOf(rest[i]);
    NotInKeySet(cands[0].key, rest);
  }

  /** After visiting the first candidate the store is still valid, the
      remaining candidates are still current, and no other key changed. */
  lemma StepCurrent(a: Acq, q: Request, cands: seq<Trigger>)
    requires FireIds.IsInt64(a.store.fireCounter)
    requires |cands| > 0 && Valid(a.store) && Current(a.store, cands) && Documents.UniqueKeys(cands, TriggerKeyOf)
    ensures var v := Visit(a, q, cands[0]);
      && !v.failed && Valid(v.acq.store) && Current(v.acq.store, cands[1..])
      && (forall k :: k != cands[0].key ==>
            FindTrigger(v.acq.store, k) == FindTrigger(a.store, k) && StateOf(v.acq.store, k) == StateOf(a.store, k))
  {
    VisitStore(a, q, cands[0]);
    var rest := cands[1..];
    assert forall i :: 0 <= i < |rest| ==> rest[i] == cands[i + 1] && TriggerKeyOf(rest[i]) != TriggerKeyOf(cands[0]);
  }

  /** A step from `a` to `b` that changes only trigger `t`'s documents and
      at most appends `t`, held, keeps every acquired trigger held. */
  lemma HeldAfter(a: Acq, b: Acq, me: string, cands: seq<Trigger>)
    requires |cands| > 0 && Documents.UniqueKeys(cands, TriggerKeyOf) && Held(a, me)
    requires forall i :: 0 <= i < |a.result| ==> a.result[i].key !in KeySet(cands)
    requires forall k :: k != cands[0].key ==>
      FindTrigger(b.store, k) == FindTrigger(a.store, k) && StateOf(b.store, k) == StateOf(a.store, k)
    requires |b.result| == |a.result| ==> b.result == a.result
    requires |b.result| != |a.result| ==>
      && |b.result| == |a.result| + 1 && b.result[..|a.result|] == a.result
      && b.result[|a.result|].key == cands[0].key
      && FindTrigger(b.store, cands[0].key) == Some(b.result[|a.result|])
      && StateOf(b.store, cands[0].key) == Some(StateRecord(cands[0].key, Acquired, Some(me)))
    ensures Held(b, me)
    ensures forall i :: 0 <= i < |b.result| ==> b.result[i].key !in KeySet(cands[1..])
  {
    KeysTail(cands);
    var r := b.result;
    forall i | 0 <= i < |r|
      ensures FindTrigger(b.store, r[i].key) == Some(r[i])
      ensures StateOf(b.store, r[i].key) == Some(StateRecord(r[i].key, Acquired, Some(me)))
      ensures r[i].key !in KeySet(cands[1..])
    {
      if i < |a.result| {
        assert r[i] == a.result[i];
        assert a.result[i].key !in KeySet(cands);
      }
    }
  }

  /** After visiting the first candidate every acquired trigger is held,
      and none is among the remaining candidates. */
  lemma StepHeld(a: Acq, q: Request, cands: seq<Trigger>)
    requires FireIds.IsInt64(a.store.fireCounter)
    requires |cands| > 0 && Walkable(a, q.me, cands)
    ensures var v := Visit(a, q, cands[0]);
      && Held(v.acq, q.me)
      && (forall i :: 0 <= i < |v.acq.result| ==> v.acq.result[i].key !in KeySet(cands[1..]))
      && (|v.acq.result| != |a.result| ==> v.acq.result[|a.result|].key == cands[0].key)
  {
    var v := Visit(a, q, cands[0]);
    VisitStore(a, q, cands[0]);
    VisitAppends(a, q, cands[0]);
    HeldAfter(a, v.acq, q.me, cands);
  }

  /** A visit of the first candidate leaves the rest walkable. */
  lemma WalkableStep(a: Acq, q: Request, cands: seq<Trigger>)
    requires FireIds.IsInt64(a.store.fireCounter)
    requires |cands| > 0 && Walkable(a, q.me, cands)
    ensures var v := Visit(a, q, cands[0]);
      && !v.failed && Walkable(v.acq, q.me, cands[1..])
      && (forall k :: k != cands[0].key ==>
            FindTrigger(v.acq.store, k) == FindTrigger(a.store, k) && StateOf(v.acq.store, k) == StateOf(a.store, k))
      && (|v.acq.result| != |a.result| ==> v.acq.result[|a.result|].key == cands[0].key)
  {
    StepCurrent(a, q, cands);
    StepHeld(a, q, cands);
    KeysTail(cands);
  }

  /** The walk over current candidates of a valid store never fails, keeps
      the store valid and leaves every acquired trigger held. */
  lemma {:induction false} WalkStore(a: Acq, q: Request, cands: seq<Trigger>)
    requires FireIds.IsInt64(a.store.fireCounter)
    requires Walkable(a, q.me, cands)
    ensures var w := Walk(a, q, cands);
      !w.failed && Valid(w.acq.store) && Held(w.acq, q.me)
    decreases |cands|
  {
    if |cands| > 0 {
      var v := Visit(a, q, cands[0]);
      WalkableStep(a, q, cands);
      if !v.stop {
        WalkStore(v.acq, q, cands[1..]);
      }
    }
  }

  /** The walk touches only the candidates: every other trigger and record
      is as before. */
  lemma {:induction false} WalkFrame(a: Acq, q: Request, cands: seq<Trigger>)
    requires FireIds.IsInt64(a.store.fireCounter)
    requires Walkable(a, q.me, cands)
    ensures var w := Walk(a, q, cands);
      forall k :: k !in KeySet(cands) ==>
        FindTrigger(w.acq.store, k) == FindTrigger(a.store, k) && StateOf(w.acq.store, k) == StateOf(a.store, k)
    decreases |cands|
  {
    if |cands| > 0 {
      var v := Visit(a, q, cands[0]);
      WalkableStep(a, q, cands);
      KeysTail(cands);
      if !v.stop {
        WalkFrame(v.acq, q, cands[1..]);
      }
    }
  }

  /** Every trigger the walk acquires is one of the candidates. */
  lemma {:induction false} WalkPicksCandidates(a: Acq, q: Request, cands: seq<Trigger>)
    requires FireIds.IsInt64(a.store.fireCounter)
    ensures forall i :: |a.result| <= i < |Walk(a, q, cands).acq.result| ==> Walk(a, q, cands).acq.result[i].key in KeySet(cands)
    decreases |cands|
  {
    if |cands| > 0 {
      var v := Visit(a, q, cands[0]);
      VisitAppends(a, q, cands[0]);
      assert KeySet(cands) == {cands[0].key} + KeySet(cands[1..]);
      if !v.failed && !v.stop {
        WalkPicksCandidates(v.acq, q, cands[1..]);
        var w := Walk(v.acq, q, cands[1..]);
        forall i | |a.result| <= i < |w.acq.result| ensures w.acq.result[i].key in KeySet(cands) {
          if i < |v.acq.result| {
            assert w.acq.result[i] == w.acq.result[..|v.acq.result|][i] == v.acq.result[i];
            assert i == |a.result| && v.acq.result[i].key == cands[0].key;
          } else {
            assert w.acq.result[i].key in KeySet(cands[1..]);
          }
        }
      }
    }
  }

  /** A key whose record is not Locked by `me` is not a candidate. */
  lemma NotCandidate(s: Store, me: string, k: TriggerKey)
    requires StateOf(s, k) != Some(StateRecord(k, Locked, Some(me)))
    ensures k !in KeySet(LockedBy(s, me))
  {
    var cands := LockedBy(s, me);
    assert forall i :: 0 <= i < |cands| ==> cands[i] in cands;
    NotInKeySet(k, cands);
  }

  /** The walk starts from a valid store with every candidate current. */
  lemma PreparedWalkable(s: Store, q: Request, driver: Driver, corrected: bool)
    requires Valid(s)
    ensures Valid(Prepared(s, q, driver, corrected))
    ensures Walkable(Acq(Prepared(s, q, driver, corrected), [], {}, None), q.me, LockedBy(Prepared(s, q, driver, corrected), q.me))
  {
    var leased := Lease(s, q.me, q.now);
    SameDocuments(s, leased);
    UpdateKeepsValid(leased, ReclaimQuery(leased.instances.Keys, driver, corrected), SetStateUnsetOwner(Waiting), driver.multi);
    var reclaimed := Reclaimed(s, q, driver, corrected);
    UpdateKeepsValid(reclaimed, InState(Waiting), SetStateAndOwner(Locked, q.me), driver.multi);
    var locked := Prepared(s, q, driver, corrected);
    var cands := LockedBy(locked, q.me);
    forall i | 0 <= i < |cands| ensures FindTrigger(locked, cands[i].key) == Some(cands[i]) {
      assert cands[i] in cands;
      StoredTrigger(locked, cands[i]);
    }
  }

  /** The final release (Locked by `me` back to Waiting) keeps the store
      valid and leaves Acquired records and all triggers alone. */
  lemma ReleaseKeepsHeld(st: Store, ts: seq<Trigger>, me: string, multi: bool)
    requires Valid(st)
    requires forall t :: t in ts ==>
      FindTrigger(st, t.key) == Some(t) && StateOf(st, t.key) == Some(StateRecord(t.key, Acquired, Some(me)))
    ensures var r := UpdateStates(st, OwnedInState(me, Locked), SetStateUnsetOwner(Waiting), multi);
      && Valid(r)
      && forall t :: t in ts ==>
           FindTrigger(r, t.key) == Some(t) && StateOf(r, t.key) == Some(StateRecord(t.key, Acquired, Some(me)))
  {
    var release := OwnedInState(me, Locked);
    UpdateKeepsValid(st, release, SetStateUnsetOwner(Waiting), multi);
    forall t | t in ts
      ensures StateOf(UpdateStates(st, release, SetStateUnsetOwner(Waiting), multi), t.key) == StateOf(st, t.key)
    {
      UpdateStateOf(st, release, SetStateUnsetOwner(Waiting), multi, t.key);
    }
  }

  /** Every acquisition on a valid store succeeds, keeps the store valid,
      and leaves each returned trigger saved as returned with its record
      Acquired by this instance. */
  lemma AcquireKeepsValid(s: Store, q: Request, driver: Driver, corrected: bool)
    requires FireIds.IsInt64(s.fireCounter) && Valid(s)
    ensures AcquireWith(s, q, driver, corrected).result.Ok?
    ensures Valid(AcquireWith(s, q, driver, corrected).store)
    ensures forall t :: t in AcquireWith(s, q, driver, corrected).result.value ==>
      && FindTrigger(AcquireWith(s, q, driver, corrected).store, t.key) == Some(t)
      && StateOf(AcquireWith(s, q, driver, corrected).store, t.key) == Some(StateRecord(t.key, Acquired, Some(q.me)))
  {
    var locked := Prepared(s, q, driver, corrected);
    PreparedWalkable(s, q, driver, corrected);
    var a := Acq(locked, [], {}, None);
    WalkStore(a, q, LockedBy(locked, q.me));
    var w := Walk(a, q, LockedBy(locked, q.me));
    assert forall t :: t in w.acq.result ==>
      FindTrigger(w.acq.store, t.key) == Some(t) && StateOf(w.acq.store, t.key) == Some(StateRecord(t.key, Acquired, Some(q.me)));
    ReleaseKeepsHeld(w.acq.store, w.acq.result, q.me, driver.multi);
  }

  /** The lease is renewed to now + ten minutes and no lapsed lease is
      left, whatever the outcome; besides the triggers, their records and
      the fired-trigger counter, nothing else changes. */
  lemma AcquireRenewsLease(s: Store, q: Request, driver: Driver, corrected: bool)
    requires FireIds.IsInt64(s.fireCounter)
    ensures var r := AcquireWith(s, q, driver, corrected).store;
      && q.me in r.instances && r.instances[q.me] == q.now + LeaseTicks
      && (forall i :: i in r.instances ==> r.instances[i] >= q.now)
      && (forall i :: i in s.instances && s.instances[i] >= q.now ==> i in r.instances)
      && r == s.(instances := r.instances, triggers := r.triggers, states := r.states, fireCounter := r.fireCounter)
  {
    var leased := Lease(s, q.me, q.now);
    var locked := Prepared(s, q, driver, corrected);
    assert locked.instances == leased.instances;
  }

  /** Every returned trigger fires no later than noLaterThan + timeWindow and
      no later than the first returned one + timeWindow, and a positive
      maxCount bounds how many are returned. */
  lemma AcquireBounds(s: Store, q: Request, driver: Driver, corrected: bool)
    requires FireIds.IsInt64(s.fireCounter)
    ensures var r := AcquireWith(s, q, driver, corrected).result;
      r.Ok? ==> Bounded(r.value, q) && (q.maxCount >= 1 ==> |r.value| <= q.maxCount)
  {
    var locked := Prepared(s, q, driver, corrected);
    WalkBounds(Acq(locked, [], {}, None), q, LockedBy(locked, q.me));
  }

  /** A job that disallows concurrent execution has at most one returned
      trigger. */
  lemma AcquireOncePerJob(s: Store, q: Request, driver: Driver, corrected: bool)
    requires FireIds.IsInt64(s.fireCounter)
    ensures var r := AcquireWith(s, q, driver, corrected).result;
      r.Ok? ==> OncePerJob(r.value, s.jobs)
  {
    var locked := Prepared(s, q, driver, corrected);
    WalkOncePerJob(Acq(locked, [], {}, None), q, LockedBy(locked, q.me));
  }

  /** Returned triggers carry the next fired-trigger ids in order, so no two
      share one, unless the counter would pass the largest long. */
  lemma AcquireNumbers(s: Store, q: Request, driver: Driver, corrected: bool)
    requires FireIds.IsInt64(s.fireCounter) && s.fireCounter + |s.triggers| <= FireIds.MaxInt64
    ensures var r := AcquireWith(s, q, driver, corrected);
      r.result.Ok? ==>
        && r.store.fireCounter == s.fireCounter + |r.result.value|
        && (forall i :: 0 <= i < |r.result.value| ==>
              r.result.value[i].fireInstanceId == Some(FireIds.DecimalText(s.fireCounter + i + 1)))
  {
    var locked := Prepared(s, q, driver, corrected);
    WalkIds(Acq(locked, [], {}, None), q, LockedBy(locked, q.me), s.fireCounter);
  }

  /** With the multi flag, no record is left Locked by this instance. */
  lemma AcquireReleasesLocks(s: Store, q: Request, driver: Driver, corrected: bool)
    requires FireIds.IsInt64(s.fireCounter) && Valid(s) && driver.multi
    ensures forall k :: StateOf(AcquireWith(s, q, driver, corrected).store, k).Some? ==>
      StateOf(AcquireWith(s, q, driver, corrected).store, k).value.state != Locked ||
      StateOf(AcquireWith(s, q, driver, corrected).store, k).value.owner != Some(q.me)
  {
    var locked := Prepared(s, q, driver, corrected);
    PreparedWalkable(s, q, driver, corrected);
    var a := Acq(locked, [], {}, None);
    WalkStore(a, q, LockedBy(locked, q.me));
    var w := Walk(a, q, LockedBy(locked, q.me));
    forall k | StateOf(AcquireWith(s, q, driver, corrected).store, k).Some?
      ensures StateOf(AcquireWith(s, q, driver, corrected).store, k).value.state != Locked ||
              StateOf(AcquireWith(s, q, driver, corrected).store, k).value.owner != Some(q.me)
    {
      UpdateStateOf(w.acq.store, OwnedInState(q.me, Locked), SetStateUnsetOwner(Waiting), true, k);
    }
  }

  /** The record for `k` is held, in some state other than Waiting, by
      another instance whose lease has not lapsed. */
  ghost predicate HeldByOther(s: Store, q: Request, k: TriggerKey) {
    && StateOf(s, k).Some?
    && StateOf(s, k).value.state != Waiting
    && StateOf(s, k).value.owner.Some?
    && StateOf(s, k).value.owner.value != q.me
    && StateOf(s, k).value.owner.value in s.instances
    && s.instances[StateOf(s, k).value.owner.value] >= q.now
  }

  /** Neither the reclaim nor the lock step touches a record held by a live
      instance other than this one. */
  lemma PreparedSpares(s: Store, q: Request, driver: Driver, corrected: bool, k: TriggerKey)
    requires Valid(s) && HeldByOther(s, q, k)
    ensures StateOf(Prepared(s, q, driver, corrected), k) == StateOf(s, k)
  {
    var leased := Lease(s, q.me, q.now);
    SameDocuments(s, leased);
    UpdateStateOf(leased, ReclaimQuery(leased.instances.Keys, driver, corrected), SetStateUnsetOwner(Waiting), driver.multi, k);
    var reclaimed := Reclaimed(s, q, driver, corrected);
    UpdateStateOf(reclaimed, InState(Waiting), SetStateAndOwner(Locked, q.me), driver.multi, k);
  }

  /** After the lock step, a key whose record is owned by someone else is
      left alone by the walk and the release, and is not returned. */
  lemma WalkSpares(locked: Store, q: Request, multi: bool, k: TriggerKey)
    requires FireIds.IsInt64(locked.fireCounter)
    requires Walkable(Acq(locked, [], {}, None), q.me, LockedBy(locked, q.me))
    requires StateOf(locked, k).Some? && StateOf(locked, k).value.owner != Some(q.me)
    ensures var w := Walk(Acq(locked, [], {}, None), q, LockedBy(locked, q.me));
      && StateOf(UpdateStates(w.acq.store, OwnedInState(q.me, Locked), SetStateUnsetOwner(Waiting), multi), k) == StateOf(locked, k)
      && FindTrigger(w.acq.store, k) == FindTrigger(locked, k)
      && (forall t :: t in w.acq.result ==> t.key != k)
  {
    var cands := LockedBy(locked, q.me);
    NotCandidate(locked, q.me, k);
    var a := Acq(locked, [], {}, None);
    WalkFrame(a, q, cands);
    WalkPicksCandidates(a, q, cands);
    WalkStore(a, q, cands);
    var w := Walk(a, q, cands);
    UpdateStateOf(w.acq.store, OwnedInState(q.me, Locked), SetStateUnsetOwner(Waiting), multi, k);
    forall t | t in w.acq.result ensures t.key != k {
      var i :| 0 <= i < |w.acq.result| && w.acq.result[i] == t;
    }
  }

  /** A record held by another live instance in any state but Waiting, and
      its trigger, come through unchanged, and that trigger is not returned. */
  lemma AcquireSparesLiveOwners(s: Store, q: Request, driver: Driver, corrected: bool, k: TriggerKey)
    requires FireIds.IsInt64(s.fireCounter) && Valid(s) && HeldByOther(s, q, k)
    ensures StateOf(AcquireWith(s, q, driver, corrected).store, k) == StateOf(s, k)
    ensures FindTrigger(AcquireWith(s, q, driver, corrected).store, k) == FindTrigger(s, k)
    ensures AcquireWith(s, q, driver, corrected).result.Ok? ==>
      forall t :: t in AcquireWith(s, q, driver, corrected).result.value ==> t.key != k
  {
    var locked := Prepared(s, q, driver, corrected);
    PreparedSpares(s, q, driver, corrected, k);
    PreparedWalkable(s, q, driver, corrected);
    assert locked.triggers == s.triggers;
    WalkSpares(locked, q, driver.multi, k);
    WalkStore(Acq(locked, [], {}, None), q, LockedBy(locked, q.me));
  }

  /** A record an acquisition may rightly hand out: Waiting, Locked by this
      instance, or Locked or Acquired by an instance whose lease lapsed. */
  ghost predicate Ready(s: Store, q: Request, rec: StateRecord) {
    || rec.state == Waiting
    || (rec.state == Locked && rec.owner == Some(q.me))
    || ((rec.state == Locked || rec.state == Acquired) && rec.owner.Some?
        && rec.owner.value !in Lease(s, q.me, q.now).instances)
  }

  /** With the corrected reclaim, a record that ends up Locked by this
      instance before the walk was ready to begin with. */
  lemma PreparedReady(s: Store, q: Request, driver: Driver, k: TriggerKey)
    requires Valid(s)
    requires StateOf(Prepared(s, q, driver, true), k) == Some(StateRecord(k, Locked, Some(q.me)))
    ensures StateOf(s, k).Some? && Ready(s, q, StateOf(s, k).value)
  {
    var leased := Lease(s, q.me, q.now);
    SameDocuments(s, leased);
    var reclaim := ReclaimQuery(leased.instances.Keys, driver, true);
    UpdateStateOf(leased, reclaim, SetStateUnsetOwner(Waiting), driver.multi, k);
    var reclaimed := Reclaimed(s, q, driver, true);
    UpdateStateOf(reclaimed, InState(Waiting), SetStateAndOwner(Locked, q.me), driver.multi, k);
  }

  /** With the corrected reclaim step every returned trigger's record was
      ready before the call: a Paused, Blocked, Complete, Error or Executing
      record is never handed out. */
  lemma AcquireIntendedTakesReady(s: Store, q: Request, driver: Driver)
    requires FireIds.IsInt64(s.fireCounter) && Valid(s)
    ensures AcquireNextTriggersIntended(s, q, driver).result.Ok? ==>
      forall t :: t in AcquireNextTriggersIntended(s, q, driver).result.value ==>
        StateOf(s, t.key).Some? && Ready(s, q, StateOf(s, t.key).value)
  {
    var locked := Prepared(s, q, driver, true);
    var cands := LockedBy(locked, q.me);
    var a := Acq(locked, [], {}, None);
    WalkPicksCandidates(a, q, cands);
    var w := Walk(a, q, cands);
    forall t | t in w.acq.result ensures StateOf(s, t.key).Some? && Ready(s, q, StateOf(s, t.key).value) {
      var i :| 0 <= i < |w.acq.result| && w.acq.result[i] == t;
      if StateOf(locked, t.key) != Some(StateRecord(t.key, Locked, Some(q.me))) {
        NotCandidate(locked, q.me, t.key);
      }
      PreparedReady(s, q, driver, t.key);
    }
  }

  /** A record the locking step can lock: Waiting, or Locked already by
      this instance. */
  ghost predicate Lockable(q: Request, rec: StateRecord) {
    rec.state == Waiting || (rec.state == Locked && rec.owner == Some(q.me))
  }

  /** With the reclaim step as written, a record that ends up Locked by
      this instance before the walk was Lockable once the reclaim step had
      run; what it was before the reclaim is not constrained. */
  lemma PreparedWaitingAsWritten(s: Store, q: Request, driver: Driver, k: TriggerKey)
    requires Valid(s)
    requires StateOf(Prepared(s, q, driver, false), k) == Some(StateRecord(k, Locked, Some(q.me)))
    ensures StateOf(Reclaimed(s, q, driver, false), k).Some?
    ensures Lockable(q, StateOf(Reclaimed(s, q, driver, false), k).value)
  {
    var leased := Lease(s, q.me, q.now);
    SameDocuments(s, leased);
    var reclaim := ReclaimQuery(leased.instances.Keys, driver, false);
    UpdateStateOf(leased, reclaim, SetStateUnsetOwner(Waiting), driver.multi, k);
    var reclaimed := Reclaimed(s, q, driver, false);
    UpdateStateOf(reclaimed, InState(Waiting), SetStateAndOwner(Locked, q.me), driver.multi, k);
  }

  /** As written, every returned trigger's record was Lockable after the
      reclaim step: the walk only hands out records the locking step
      locked. */
  lemma AcquireTakesLockable(s: Store, q: Request, driver: Driver)
    requires FireIds.IsInt64(s.fireCounter) && Valid(s)
    ensures AcquireNextTriggers(s, q, driver).result.Ok? ==>
      forall t :: t in AcquireNextTriggers(s, q, driver).result.value ==>
        StateOf(Reclaimed(s, q, driver, false), t.key).Some? &&
        Lockable(q, StateOf(Reclaimed(s, q, driver, false), t.key).value)
  {
    var locked := Prepared(s, q, driver, false);
    var cands := LockedBy(locked, q.me);
    var a := Acq(locked, [], {}, None);
    WalkPicksCandidates(a, q, cands);
    var w := Walk(a, q, cands);
    forall t | t in w.acq.result
      ensures StateOf(Reclaimed(s, q, driver, false), t.key).Some? &&
              Lockable(q, StateOf(Reclaimed(s, q, driver, false), t.key).value)
    {
      var i :| 0 <= i < |w.acq.result| && w.acq.result[i] == t;
      if StateOf(locked, t.key) != Some(StateRecord(t.key, Locked, Some(q.me))) {
        NotCandidate(locked, q.me, t.key);
      }
      PreparedWaitingAsWritten(s, q, driver, t.key);
    }
  }

  /** One job and one trigger due at tick 0 whose record is Paused with no
      owner: the state PauseTrigger leaves on a trigger nobody acquired. */
  function PausedStore(): (s: Store)
    ensures Valid(s)
  {
    var jk := JobKey("job", "DEFAULT");
    var tk := TriggerKey("trigger", "DEFAULT");
    var s := Store(map[jk := Job(jk, false, false, false, [])],
                   [Trigger(tk, jk, None, false, Some(0), None, None)],
                   [StateRecord(tk, Paused, None)],
                   {}, {}, {}, {}, map[], 0, 50_000_000);
    assert Documents.UniqueKeys(s.triggers, TriggerKeyOf) && Documents.UniqueKeys(s.states, RecordKeyOf);
    assert forall k :: FindTrigger(s, k).Some? <==> k == tk;
    assert forall k :: StateOf(s, k).Some? <==> k == tk;
    s
  }

  /** A request at tick 0 for one trigger due by tick 0. */
  function FirstRequest(): Request {
    Request("node", 0, 0, 1, 0, Schedule((t: Trigger, c: Option<string>) => FireTimes(None, None),
                                         (t: Trigger, c: Option<string>) => FireTimes(None, None)))
  }

  /** As written, with a driver whose `$nin` matches a missing owner, the
      reclaim step turns the paused record into Waiting and the paused
      trigger is acquired and handed out for firing. */
  lemma PausedTriggerAcquired()
    ensures var s := PausedStore();
      var tk := TriggerKey("trigger", "DEFAULT");
      var r := AcquireNextTriggers(s, FirstRequest(), LegacyDriver);
      && StateOf(s, tk) == Some(StateRecord(tk, Paused, None))
      && r.result.Ok? && |r.result.value| == 1 && r.result.value[0].key == tk
      && StateOf(r.store, tk) == Some(StateRecord(tk, Acquired, Some("node")))
  {
    var s := PausedStore();
    var q := FirstRequest();
    var tk := TriggerKey("trigger", "DEFAULT");
    var t := s.triggers[0];
    var leased := Lease(s, q.me, q.now);
    assert leased.instances.Keys == {"node"};
    var reclaimed := Reclaimed(s, q, LegacyDriver, false);
    assert reclaimed.states == [StateRecord(tk, Waiting, None)];
    var locked := Prepared(s, q, LegacyDriver, false);
    assert locked.states == [StateRecord(tk, Locked, Some("node"))];
    assert StateOf(locked, tk) == Some(StateRecord(tk, Locked, Some("node")));
    var cands := LockedBy(locked, q.me);
    assert t in cands;
    assert cands == [t];
    assert !Misfire.HasMisfired(locked, q.now, t);
    var v := Visit(Acq(locked, [], {}, None), q, t);
    assert |v.acq.result| == 1 && v.stop && !v.failed;
    AcquireKeepsValid(s, q, LegacyDriver, false);
  }

  /** With the corrected reclaim the same call leaves the paused trigger
      alone. */
  lemma PausedTriggerKeptIntended()
    ensures var s := PausedStore();
      var tk := TriggerKey("trigger", "DEFAULT");
      var r := AcquireNextTriggersIntended(s, FirstRequest(), LegacyDriver);
      && r.result.Ok? && (forall t :: t in r.result.value ==> t.key != tk)
      && StateOf(r.store, tk) == Some(StateRecord(tk, Paused, None))
  {
    var s := PausedStore();
    var q := FirstRequest();
    var tk := TriggerKey("trigger", "DEFAULT");
    AcquireKeepsValid(s, q, LegacyDriver, true);
    AcquireIntendedTakesReady(s, q, LegacyDriver);
    var leased := Lease(s, q.me, q.now);
    var reclaim := ReclaimQuery(leased.instances.Keys, LegacyDriver, true);
    UpdateStateOf(leased, reclaim, SetStateUnsetOwner(Waiting), false, tk);
    var reclaimed := Reclaimed(s, q, LegacyDriver, true);
    UpdateStateOf(reclaimed, InState(Waiting), SetStateAndOwner(Locked, q.me), false, tk);
    var locked := Prepared(s, q, LegacyDriver, true);
    PreparedWalkable(s, q, LegacyDriver, true);
    WalkSpares(locked, q, false, tk);
  }
}

=== FILE: bson.dfy ===
/** An algebraic model of the BSON values the serializers read and write,
    and of the named-element reads a BsonReader performs inside a document. */
module Bson {
  import opened Wrappers
  import opened Exceptions

  datatype Value =
    | Null
    | Int32(i: int)
    | Int64(l: int)
    | Str(s: string)
    | Document(fields: seq<(string, Value)>)

  const MinInt32: int := -0x8000_0000
  const MaxInt32: int := 0x7FFF_FFFF
  const MinInt64: int := -0x8000_0000_0000_0000
  const MaxInt64: int := 0x7FFF_FFFF_FFFF_FFFF

  /** The .NET types a serializer can be asked to produce. */
  datatype ClrType = TriggerKeyType | DateTimeType | JobDataMapType | TimeOfDayType | OtherType(name: string)

  /** `ReadString(name)` on the i-th element of a document: the element must
      exist, carry that name and hold a string. */
  function ReadString(fields: seq<(string, Value)>, i: nat, name: string): (r: Result<string, Exception>)
    ensures r.Ok? <==> i < |fields| && fields[i].0 == name && fields[i].1.Str?
    ensures r.Ok? ==> fields[i].1 == Str(r.value)
  {
    if i < |fields| && fields[i].0 == name && fields[i].1.Str? then Ok(fields[i].1.s)
    else Err(InvalidOperation)
  }

  /** `ReadInt32(name)` on the i-th element of a document. */
  function ReadInt32(fields: seq<(string, Value)>, i: nat, name: string): (r: Result<int, Exception>)
    ensures r.Ok? <==> i < |fields| && fields[i].0 == name && fields[i].1.Int32?
    ensures r.Ok? ==> fields[i].1 == Int32(r.value)
  {
    if i < |fields| && fields[i].0 == name && fields[i].1.Int32? then Ok(fields[i].1.i)
    else Err(InvalidOperation)
  }

  /** `ReadInt64(name)` on the i-th element of a document. */
  function ReadInt64(fields: seq<(string, Value)>, i: nat, name: string): (r: Result<int, Exception>)
    ensures r.Ok? <==> i < |fields| && fields[i].0 == name && fields[i].1.Int64?
    ensures r.Ok? ==> fields[i].1 == Int64(r.value)
  {
    if i < |fields| && fields[i].0 == name && fields[i].1.Int64? then Ok(fields[i].1.l)
    else Err(InvalidOperation)
  }
}

=== FILE: conventions.dfy ===
/** The id-member conventions: given the property names a type declares,
    each picks the member to map to the document's _id by fixed priority. */
module Conventions {
  import opened Wrappers

  /** IdOrKeyOrNameConvention.FindIdMember: Id, else Key, else Name, else null. */
  function IdOrKeyOrName(properties: set<string>): (r: Option<string>)
    ensures "Id" in properties ==> r == Some("Id")
    ensures "Id" !in properties && "Key" in properties ==> r == Some("Key")
    ensures r == Some("Name") <==> "Id" !in properties && "Key" !in properties && "Name" in properties
    ensures r.None? <==> "Id" !in properties && "Key" !in properties && "Name" !in properties
    ensures r.Some? ==> r.value in properties
  {
    if "Id" in properties then Some("Id")
    else if "Key" in properties then Some("Key")
    else if "Name" in properties then Some("Name")
    else None
  }

  /** IdOrKeyConvention.FindIdMember: Id, else Key, else null. */
  function IdOrKey(properties: set<string>): (r: Option<string>)
    ensures "Id" in properties ==> r == Some("Id")
    ensures "Id" !in properties && "Key" in properties ==> r == Some("Key")
    ensures r.None? <==> "Id" !in properties && "Key" !in properties
    ensures r != Some("Name")
    ensures r.Some? ==> r.value in properties
  {
    if "Id" in properties then Some("Id")
    else if "Key" in properties then Some("Key")
    else None
  }

  /** KeyOrIdConvention.FindIdMember: Key, else Id, else null. */
  function KeyOrId(properties: set<string>): (r: Option<string>)
    ensures "Key" in properties ==> r == Some("Key")
    ensures r == Some("Id") <==> "Key" !in properties && "Id" in properties
    ensures r.None? <==> "Key" !in properties && "Id" !in properties
    ensures r in {Some("Key"), Some("Id"), None}
  {
    if "Key" in properties then Some("Key")
    else if "Id" in properties then Some("Id")
    else None
  }

  /** The two-name conventions disagree exactly on types declaring both
      names, and the three-name convention extends IdOrKey by the Name
      fallback only. */
  lemma ConventionsRelate(properties: set<string>)
    ensures IdOrKey(properties) != KeyOrId(properties) <==> "Id" in properties && "Key" in properties
    ensures IdOrKey(properties).Some? ==> IdOrKeyOrName(properties) == IdOrKey(properties)
    ensures IdOrKey(properties).None? ==> IdOrKeyOrName(properties) == (if "Name" in properties then Some("Name") else None)
  {
  }
}

=== FILE: date_time_serializer.dfy ===
/** DateTimeSerializer: a DateTime as a one-element document of ticks. */
module DateTimeSerializer {
  import opened Wrappers
  import opened Exceptions
  import opened Bson

  /** The ticks of DateTime.MaxValue; `new DateTime(ticks)` rejects
      anything outside [0, MaxTicks]. The DateTimeKind is not modelled:
      DateTime equality compares ticks only. */
  const MaxTicks: int := 3_155_378_975_999_999_999

  datatype DateTime = DateTime(ticks: int)

  predicate Valid(d: DateTime) { 0 <= d.ticks <= MaxTicks }

  /** `new DateTime(ticks)`. */
  function Construct(ticks: int): (r: Result<DateTime, Exception>)
    ensures r.Ok? <==> 0 <= ticks <= MaxTicks
    ensures r.Ok? ==> Valid(r.value) && r.value.ticks == ticks
  {
    if 0 <= ticks <= MaxTicks then Ok(DateTime(ticks)) else Err(ArgumentOutOfRange)
  }

  /** Serialize: the single Int64 element named Ticks. */
  function Serialize(d: DateTime): (v: Value)
    ensures v.Document? && |v.fields| == 1 && v.fields[0].0 == "Ticks"
    ensures v.fields[0].1 == Int64(d.ticks)
  {
    Document([("Ticks", Int64(d.ticks))])
  }

  /** Deserialize as written: the element read is named UtcTicks. */
  function Deserialize(v: Value, nominal: ClrType, actual: ClrType): (r: Result<Option<DateTime>, Exception>)
    ensures nominal != DateTimeType || actual != DateTimeType ==> r == Err(BsonSerialization)
    ensures nominal == DateTimeType && actual == DateTimeType ==>
              (v == Null <==> r == Ok(None)) &&
              (!v.Null? && !v.Document? ==> r == Err(BsonSerialization))
    ensures r.Ok? && r.value.Some? ==>
              Valid(r.value.value) && v == Document([("UtcTicks", Int64(r.value.value.ticks))])
  {
    DeserializeElement(v, nominal, actual, "UtcTicks")
  }

  /** The shared decoder, parameterised by the element name it reads. */
  function DeserializeElement(v: Value, nominal: ClrType, actual: ClrType, element: string): (r: Result<Option<DateTime>, Exception>)
    ensures r.Ok? && r.value.Some? ==>
              Valid(r.value.value) && v == Document([(element, Int64(r.value.value.ticks))])
  {
    if nominal != DateTimeType || actual != DateTimeType then Err(BsonSerialization)
    else match v
      case Document(fs) =>
        var ticks := ReadInt64(fs, 0, element);
        if ticks.Err? then Err(ticks.error)
        else if |fs| != 1 then Err(InvalidOperation)
        else
          assert fs == [(element, Int64(ticks.value))];
          var d := Construct(ticks.value);
          if d.Err? then Err(d.error) else Ok(Some(d.value))
      case Null => Ok(None)
      case _ => Err(BsonSerialization)
  }

  /** No DateTime survives the round trip: the writer's element name is not
      the one the reader asks for. */
  lemma RoundTripAlwaysFails(d: DateTime)
    ensures Deserialize(Serialize(d), DateTimeType, DateTimeType) == Err(InvalidOperation)
  {
  }

  /** The decoder as evidently intended reads the element the writer wrote. */
  function DeserializeIntended(v: Value, nominal: ClrType, actual: ClrType): (r: Result<Option<DateTime>, Exception>)
    ensures r.Ok? && r.value.Some? ==> Valid(r.value.value) && v == Serialize(r.value.value)
  {
    DeserializeElement(v, nominal, actual, "Ticks")
  }

  lemma IntendedRoundTrip(d: DateTime)
    requires Valid(d)
    ensures DeserializeIntended(Serialize(d), DateTimeType, DateTimeType) == Ok(Some(d))
  {
  }
}

=== FILE: documents.dfy ===
/** A Mongo collection seen as a sequence of documents in natural order, each
    carrying a trigger key as its `_id`. `Save` is an upsert by key, `Remove`
    deletes every document with a key, and `Update` applies a change to the
    documents a query matches: every match with the multi flag, otherwise only
    the first one in natural order (the 1.x driver's default). */
module Documents {
  import opened Wrappers
  import opened Quartz

  /** No two documents share an `_id`, as the server enforces. */
  ghost predicate UniqueKeys<D>(ds: seq<D>, key: D -> TriggerKey) {
    forall i, j :: 0 <= i < j < |ds| ==> key(ds[i]) != key(ds[j])
  }

  /** Position of the first document whose key is `k`. */
  function IndexOf<D>(ds: seq<D>, key: D -> TriggerKey, k: TriggerKey): (r: Option<nat>)
    ensures r.Some? ==> r.value < |ds| && key(ds[r.value]) == k
    ensures r.Some? ==> forall j :: 0 <= j < r.value ==> key(ds[j]) != k
    ensures r.None? ==> forall j :: 0 <= j < |ds| ==> key(ds[j]) != k
  {
    if |ds| == 0 then None
    else if key(ds[0]) == k then Some(0)
    else
      match IndexOf(ds[1..], key, k)
      case None =>
        assert forall j :: 1 <= j < |ds| ==> ds[j] == ds[1..][j - 1];
        None
      case Some(i) =>
        assert forall j :: 1 <= j <= i ==> ds[j] == ds[1..][j - 1];
        Some(i + 1)
  }

  /** The first position with a key is determined by the keys alone. */
  lemma IndexOfIs<D>(ds: seq<D>, key: D -> TriggerKey, k: TriggerKey, p: Option<nat>)
    requires p.Some? ==> p.value < |ds| && key(ds[p.value]) == k
    requires p.Some? ==> forall j :: 0 <= j < p.value ==> key(ds[j]) != k
    requires p.None? ==> forall j :: 0 <= j < |ds| ==> key(ds[j]) != k
    ensures IndexOf(ds, key, k) == p
  {
  }

  /** Two collections with the same keys position by position agree on every lookup. */
  lemma SameKeysSameIndex<D>(ds: seq<D>, es: seq<D>, key: D -> TriggerKey, k: TriggerKey)
    requires |ds| == |es|
    requires forall i :: 0 <= i < |ds| ==> key(ds[i]) == key(es[i])
    ensures IndexOf(ds, key, k) == IndexOf(es, key, k)
  {
    IndexOfIs(es, key, k, IndexOf(ds, key, k));
  }

  /** FindOneById: the first document whose key is `k`, or null. */
  function Find<D>(ds: seq<D>, key: D -> TriggerKey, k: TriggerKey): (r: Option<D>)
    ensures r.Some? ==> key(r.value) == k && r.value in ds
    ensures r.None? <==> forall i :: 0 <= i < |ds| ==> key(ds[i]) != k
  {
    match IndexOf(ds, key, k)
    case None => None
    case Some(i) => Some(ds[i])
  }

  /** With unique keys, the document at any position is the one found by its key. */
  lemma FindAt<D>(ds: seq<D>, key: D -> TriggerKey, i: int)
    requires UniqueKeys(ds, key)
    requires 0 <= i < |ds|
    ensures IndexOf(ds, key, key(ds[i])) == Some(i)
    ensures Find(ds, key, key(ds[i])) == Some(ds[i])
  {
    IndexOfIs(ds, key, key(ds[i]), Some(i));
  }

  /** Save: an upsert by key that keeps the document's position when it exists. */
  function Save<D>(ds: seq<D>, key: D -> TriggerKey, d: D): (r: seq<D>)
    ensures Find(r, key, key(d)) == Some(d)
    ensures forall k :: k != key(d) ==> Find(r, key, k) == Find(ds, key, k)
    ensures Find(ds, key, key(d)).Some? <==> |r| == |ds|
    ensures |r| == |ds| || |r| == |ds| + 1
  {
    match IndexOf(ds, key, key(d))
    case Some(p) =>
      var r := ds[p := d];
      assert forall k :: k != key(d) ==> Find(r, key, k) == Find(ds, key, k) by {
        forall k | k != key(d) ensures Find(r, key, k) == Find(ds, key, k) {
          SameKeysSameIndex(ds, r, key, k);
        }
      }
      IndexOfIs(r, key, key(d), Some(p));
      r
    case None =>
      var r := ds + [d];
      assert forall k :: k != key(d) ==> Find(r, key, k) == Find(ds, key, k) by {
        forall k | k != key(d) ensures Find(r, key, k) == Find(ds, key, k) {
          IndexOfIs(r, key, k, IndexOf(ds, key, k));
        }
      }
      IndexOfIs(r, key, key(d), Some(|ds|));
      r
  }

  /** Saving keeps the keys unique. */
  lemma SaveUnique<D>(ds: seq<D>, key: D -> TriggerKey, d: D)
    requires UniqueKeys(ds, key)
    ensures UniqueKeys(Save(ds, key, d), key)
  {
  }

  /** Remove: deletes every document whose key is `k`, keeping the others in order. */
  function Remove<D>(ds: seq<D>, key: D -> TriggerKey, k: TriggerKey): (r: seq<D>)
    ensures Find(r, key, k).None?
    ensures forall k' :: k' != k ==> Find(r, key, k') == Find(ds, key, k')
    ensures |r| <= |ds|
    ensures Find(ds, key, k).Some? ==> |r| < |ds|
    ensures forall x :: x in r ==> x in ds && key(x) != k
    ensures forall x :: x in ds && key(x) != k ==> x in r
  {
    if |ds| == 0 then []
    else
      var rest := Remove(ds[1..], key, k);
      if key(ds[0]) == k then
        assert forall k' :: k' != k ==> Find(ds, key, k') == Find(ds[1..], key, k');
        rest
      else
        var r := [ds[0]] + rest;
        assert r[1..] == rest;
        assert forall k' :: k' != k ==> Find(r, key, k') == Find(ds, key, k') by {
          forall k' | k' != k ensures Find(r, key, k') == Find(ds, key, k') {
            FindCons(r, key, k');
            FindCons(ds, key, k');
          }
        }
        r
  }

  /** A lookup checks the first document, then the rest. */
  lemma FindCons<D>(ds: seq<D>, key: D -> TriggerKey, k: TriggerKey)
    requires |ds| > 0
    ensures Find(ds, key, k) == if key(ds[0]) == k then Some(ds[0]) else Find(ds[1..], key, k)
  {
  }

  /** Removing keeps the keys unique. */
  lemma RemoveUnique<D>(ds: seq<D>, key: D -> TriggerKey, k: TriggerKey)
    requires UniqueKeys(ds, key)
    ensures UniqueKeys(Remove(ds, key, k), key)
    decreases |ds|
  {
    if |ds| > 0 {
      var rest := Remove(ds[1..], key, k);
      assert UniqueKeys(ds[1..], key) by {
        forall i, j | 0 <= i < j < |ds[1..]| ensures key(ds[1..][i]) != key(ds[1..][j]) {
          assert ds[1..][i] == ds[i + 1] && ds[1..][j] == ds[j + 1];
        }
      }
      RemoveUnique(ds[1..], key, k);
      if key(ds[0]) != k {
        var r := [ds[0]] + rest;
        assert Find(ds[1..], key, key(ds[0])).None? by {
          forall i | 0 <= i < |ds[1..]| ensures key(ds[1..][i]) != key(ds[0]) {
            assert ds[1..][i] == ds[i + 1];
          }
        }
        forall i, j | 0 <= i < j < |r| ensures key(r[i]) != key(r[j]) {
          assert r[j] == rest[j - 1];
          if i > 0 { assert r[i] == rest[i - 1]; }
        }
      }
    }
  }

  /** The document at position `i` is changed by an update: it matches, and
      either every match is changed or it is the first match. */
  ghost predicate Selected<D>(ds: seq<D>, matches: D -> bool, multi: bool, i: int)
    requires 0 <= i < |ds|
  {
    matches(ds[i]) && (multi || forall j :: 0 <= j < i ==> !matches(ds[j]))
  }

  /** Update(query, change): applies `f` to the documents the query selects. */
  function Update<D>(ds: seq<D>, matches: D -> bool, f: D -> D, multi: bool): (r: seq<D>)
    ensures |r| == |ds|
    ensures forall i :: 0 <= i < |ds| ==> r[i] == (if Selected(ds, matches, multi, i) then f(ds[i]) else ds[i])
  {
    if |ds| == 0 then []
    else
      var rest := if matches(ds[0]) && !multi then ds[1..] else Update(ds[1..], matches, f, multi);
      var r := [if matches(ds[0]) then f(ds[0]) else ds[0]] + rest;
      assert forall i :: 1 <= i < |ds| ==> ds[1..][i - 1] == ds[i] && r[i] == rest[i - 1];
      assert forall i :: 1 <= i < |ds| ==> (Selected(ds, matches, multi, i) <==>
        (if matches(ds[0]) && !multi then false else Selected(ds[1..], matches, multi, i - 1)));
      r
  }

  /** An update whose change keeps the `_id` keeps every lookup's position
      and the uniqueness of keys. */
  lemma UpdateKeepsKeys<D>(ds: seq<D>, key: D -> TriggerKey, matches: D -> bool, f: D -> D, multi: bool, k: TriggerKey)
    requires forall x :: key(f(x)) == key(x)
    ensures IndexOf(Update(ds, matches, f, multi), key, k) == IndexOf(ds, key, k)
    ensures UniqueKeys(ds, key) ==> UniqueKeys(Update(ds, matches, f, multi), key)
  {
    var r := Update(ds, matches, f, multi);
    assert forall i :: 0 <= i < |ds| ==> key(r[i]) == key(ds[i]);
    SameKeysSameIndex(ds, r, key, k);
  }

  /** The documents a query selects, in natural order. */
  function Filter<D>(ds: seq<D>, p: D -> bool): (r: seq<D>)
    ensures |r| <= |ds|
    ensures forall x :: x in r ==> x in ds && p(x)
    ensures forall x :: x in ds && p(x) ==> x in r
  {
    if |ds| == 0 then []
    else if p(ds[0]) then [ds[0]] + Filter(ds[1..], p)
    else Filter(ds[1..], p)
  }

  /** Filtering keeps `_id`s unique. */
  lemma {:induction false} FilterUnique<D>(ds: seq<D>, p: D -> bool, key: D -> TriggerKey)
    ensures UniqueKeys(ds, key) ==> UniqueKeys(Filter(ds, p), key)
    decreases |ds|
  {
    if |ds| > 0 && UniqueKeys(ds, key) {
      var rest := ds[1..];
      assert UniqueKeys(rest, key) by {
        assert forall i :: 0 <= i < |rest| ==> rest[i] == ds[i + 1];
      }
      FilterUnique(rest, p, key);
      if p(ds[0]) {
        var r := Filter(ds, p);
        var f := Filter(rest, p);
        assert r == [ds[0]] + f;
        forall j | 0 < j < |r| ensures key(r[0]) != key(r[j]) {
          assert r[j] == f[j - 1];
          assert r[j] in rest;
        }
      }
    }
  }
}

=== FILE: fire_ids.dfy ===
/** Fired-trigger record ids: a process-wide 64-bit counter, incremented with
    wrap-around and rendered in invariant-culture decimal. */
module FireIds {
  import opened Wrappers
  import opened Store

  const MinInt64: int := -0x8000_0000_0000_0000
  const MaxInt64: int := 0x7FFF_FFFF_FFFF_FFFF

  predicate IsInt64(x: int) { MinInt64 <= x <= MaxInt64 }

  /** `Interlocked.Increment` on a long: MaxValue wraps to MinValue. */
  function Increment64(x: int): (r: int)
    requires IsInt64(x)
    ensures IsInt64(r)
    ensures (r - x) % 0x1_0000_0000_0000_0000 == 1
    ensures x < MaxInt64 ==> r == x + 1
  {
    if x == MaxInt64 then MinInt64 else x + 1
  }

  function DigitChar(d: nat): (c: char)
    requires d < 10
    ensures '0' <= c <= '9'
  {
    (48 + d) as char
  }

  predicate IsDigit(c: char) { '0' <= c <= '9' }

  function DigitValue(c: char): (d: nat)
    requires IsDigit(c)
    ensures d < 10
  {
    (c as int) - 48
  }

  /** The decimal digits of a natural number, most significant first, with
      no leading zero. */
  function NatText(n: nat): (s: string)
    ensures |s| > 0
    ensures forall i :: 0 <= i < |s| ==> IsDigit(s[i])
    ensures s[0] == '0' ==> n == 0
  {
    if n < 10 then [DigitChar(n)] else NatText(n / 10) + [DigitChar(n % 10)]
  }

  /** `Convert.ToString(value, CultureInfo.InvariantCulture)` for a long:
      a minus sign for negatives, then the digits of the magnitude. */
  function DecimalText(x: int): (s: string)
    ensures |s| > 0
    ensures s[0] == '-' <==> x < 0
  {
    if x < 0 then "-" + NatText(-x) else NatText(x)
  }

  /** The value of a non-empty string of decimal digits. */
  function ParseNat(s: string): (r: Option<nat>)
    ensures r.Some? <==> |s| > 0 && forall i :: 0 <= i < |s| ==> IsDigit(s[i])
    decreases |s|
  {
    if |s| == 0 || !IsDigit(s[|s| - 1]) then None
    else if |s| == 1 then Some(DigitValue(s[0]))
    else
      var prefix := s[..|s| - 1];
      assert forall i :: 0 <= i < |prefix| ==> prefix[i] == s[i];
      match ParseNat(prefix)
      case None => None
      case Some(v) => Some(v * 10 + DigitValue(s[|s| - 1]))
  }

  /** Reads a decimal long written by DecimalText. */
  function ParseDecimal(s: string): (r: Option<int>)
  {
    if |s| > 0 && s[0] == '-' then
      match ParseNat(s[1..])
      case None => None
      case Some(v) => Some(0 - v as int)
    else ParseNat(s)
  }

  lemma {:induction false} ParseNatText(n: nat)
    ensures ParseNat(NatText(n)) == Some(n)
    decreases n
  {
    if n >= 10 {
      var s := NatText(n);
      ParseNatText(n / 10);
      assert s[..|s| - 1] == NatText(n / 10);
      assert s[|s| - 1] == DigitChar(n % 10);
    }
  }

  /** The decimal rendering reads back as the number it came from. */
  lemma ParseDecimalText(x: int)
    ensures ParseDecimal(DecimalText(x)) == Some(x)
  {
    if x < 0 {
      var n: nat := -x;
      ParseNatText(n);
      var s := DecimalText(x);
      assert s == "-" + NatText(n) && s[0] == '-';
      assert s[1..] == NatText(n);
    } else {
      ParseNatText(x);
      assert IsDigit(NatText(x)[0]);
    }
  }

  /** Different counter values give different ids. */
  lemma DecimalTextInjective(x: int, y: int)
    requires DecimalText(x) == DecimalText(y)
    ensures x == y
  {
    ParseDecimalText(x);
    ParseDecimalText(y);
  }

  /** GetFiredTriggerRecordId: increments the counter and returns the
      decimal text of its new value. */
  function GetFiredTriggerRecordId(s: Store): (r: (Store, string))
    requires IsInt64(s.fireCounter)
    ensures r.0 == s.(fireCounter := Increment64(s.fireCounter))
    ensures ParseDecimal(r.1) == Some(r.0.fireCounter)
  {
    var c := Increment64(s.fireCounter);
    ParseDecimalText(c);
    (s.(fireCounter := c), DecimalText(c))
  }

  /** Two successive ids always differ, and the second is the next number
      unless the counter wrapped. */
  lemma SuccessiveIdsDiffer(s: Store)
    requires IsInt64(s.fireCounter)
    ensures var (s1, id1) := GetFiredTriggerRecordId(s);
      var (s2, id2) := GetFiredTriggerRecordId(s1);
      && id1 != id2
      && (s1.fireCounter < MaxInt64 ==> ParseDecimal(id2) == Some(ParseDecimal(id1).value + 1))
  {
    var (s1, id1) := GetFiredTriggerRecordId(s);
    var (s2, id2) := GetFiredTriggerRecordId(s1);
    if id1 == id2 {
      DecimalTextInjective(s1.fireCounter, s2.fireCounter);
    }
  }
}

=== FILE: firing.dfy ===
/** TriggersFired and TriggeredJobComplete of the clustered store: firing
    acquired triggers, blocking and unblocking the other triggers of a job
    that disallows concurrent execution, and the completion instructions. */
module Firing {
  import opened Wrappers
  import opened Exceptions
  import opened Quartz
  import opened Store
  import Documents
  import Storage
  import JobDataMapSerializer
  import Bson

  /** The trigger with key `k` is stored and belongs to job `jk`. */
  ghost predicate OfJob(s: Store, k: TriggerKey, jk: JobKey) {
    FindTrigger(s, k).Some? && FindTrigger(s, k).value.jobKey == jk
  }

  /** The record of `k` exists and is in state `st`. */
  ghost predicate HasState(s: Store, k: TriggerKey, st: StateName) {
    StateOf(s, k).Some? && StateOf(s, k).value.state == st
  }

  /** The `_id`s GetTriggersForJob yields for the job. */
  function JobKeys(s: Store, jk: JobKey): seq<TriggerKey> {
    KeysOf(TriggersForJob(s.triggers, jk))
  }

  /** Blocking turns Waiting into Blocked and Paused into PausedAndBlocked;
      unblocking turns them back. */
  function BlockedState(st: StateName): StateName {
    match st
    case Waiting => Blocked
    case Paused => PausedAndBlocked
    case _ => st
  }

  function UnblockedState(st: StateName): StateName {
    match st
    case Blocked => Waiting
    case PausedAndBlocked => Paused
    case _ => st
  }

  ghost function Blocking(o: Option<StateRecord>): Option<StateRecord> {
    match o
    case None => None
    case Some(rec) => Some(rec.(state := BlockedState(rec.state)))
  }

  ghost function Unblocking(o: Option<StateRecord>): Option<StateRecord> {
    match o
    case None => None
    case Some(rec) => Some(rec.(state := UnblockedState(rec.state)))
  }

  /** Two successive updates over the same keys: records in state `a1`
      move to `b1`, then records in state `a2` move to `b2`. */
  function TwoUpdates(s: Store, keys: seq<TriggerKey>, a1: StateName, b1: StateName,
                      a2: StateName, b2: StateName, multi: bool): (r: Store)
    ensures r == s.(states := r.states)
  {
    var s1 := UpdateStates(s, KeyInState(keys, a1), SetState(b1), multi);
    UpdateStates(s1, KeyInState(keys, a2), SetState(b2), multi)
  }

  /** The two TriggerStates updates TriggersFired issues for a job that
      disallows concurrent execution: the job's Waiting records become
      Blocked, then its Paused records PausedAndBlocked. */
  function BlockJob(s: Store, jk: JobKey, multi: bool): (r: Store)
    ensures r == s.(states := r.states)
  {
    TwoUpdates(s, JobKeys(s, jk), Waiting, Blocked, Paused, PausedAndBlocked, multi)
  }

  /** The two updates TriggeredJobComplete issues in reverse: Blocked
      becomes Waiting, then PausedAndBlocked becomes Paused. */
  function UnblockJob(s: Store, jk: JobKey, multi: bool): (r: Store)
    ensures r == s.(states := r.states)
  {
    TwoUpdates(s, JobKeys(s, jk), Blocked, Waiting, PausedAndBlocked, Paused, multi)
  }

  /** A record after two successive state updates over the same keys, the
      first moving `a1` to `b1`, the second `a2` to `b2`. */
  ghost function Moved(o: Option<StateRecord>, a1: StateName, b1: StateName, a2: StateName, b2: StateName): Option<StateRecord> {
    match o
    case None => None
    case Some(rec) =>
      Some(rec.(state := if rec.state == a1 then b1 else if rec.state == a2 then b2 else rec.state))
  }

  /** One record under two successive key-and-state updates: outside the
      keys it is left alone; inside it is left alone or moved, and moved
      when every match is updated. */
  lemma TwoUpdatesAt(s: Store, keys: seq<TriggerKey>, a1: StateName, b1: StateName,
                     a2: StateName, b2: StateName, multi: bool, k: TriggerKey)
    requires Documents.UniqueKeys(s.states, RecordKeyOf)
    requires a1 != a2 && b1 != a2
    ensures k !in keys ==> StateOf(TwoUpdates(s, keys, a1, b1, a2, b2, multi), k) == StateOf(s, k)
    ensures StateOf(TwoUpdates(s, keys, a1, b1, a2, b2, multi), k) == StateOf(s, k) ||
            StateOf(TwoUpdates(s, keys, a1, b1, a2, b2, multi), k) == Moved(StateOf(s, k), a1, b1, a2, b2)
    ensures multi && k in keys ==>
      StateOf(TwoUpdates(s, keys, a1, b1, a2, b2, multi), k) == Moved(StateOf(s, k), a1, b1, a2, b2)
  {
    var q1 := KeyInState(keys, a1);
    var q2 := KeyInState(keys, a2);
    var s1 := UpdateStates(s, q1, SetState(b1), multi);
    UpdateStateOf(s, q1, SetState(b1), multi, k);
    UpdateStateOf(s1, q2, SetState(b2), multi, k);
    assert TwoUpdates(s, keys, a1, b1, a2, b2, multi) == UpdateStates(s1, q2, SetState(b2), multi);
    if StateOf(s, k).Some? {
      var rec := StateOf(s, k).value;
      assert rec.key == k;
      if rec.state == a1 {
        assert StateOf(s1, k) == Some(rec) || StateOf(s1, k) == Some(rec.(state := b1));
      } else {
        assert StateOf(s1, k) == Some(rec);
      }
    }
  }

  lemma BlockingMoves(o: Option<StateRecord>)
    ensures Blocking(o) == Moved(o, Waiting, Blocked, Paused, PausedAndBlocked)
  {
  }

  lemma UnblockingMoves(o: Option<StateRecord>)
    ensures Unblocking(o) == Moved(o, Blocked, Waiting, PausedAndBlocked, Paused)
  {
  }

  /** One record under blocking: a record of another job is left alone;
      a record of the job is left alone or blocked, and blocked when every
      match is updated. */
  lemma BlockJobAt(s: Store, jk: JobKey, multi: bool, k: TriggerKey)
    requires Documents.UniqueKeys(s.states, RecordKeyOf)
    requires k in JobKeys(s, jk) <==> OfJob(s, k, jk)
    ensures !OfJob(s, k, jk) ==> StateOf(BlockJob(s, jk, multi), k) == StateOf(s, k)
    ensures StateOf(BlockJob(s, jk, multi), k) == StateOf(s, k) || StateOf(BlockJob(s, jk, multi), k) == Blocking(StateOf(s, k))
    ensures multi && OfJob(s, k, jk) ==> StateOf(BlockJob(s, jk, multi), k) == Blocking(StateOf(s, k))
  {
    TwoUpdatesAt(s, JobKeys(s, jk), Waiting, Blocked, Paused, PausedAndBlocked, multi, k);
    assert BlockJob(s, jk, multi) == TwoUpdates(s, JobKeys(s, jk), Waiting, Blocked, Paused, PausedAndBlocked, multi);
    BlockingMoves(StateOf(s, k));
  }

  /** Blocking keeps the invariant and touches only the job's records, each
      of which is either left alone or blocked; with the multi flag every
      one of them is blocked. */
  lemma BlockJobEffect(s: Store, jk: JobKey, multi: bool)
    requires Valid(s)
    ensures var r := BlockJob(s, jk, multi);
      && Valid(r)
      && (forall k :: !OfJob(s, k, jk) ==> StateOf(r, k) == StateOf(s, k))
      && (forall k :: OfJob(s, k, jk) ==> StateOf(r, k) == StateOf(s, k) || StateOf(r, k) == Blocking(StateOf(s, k)))
      && (multi ==> forall k :: OfJob(s, k, jk) ==> StateOf(r, k) == Blocking(StateOf(s, k)))
  {
    var keys := JobKeys(s, jk);
    var s1 := UpdateStates(s, KeyInState(keys, Waiting), SetState(Blocked), multi);
    UpdateKeepsValid(s, KeyInState(keys, Waiting), SetState(Blocked), multi);
    UpdateKeepsValid(s1, KeyInState(keys, Paused), SetState(PausedAndBlocked), multi);
    var r := BlockJob(s, jk, multi);
    forall k
      ensures !OfJob(s, k, jk) ==> StateOf(r, k) == StateOf(s, k)
      ensures StateOf(r, k) == StateOf(s, k) || StateOf(r, k) == Blocking(StateOf(s, k))
      ensures multi && OfJob(s, k, jk) ==> StateOf(r, k) == Blocking(StateOf(s, k))
    {
      JobTriggerKeys(s, jk, k);
      BlockJobAt(s, jk, multi, k);
    }
  }

  /** One record under unblocking, as for blocking. */
  lemma UnblockJobAt(s: Store, jk: JobKey, multi: bool, k: TriggerKey)
    requires Documents.UniqueKeys(s.states, RecordKeyOf)
    requires k in JobKeys(s, jk) <==> OfJob(s, k, jk)
    ensures !OfJob(s, k, jk) ==> StateOf(UnblockJob(s, jk, multi), k) == StateOf(s, k)
    ensures StateOf(UnblockJob(s, jk, multi), k) == StateOf(s, k) || StateOf(UnblockJob(s, jk, multi), k) == Unblocking(StateOf(s, k))
    ensures multi && OfJob(s, k, jk) ==> StateOf(UnblockJob(s, jk, multi), k) == Unblocking(StateOf(s, k))
  {
    TwoUpdatesAt(s, JobKeys(s, jk), Blocked, Waiting, PausedAndBlocked, Paused, multi, k);
    assert UnblockJob(s, jk, multi) == TwoUpdates(s, JobKeys(s, jk), Blocked, Waiting, PausedAndBlocked, Paused, multi);
    UnblockingMoves(StateOf(s, k));
  }

  /** Unblocking keeps the invariant and touches only the job's records,
      each of which is either left alone or unblocked; with the multi flag
      every one of them is unblocked. */
  lemma UnblockJobEffect(s: Store, jk: JobKey, multi: bool)
    requires Valid(s)
    ensures var r := UnblockJob(s, jk, multi);
      && Valid(r)
      && (forall k :: !OfJob(s, k, jk) ==> StateOf(r, k) == StateOf(s, k))
      && (forall k :: OfJob(s, k, jk) ==> StateOf(r, k) == StateOf(s, k) || StateOf(r, k) == Unblocking(StateOf(s, k)))
      && (multi ==> forall k :: OfJob(s, k, jk) ==> StateOf(r, k) == Unblocking(StateOf(s, k)))
  {
    var keys := JobKeys(s, jk);
    var s1 := UpdateStates(s, KeyInState(keys, Blocked), SetState(Waiting), multi);
    UpdateKeepsValid(s, KeyInState(keys, Blocked), SetState(Waiting), multi);
    UpdateKeepsValid(s1, KeyInState(keys, PausedAndBlocked), SetState(Paused), multi);
    var r := UnblockJob(s, jk, multi);
    forall k
      ensures !OfJob(s, k, jk) ==> StateOf(r, k) == StateOf(s, k)
      ensures StateOf(r, k) == StateOf(s, k) || StateOf(r, k) == Unblocking(StateOf(s, k))
      ensures multi && OfJob(s, k, jk) ==> StateOf(r, k) == Unblocking(StateOf(s, k))
    {
      JobTriggerKeys(s, jk, k);
      UnblockJobAt(s, jk, multi, k);
    }
  }

  /** Unblocking a job right after blocking it gives every record that was
      not already blocked its state back. */
  lemma UnblockUndoesBlock(s: Store, jk: JobKey)
    requires Valid(s)
    ensures var r := UnblockJob(BlockJob(s, jk, true), jk, true);
      forall k :: !HasState(s, k, Blocked) && !HasState(s, k, PausedAndBlocked) ==> StateOf(r, k) == StateOf(s, k)
  {
    var b := BlockJob(s, jk, true);
    BlockJobEffect(s, jk, true);
    assert b.triggers == s.triggers;
    forall k | !HasState(s, k, Blocked) && !HasState(s, k, PausedAndBlocked)
      ensures StateOf(UnblockJob(b, jk, true), k) == StateOf(s, k)
    {
      JobTriggerKeys(s, jk, k);
      JobTriggerKeys(b, jk, k);
      BlockJobAt(s, jk, true, k);
      UnblockJobAt(b, jk, true, k);
      assert OfJob(b, k, jk) == OfJob(s, k, jk);
      var o := StateOf(s, k);
      var ob := StateOf(b, k);
      var ou := StateOf(UnblockJob(b, jk, true), k);
      if OfJob(s, k, jk) {
        assert ou == Unblocking(ob) && ob == Blocking(o);
        UnblockingBlocking(o);
      } else {
        assert ou == ob && ob == o;
      }
    }
  }

  /** A TriggerFiredBundle: the job, the fired trigger, its calendar, the
      time of firing, the scheduled fire time (the trigger's previous fire
      time once fired), its previous fire time before firing, and its next
      fire time. Recovery is always false and is left out. */
  datatype Bundle = Bundle(
    job: Job,
    trigger: Trigger,
    calendar: Option<string>,
    fireTime: int,
    scheduledFireTime: Option<int>,
    prevFireTime: Option<int>,
    nextFireTime: Option<int>)

  /** The checks a trigger passes before it is fired: it is still stored,
      its record is Acquired, and the calendar it names is stored. */
  ghost predicate Fireable(s: Store, t: Trigger) {
    && FindTrigger(s, t.key).Some?
    && HasState(s, t.key, Acquired)
    && (t.calendar.Some? ==> t.calendar.value in s.calendars)
  }

  /** The loop body of TriggersFired for one trigger given by the caller.
      A deleted trigger, a record no longer Acquired, or a calendar that is
      gone skip it; otherwise the caller's copy is triggered and saved, the
      record read earlier is saved as Executing, and the job is read: a
      missing record or job is dereferenced. A job that disallows
      concurrent execution gets its other triggers blocked; the marker
      document saved for it has no `_id` of its own, so the driver files it
      under a generated id and no lookup by job key ever finds it: the
      blocked markers the model tracks stay as they were. */
  function FireOne(s: Store, schedule: Schedule, driver: Driver, now: int, t: Trigger): (r: Step<Option<Bundle>>)
    ensures r.store == s.(triggers := r.store.triggers, states := r.store.states)
    ensures r.result.Ok? && r.result.value.None? ==> r.store == s
  {
    if FindTrigger(s, t.key).None? then Step(s, Ok(None))
    else match StateOf(s, t.key)
      case None => Step(s, Err(NullReference))
      case Some(rec) =>
        if rec.state != Acquired then Step(s, Ok(None))
        else if t.calendar.Some? && t.calendar.value !in s.calendars then Step(s, Ok(None))
        else Fire(s, schedule, driver, now, t, rec)
  }

  /** Firing a trigger that passed the checks, `rec` being its record. */
  function Fire(s: Store, schedule: Schedule, driver: Driver, now: int, t: Trigger, rec: StateRecord): (r: Step<Option<Bundle>>)
    ensures r.store == s.(triggers := r.store.triggers, states := r.store.states)
  {
    var fired := WithFireTimes(t, schedule.triggered(t, t.calendar));
    var s1 := SaveState(SaveTrigger(s, fired), rec.(state := Executing));
    if t.jobKey !in s1.jobs then Step(s1, Err(NullReference))
    else
      var job := s1.jobs[t.jobKey];
      var s2 := if job.concurrentDisallowed then BlockJob(s1, job.key, driver.multi) else s1;
      Step(s2, Ok(Some(Bundle(job, fired, t.calendar, now, fired.prev, t.prev, fired.next))))
  }

  /** Firing with the blocked marker saved under the job's key, where
      StoreTrigger, ResumeTrigger and the completion look for it. */
  function FireIntended(s: Store, schedule: Schedule, driver: Driver, now: int, t: Trigger, rec: StateRecord): (r: Step<Option<Bundle>>)
    ensures r.store == s.(triggers := r.store.triggers, states := r.store.states, blockedJobs := r.store.blockedJobs)
    ensures r.result.Ok? && r.result.value.Some? && r.result.value.value.job.concurrentDisallowed ==> t.jobKey in r.store.blockedJobs
    ensures r.store.blockedJobs <= s.blockedJobs + {t.jobKey}
  {
    var fired := Fire(s, schedule, driver, now, t, rec);
    if fired.result.Ok? && fired.result.value.Some? && fired.result.value.value.job.concurrentDisallowed
    then Step(fired.store.(blockedJobs := s.blockedJobs + {t.jobKey}), fired.result)
    else fired
  }

  /** TriggersFired: FireOne on each given trigger in order, collecting the
      bundles of those fired; an exception ends the call and keeps the
      writes made before it. */
  function TriggersFired(s: Store, schedule: Schedule, driver: Driver, now: int, ts: seq<Trigger>): (r: Step<seq<Bundle>>)
    ensures r.result.Ok? ==> |r.result.value| <= |ts|
    decreases |ts|
  {
    if |ts| == 0 then Step(s, Ok([]))
    else
      var one := FireOne(s, schedule, driver, now, ts[0]);
      if one.result.Err? then Step(one.store, Err(one.result.error))
      else
        var rest := TriggersFired(one.store, schedule, driver, now, ts[1..]);
        if rest.result.Err? then rest
        else Step(rest.store, Ok(Prepend(one.result.value, rest.result.value)))
  }

  /** The bundles with one more in front when there is one. */
  function Prepend(o: Option<Bundle>, bs: seq<Bundle>): (r: seq<Bundle>)
    ensures forall b :: b in r <==> b in bs || o == Some(b)
  {
    if o.Some? then [o.value] + bs else bs
  }

  /** What firing one trigger does in a valid store, when the caller's copy
      names a stored job: the call succeeds and keeps the invariant and the
      jobs; it fires exactly when the trigger is fireable, and then the
      bundle carries the stored job and the triggered copy, which is saved,
      and the trigger's record is Executing with its owner kept. */
  lemma FireOneOutcome(s: Store, schedule: Schedule, driver: Driver, now: int, t: Trigger)
    requires Valid(s) && t.jobKey in s.jobs
    ensures var r := FireOne(s, schedule, driver, now, t);
      && r.result.Ok?
      && Valid(r.store)
      && r.store.jobs == s.jobs
      && (r.result.value.Some? <==> Fireable(s, t))
      && (r.result.value.Some? ==>
            var b := r.result.value.value;
            && b.job == s.jobs[t.jobKey]
            && b.trigger == WithFireTimes(t, schedule.triggered(t, t.calendar))
            && b.calendar == t.calendar
            && b.prevFireTime == t.prev
            && b.scheduledFireTime == b.trigger.prev && b.nextFireTime == b.trigger.next
            && FindTrigger(r.store, t.key) == Some(b.trigger)
            && StateOf(r.store, t.key) == Some(StateOf(s, t.key).value.(state := Executing))
            && r.store.blockedJobs == s.blockedJobs)
  {
    if Fireable(s, t) {
      FireEffect(s, schedule, driver, now, t, StateOf(s, t.key).value);
    } else if FindTrigger(s, t.key).Some? {
      assert StateOf(s, t.key).Some?;
    }
  }

  /** The record and trigger written when a trigger is fired. */
  lemma FireSaves(s: Store, t: Trigger, fired: Trigger, rec: StateRecord)
    requires Valid(s) && FindTrigger(s, t.key).Some? && StateOf(s, t.key) == Some(rec) && t.jobKey in s.jobs
    requires fired.key == t.key && fired.jobKey == t.jobKey
    ensures var s1 := SaveState(SaveTrigger(s, fired), rec.(state := Executing));
      && Valid(s1)
      && FindTrigger(s1, t.key) == Some(fired)
      && StateOf(s1, t.key) == Some(rec.(state := Executing))
      && (forall k :: k != t.key ==> FindTrigger(s1, k) == FindTrigger(s, k) && StateOf(s1, k) == StateOf(s, k))
  {
    var s0 := SaveTrigger(s, fired);
    SaveTriggerKeepsValid(s, fired);
    SaveStateKeepsValid(s0, rec.(state := Executing));
  }

  /** Firing a fireable trigger: the bundle carries the stored job and the
      triggered copy, which is saved, and the trigger's record is Executing
      with its owner kept; no blocked marker becomes findable. */
  lemma FireEffect(s: Store, schedule: Schedule, driver: Driver, now: int, t: Trigger, rec: StateRecord)
    requires Valid(s) && FindTrigger(s, t.key).Some? && StateOf(s, t.key) == Some(rec) && t.jobKey in s.jobs
    ensures var r := Fire(s, schedule, driver, now, t, rec);
      && r.result.Ok? && r.result.value.Some?
      && Valid(r.store)
      && r.store.jobs == s.jobs
      && var b := r.result.value.value;
      && b.job == s.jobs[t.jobKey]
      && b.trigger == WithFireTimes(t, schedule.triggered(t, t.calendar))
      && b.calendar == t.calendar
      && b.prevFireTime == t.prev
      && b.scheduledFireTime == b.trigger.prev && b.nextFireTime == b.trigger.next
      && FindTrigger(r.store, t.key) == Some(b.trigger)
      && StateOf(r.store, t.key) == Some(rec.(state := Executing))
      && r.store.blockedJobs == s.blockedJobs
  {
    var fired := WithFireTimes(t, schedule.triggered(t, t.calendar));
    var s1 := SaveState(SaveTrigger(s, fired), rec.(state := Executing));
    FireSaves(s, t, fired, rec);
    var job := s1.jobs[t.jobKey];
    if job.concurrentDisallowed {
      BlockJobEffect(s1, job.key, driver.multi);
    }
  }

  /** What firing does to the other triggers: their documents stay, and
      their records change only by the blocking of the fired job's
      triggers, every one of which is blocked when the driver updates
      every match. */
  lemma FireFrame(s: Store, schedule: Schedule, driver: Driver, now: int, t: Trigger, rec: StateRecord)
    requires Valid(s) && FindTrigger(s, t.key).Some? && StateOf(s, t.key) == Some(rec) && t.jobKey in s.jobs
    ensures var r := Fire(s, schedule, driver, now, t, rec);
      var disallowed := s.jobs[t.jobKey].concurrentDisallowed;
      && (forall k :: k != t.key ==> FindTrigger(r.store, k) == FindTrigger(s, k))
      && (forall k :: k != t.key ==> StateOf(r.store, k) == StateOf(s, k) || StateOf(r.store, k) == Blocking(StateOf(s, k)))
      && (forall k :: k != t.key && !(disallowed && OfJob(s, k, t.jobKey)) ==> StateOf(r.store, k) == StateOf(s, k))
      && (driver.multi && disallowed ==>
            forall k :: k != t.key && OfJob(s, k, t.jobKey) ==> StateOf(r.store, k) == Blocking(StateOf(s, k)))
  {
    var fired := WithFireTimes(t, schedule.triggered(t, t.calendar));
    var s1 := SaveState(SaveTrigger(s, fired), rec.(state := Executing));
    FireSaves(s, t, fired, rec);
    var job := s1.jobs[t.jobKey];
    assert job.key == t.jobKey;
    if job.concurrentDisallowed {
      BlockJobEffect(s1, job.key, driver.multi);
    }
  }

  /** As written, firing a trigger of a job that disallows concurrent
      execution leaves no marker a later lookup finds: a new trigger of
      the job stored while it runs (outside any paused group) starts
      Waiting, so it can be acquired and run alongside. */
  lemma FiredJobStaysUnmarked(s: Store, schedule: Schedule, driver: Driver, now: int, t: Trigger, u: Trigger)
    requires Valid(s) && Fireable(s, t) && t.jobKey in s.jobs && s.jobs[t.jobKey].concurrentDisallowed
    requires t.jobKey !in s.blockedJobs
    requires u.jobKey == t.jobKey && u.key != t.key && FindTrigger(s, u.key).None?
    requires u.key.group !in s.pausedTriggerGroups && u.jobKey.group !in s.pausedJobGroups
    ensures var f := FireOne(s, schedule, driver, now, t);
      && f.result.Ok? && f.result.value.Some?
      && HasState(Storage.StoreTrigger(f.store, u, false).store, u.key, Waiting)
  {
    var rec := StateOf(s, t.key).value;
    FireOneOutcome(s, schedule, driver, now, t);
    FireFrame(s, schedule, driver, now, t, rec);
    var f := FireOne(s, schedule, driver, now, t).store;
    Storage.StoreTriggerStores(f, u, false);
  }

  /** With the marker saved under the job's key, such a trigger starts
      Blocked until the running job completes. */
  lemma FiredJobMarkedIntended(s: Store, schedule: Schedule, driver: Driver, now: int, t: Trigger, u: Trigger)
    requires Valid(s) && Fireable(s, t) && t.jobKey in s.jobs && s.jobs[t.jobKey].concurrentDisallowed
    requires u.jobKey == t.jobKey && u.key != t.key && FindTrigger(s, u.key).None?
    requires u.key.group !in s.pausedTriggerGroups && u.jobKey.group !in s.pausedJobGroups
    ensures var f := FireIntended(s, schedule, driver, now, t, StateOf(s, t.key).value);
      && f.result.Ok? && f.result.value.Some?
      && t.jobKey in f.store.blockedJobs
      && HasState(Storage.StoreTrigger(f.store, u, false).store, u.key, Blocked)
  {
    var rec := StateOf(s, t.key).value;
    FireEffect(s, schedule, driver, now, t, rec);
    FireFrame(s, schedule, driver, now, t, rec);
    var f0 := Fire(s, schedule, driver, now, t, rec).store;
    var f := FireIntended(s, schedule, driver, now, t, rec).store;
    SameDocuments(f0, f);
    Storage.StoreTriggerStores(f, u, false);
  }

  /** What a firing step never does: an Executing record stays Executing
      with its trigger untouched, and no record becomes Acquired. */
  ghost predicate Advances(s: Store, r: Store) {
    && (forall k :: HasState(s, k, Executing) ==> HasState(r, k, Executing) && FindTrigger(r, k) == FindTrigger(s, k))
    && (forall k :: HasState(r, k, Acquired) ==> HasState(s, k, Acquired))
  }

  lemma AdvancesTransitive(a: Store, b: Store, c: Store)
    requires Advances(a, b) && Advances(b, c)
    ensures Advances(a, c)
  {
  }

  /** Firing a fireable trigger neither leaves Executing nor enters
      Acquired. */
  lemma FireAdvances(s: Store, schedule: Schedule, driver: Driver, now: int, t: Trigger, rec: StateRecord)
    requires Valid(s) && FindTrigger(s, t.key).Some? && StateOf(s, t.key) == Some(rec) && t.jobKey in s.jobs
    requires rec.state == Acquired
    ensures Advances(s, Fire(s, schedule, driver, now, t, rec).store)
  {
    FireFrame(s, schedule, driver, now, t, rec);
    FireEffect(s, schedule, driver, now, t, rec);
    BlockingAdvances(s, Fire(s, schedule, driver, now, t, rec).store, t.key);
  }

  /** A step that turns one Acquired record into an Executing one and at
      most blocks the others advances. */
  lemma BlockingAdvances(s: Store, r: Store, k0: TriggerKey)
    requires HasState(s, k0, Acquired) && HasState(r, k0, Executing)
    requires forall k :: k != k0 ==> FindTrigger(r, k) == FindTrigger(s, k)
    requires forall k :: k != k0 ==> StateOf(r, k) == StateOf(s, k) || StateOf(r, k) == Blocking(StateOf(s, k))
    ensures Advances(s, r)
  {
    forall k | HasState(r, k, Acquired) ensures HasState(s, k, Acquired) {
      assert k != k0;
    }
  }

  /** Firing one trigger neither leaves Executing nor enters Acquired. */
  lemma FireOneAdvances(s: Store, schedule: Schedule, driver: Driver, now: int, t: Trigger)
    requires Valid(s) && t.jobKey in s.jobs
    ensures Advances(s, FireOne(s, schedule, driver, now, t).store)
  {
    if Fireable(s, t) {
      FireAdvances(s, schedule, driver, now, t, StateOf(s, t.key).value);
    } else if FindTrigger(s, t.key).Some? {
      assert StateOf(s, t.key).Some?;
    }
  }

  /** The triggers of `ts` name stored jobs. */
  ghost predicate JobsStored(s: Store, ts: seq<Trigger>) {
    forall t :: t in ts ==> t.jobKey in s.jobs
  }

  /** TriggersFired in a valid store, given triggers of stored jobs,
      succeeds, keeps the invariant and the jobs, and advances. */
  lemma {:induction false} TriggersFiredKeepsValid(s: Store, schedule: Schedule, driver: Driver, now: int, ts: seq<Trigger>)
    requires Valid(s) && JobsStored(s, ts)
    ensures var r := TriggersFired(s, schedule, driver, now, ts);
      && r.result.Ok?
      && Valid(r.store)
      && r.store.jobs == s.jobs
      && Advances(s, r.store)
    decreases |ts|
  {
    if |ts| > 0 {
      var one := FireOne(s, schedule, driver, now, ts[0]);
      FireOneOutcome(s, schedule, driver, now, ts[0]);
      FireOneAdvances(s, schedule, driver, now, ts[0]);
      assert JobsStored(one.store, ts[1..]) by {
        forall t | t in ts[1..] ensures t.jobKey in one.store.jobs {
          assert t in ts;
        }
      }
      TriggersFiredKeepsValid(one.store, schedule, driver, now, ts[1..]);
      AdvancesTransitive(s, one.store, TriggersFired(one.store, schedule, driver, now, ts[1..]).store);
    }
  }

  /** A bundle's trigger was Acquired before the call and afterwards is
      Executing and stored as fired. */
  ghost predicate FiredFrom(s: Store, r: Store, b: Bundle) {
    && HasState(s, b.trigger.key, Acquired)
    && HasState(r, b.trigger.key, Executing)
    && FindTrigger(r, b.trigger.key) == Some(b.trigger)
  }

  /** Everything the proofs below need of one FireOne call. */
  ghost predicate Steps(s: Store, t: Trigger, one: Step<Option<Bundle>>) {
    && one.result.Ok?
    && Valid(one.store)
    && one.store.jobs == s.jobs
    && Advances(s, one.store)
    && (one.result.value.Some? ==> FiredFrom(s, one.store, one.result.value.value) && one.result.value.value.trigger.key == t.key)
  }

  lemma FireOneSteps(s: Store, schedule: Schedule, driver: Driver, now: int, t: Trigger)
    requires Valid(s) && t.jobKey in s.jobs
    ensures Steps(s, t, FireOne(s, schedule, driver, now, t))
  {
    FireOneOutcome(s, schedule, driver, now, t);
    FireOneAdvances(s, schedule, driver, now, t);
  }

  /** The induction step of TriggersFiredExecutes, over abstract stores. */
  lemma PrependFired(s: Store, m: Store, r: Store, o: Option<Bundle>, bs: seq<Bundle>, k0: TriggerKey, ks: seq<TriggerKey>)
    requires Advances(s, m) && Advances(m, r)
    requires o.Some? ==> FiredFrom(s, m, o.value) && o.value.trigger.key == k0
    requires forall b :: b in bs ==> FiredFrom(m, r, b) && b.trigger.key in ks
    ensures forall b :: b in Prepend(o, bs) ==> FiredFrom(s, r, b) && b.trigger.key in [k0] + ks
  {
  }

  /** Every trigger TriggersFired reports is one of the given keys, was
      Acquired, and is left Executing and saved as fired. */
  lemma {:induction false} TriggersFiredExecutes(s: Store, schedule: Schedule, driver: Driver, now: int, ts: seq<Trigger>)
    requires Valid(s) && JobsStored(s, ts)
    ensures var r := TriggersFired(s, schedule, driver, now, ts);
      && r.result.Ok?
      && forall b :: b in r.result.value ==> FiredFrom(s, r.store, b) && b.trigger.key in KeysOf(ts)
    decreases |ts|
  {
    TriggersFiredKeepsValid(s, schedule, driver, now, ts);
    if |ts| > 0 {
      var one := FireOne(s, schedule, driver, now, ts[0]);
      FireOneSteps(s, schedule, driver, now, ts[0]);
      assert JobsStored(one.store, ts[1..]) by {
        forall t | t in ts[1..] ensures t.jobKey in one.store.jobs {
          assert t in ts;
        }
      }
      var rest := TriggersFired(one.store, schedule, driver, now, ts[1..]);
      TriggersFiredExecutes(one.store, schedule, driver, now, ts[1..]);
      TriggersFiredKeepsValid(one.store, schedule, driver, now, ts[1..]);
      PrependFired(s, one.store, rest.store, one.result.value, rest.result.value, ts[0].key, KeysOf(ts[1..]));
      assert KeysOf(ts) == [ts[0].key] + KeysOf(ts[1..]);
    }
  }

  /** Keys of a bundle sequence are pairwise different. */
  ghost predicate DistinctKeys(bs: seq<Bundle>) {
    forall i, j :: 0 <= i < j < |bs| ==> bs[i].trigger.key != bs[j].trigger.key
  }

  /** The induction step of TriggersFiredOncePerKey, over an abstract store. */
  lemma PrependDistinct(m: Store, o: Option<Bundle>, bs: seq<Bundle>)
    requires DistinctKeys(bs)
    requires o.Some? ==> HasState(m, o.value.trigger.key, Executing)
    requires forall b :: b in bs ==> HasState(m, b.trigger.key, Acquired)
    ensures DistinctKeys(Prepend(o, bs))
  {
    if o.Some? {
      var r := Prepend(o, bs);
      forall i, j | 0 <= i < j < |r| ensures r[i].trigger.key != r[j].trigger.key {
        assert r[j] == bs[j - 1] && bs[j - 1] in bs;
        if i > 0 {
          assert r[i] == bs[i - 1];
        }
      }
    }
  }

  /** No trigger is fired twice in one call, even when the caller lists it
      twice: the first firing leaves it Executing, which the second skips. */
  lemma {:induction false} TriggersFiredOncePerKey(s: Store, schedule: Schedule, driver: Driver, now: int, ts: seq<Trigger>)
    requires Valid(s) && JobsStored(s, ts)
    ensures var r := TriggersFired(s, schedule, driver, now, ts);
      r.result.Ok? && DistinctKeys(r.result.value)
    decreases |ts|
  {
    TriggersFiredKeepsValid(s, schedule, driver, now, ts);
    if |ts| > 0 {
      var one := FireOne(s, schedule, driver, now, ts[0]);
      FireOneSteps(s, schedule, driver, now, ts[0]);
      assert JobsStored(one.store, ts[1..]) by {
        forall t | t in ts[1..] ensures t.jobKey in one.store.jobs {
          assert t in ts;
        }
      }
      var rest := TriggersFired(one.store, schedule, driver, now, ts[1..]);
      TriggersFiredOncePerKey(one.store, schedule, driver, now, ts[1..]);
      TriggersFiredExecutes(one.store, schedule, driver, now, ts[1..]);
      PrependDistinct(one.store, one.result.value, rest.result.value);
    }
  }

  /** The JobDataMap write of a job that persists its data after execution:
      an update by `_id`, which matches nothing once the job is gone. */
  function PersistData(s: Store, job: Job): (r: Store)
    ensures r == s.(jobs := r.jobs)
    ensures r.jobs.Keys == s.jobs.Keys
    ensures forall jk :: jk in s.jobs && jk != job.key ==> r.jobs[jk] == s.jobs[jk]
    ensures job.key in s.jobs ==> r.jobs[job.key] == s.jobs[job.key].(data := job.data)
  {
    if job.key in s.jobs then s.(jobs := s.jobs[job.key := s.jobs[job.key].(data := job.data)]) else s
  }

  lemma PersistKeepsValid(s: Store, job: Job)
    requires Valid(s)
    ensures Valid(PersistData(s, job))
  {
    SameDocuments(s, s.(jobs := s.jobs));
    var r := PersistData(s, job);
    assert forall k :: FindTrigger(r, k) == FindTrigger(s, k) && StateOf(r, k) == StateOf(s, k);
  }

  /** The job data document the completion writes. As written it goes
      through the registered JobDataMapSerializer, which throws on any
      entry; when `corrected`, through the intended encoder. */
  function DataDocument(job: Job, corrected: bool): (r: Result<Bson.Value, Exception>)
    ensures r.Err? <==> !corrected && |job.data| > 0
  {
    if corrected then Ok(JobDataMapSerializer.Serialize(job.data))
    else JobDataMapSerializer.SerializeAsWritten(job.data)
  }

  /** The completion of a job that persists its data throws at the data
      write. */
  predicate DataWriteFails(job: Job, corrected: bool) {
    job.persistData && DataDocument(job, corrected).Err?
  }

  /** The part of TriggeredJobComplete before the instruction: the
      trigger's record becomes Waiting with no owner; the job's data is
      encoded and written when it persists it, and a failing encoding
      throws there; then the job's triggers are unblocked when it
      disallows concurrent execution, and its blocked marker is removed. */
  function Release(s: Store, t: Trigger, job: Job, multi: bool, corrected: bool): (r: Step<()>)
    ensures r.result.Err? <==> DataWriteFails(job, corrected)
    ensures r.result.Err? ==> r.store == s.(states := r.store.states)
    ensures r.result.Ok? ==> r.store == s.(states := r.store.states, jobs := r.store.jobs, blockedJobs := s.blockedJobs - {job.key})
  {
    var s1 := UpdateStates(s, ById(t.key), SetStateUnsetOwner(Waiting), multi);
    if DataWriteFails(job, corrected) then Step(s1, Err(DataDocument(job, corrected).error))
    else
      var s2 := if job.persistData then PersistData(s1, job) else s1;
      var s3 := if job.concurrentDisallowed then UnblockJob(s2, job.key, multi) else s2;
      Step(s3.(blockedJobs := s3.blockedJobs - {job.key}), Ok(()))
  }

  /** The fire time the double check of DeleteTrigger reads: the caller's
      copy once more as written, the stored trigger when `rereadStored`. */
  function Recheck(s: Store, t: Trigger, rereadStored: bool): (d: Option<int>)
    ensures !rereadStored ==> d == t.next
    ensures rereadStored && FindTrigger(s, t.key).Some? ==> d == FindTrigger(s, t.key).value.next
  {
    if !rereadStored then t.next
    else match FindTrigger(s, t.key)
      case None => None
      case Some(u) => u.next
  }

  /** `RemoveTrigger(key)`, which removes an orphaned job too. */
  function Removal(s: Store, k: TriggerKey): (r: Step<()>)
    ensures r.store == Storage.RemoveTrigger(s, k, true).store
    ensures r.result.Ok? <==> Storage.RemoveTrigger(s, k, true).result.Ok?
  {
    var removed := Storage.RemoveTrigger(s, k, true);
    Step(removed.store, if removed.result.Err? then Err(removed.result.error) else Ok(()))
  }

  /** The instruction switch of TriggeredJobComplete. DeleteTrigger removes
      the trigger when the caller's copy has a next fire time, and
      otherwise when the double check finds none; the Set instructions
      update the trigger's record or, for the job-wide ones, every record
      of the job; anything else leaves the store. */
  function Instruct(s: Store, t: Trigger, job: Job, instr: Instruction, multi: bool, rereadStored: bool): (r: Step<()>)
  {
    match instr
    case DeleteTrigger =>
      if t.next.None? then
        if Recheck(s, t, rereadStored).None? then Removal(s, t.key) else Step(s, Ok(()))
      else Removal(s, t.key)
    case SetTriggerComplete => Step(UpdateStates(s, ById(t.key), SetState(Complete), multi), Ok(()))
    case SetTriggerError => Step(UpdateStates(s, ById(t.key), SetState(Error), multi), Ok(()))
    case SetAllJobTriggersError => Step(UpdateStates(s, KeyIn(JobKeys(s, job.key)), SetState(Error), multi), Ok(()))
    case SetAllJobTriggersComplete => Step(UpdateStates(s, KeyIn(JobKeys(s, job.key)), SetState(Complete), multi), Ok(()))
    case _ => Step(s, Ok(()))
  }

  /** TriggeredJobComplete as written: a failing data write ends the call
      after the record reset, and the double check of DeleteTrigger reads
      the caller's copy again. */
  function TriggeredJobComplete(s: Store, t: Trigger, job: Job, instr: Instruction, driver: Driver): (r: Step<()>)
  {
    var released := Release(s, t, job, driver.multi, false);
    if released.result.Err? then released
    else Instruct(released.store, t, job, instr, driver.multi, false)
  }

  /** TriggeredJobComplete with the intended data encoder and the double
      check reading the stored trigger, so that a trigger rescheduled
      during execution is kept. */
  function TriggeredJobCompleteIntended(s: Store, t: Trigger, job: Job, instr: Instruction, driver: Driver): (r: Step<()>)
  {
    var released := Release(s, t, job, driver.multi, true);
    if released.result.Err? then released
    else Instruct(released.store, t, job, instr, driver.multi, true)
  }

  /** The release keeps the invariant and the triggers. When the data
      write succeeds it writes the job's data if the job persists it and
      removes the blocked marker; when it throws, no job and no marker has
      changed. */
  lemma ReleaseKeepsValid(s: Store, t: Trigger, job: Job, multi: bool, corrected: bool)
    requires Valid(s)
    ensures Valid(Release(s, t, job, multi, corrected).store)
    ensures Release(s, t, job, multi, corrected).store.triggers == s.triggers
    ensures Release(s, t, job, multi, corrected).result.Ok? ==>
      && Release(s, t, job, multi, corrected).store.blockedJobs == s.blockedJobs - {job.key}
      && Release(s, t, job, multi, corrected).store.jobs == (if job.persistData then PersistData(s, job).jobs else s.jobs)
    ensures Release(s, t, job, multi, corrected).result.Err? ==>
      && Release(s, t, job, multi, corrected).store.blockedJobs == s.blockedJobs
      && Release(s, t, job, multi, corrected).store.jobs == s.jobs
  {
    var s1 := UpdateStates(s, ById(t.key), SetStateUnsetOwner(Waiting), multi);
    UpdateKeepsValid(s, ById(t.key), SetStateUnsetOwner(Waiting), multi);
    if !DataWriteFails(job, corrected) {
      var s2 := if job.persistData then PersistData(s1, job) else s1;
      if job.persistData {
        PersistKeepsValid(s1, job);
      }
      var s3 := if job.concurrentDisallowed then UnblockJob(s2, job.key, multi) else s2;
      if job.concurrentDisallowed {
        UnblockJobEffect(s2, job.key, multi);
      }
      SameDocuments(s3, Release(s, t, job, multi, corrected).store);
    }
  }

  /** The release leaves the trigger's record Waiting with no owner, also
      when the data write throws, since the reset comes first. */
  lemma ReleaseResets(s: Store, t: Trigger, job: Job, multi: bool, corrected: bool)
    requires Documents.UniqueKeys(s.states, RecordKeyOf)
    ensures StateOf(Release(s, t, job, multi, corrected).store, t.key).Some? <==> StateOf(s, t.key).Some?
    ensures StateOf(Release(s, t, job, multi, corrected).store, t.key).Some? ==>
      StateOf(Release(s, t, job, multi, corrected).store, t.key).value.state == Waiting &&
      StateOf(Release(s, t, job, multi, corrected).store, t.key).value.owner.None?
  {
    var s1 := UpdateStates(s, ById(t.key), SetStateUnsetOwner(Waiting), multi);
    UpdateByKey(s, ById(t.key), SetStateUnsetOwner(Waiting), multi, t.key);
    assert StateOf(s1, t.key) == KeyUpdated(s, ById(t.key), SetStateUnsetOwner(Waiting), t.key, t.key);
    if !DataWriteFails(job, corrected) {
      var s2 := if job.persistData then PersistData(s1, job) else s1;
      assert s2.states == s1.states;
      var s3 := if job.concurrentDisallowed then UnblockJob(s2, job.key, multi) else s2;
      if job.concurrentDisallowed {
        UnblockKeepsWaiting(s2, job.key, multi, t.key);
      }
      assert Release(s, t, job, multi, corrected).store.states == s3.states;
    }
  }

  /** Unblocking leaves a Waiting record, or a missing one, as it is. */
  lemma UnblockKeepsWaiting(s: Store, jk: JobKey, multi: bool, k: TriggerKey)
    requires Documents.UniqueKeys(s.states, RecordKeyOf)
    requires StateOf(s, k).Some? ==> StateOf(s, k).value.state == Waiting
    ensures StateOf(UnblockJob(s, jk, multi), k) == StateOf(s, k)
  {
    TwoUpdatesAt(s, JobKeys(s, jk), Blocked, Waiting, PausedAndBlocked, Paused, multi, k);
    assert UnblockJob(s, jk, multi) == TwoUpdates(s, JobKeys(s, jk), Blocked, Waiting, PausedAndBlocked, Paused, multi);
  }

  /** The release leaves every other trigger's record alone except that the
      job's are unblocked, every one of them when the driver updates every
      match; when the data write throws, no other record changes. */
  lemma ReleaseFrame(s: Store, t: Trigger, job: Job, multi: bool, corrected: bool)
    requires Valid(s)
    ensures var r := Release(s, t, job, multi, corrected);
      && (forall k :: k != t.key && !(job.concurrentDisallowed && OfJob(s, k, job.key)) ==> StateOf(r.store, k) == StateOf(s, k))
      && (forall k :: k != t.key ==> StateOf(r.store, k) == StateOf(s, k) || StateOf(r.store, k) == Unblocking(StateOf(s, k)))
      && (r.result.Err? ==> forall k :: k != t.key ==> StateOf(r.store, k) == StateOf(s, k))
      && (r.result.Ok? && multi && job.concurrentDisallowed ==>
            forall k :: k != t.key && OfJob(s, k, job.key) ==> StateOf(r.store, k) == Unblocking(StateOf(s, k)))
  {
    var s1 := UpdateStates(s, ById(t.key), SetStateUnsetOwner(Waiting), multi);
    UpdateByKey(s, ById(t.key), SetStateUnsetOwner(Waiting), multi, t.key);
    UpdateKeepsValid(s, ById(t.key), SetStateUnsetOwner(Waiting), multi);
    assert forall k :: k != t.key ==> StateOf(s1, k) == StateOf(s, k);
    if !DataWriteFails(job, corrected) {
      var s2 := if job.persistData then PersistData(s1, job) else s1;
      if job.persistData {
        PersistKeepsValid(s1, job);
      }
      assert forall k :: StateOf(s2, k) == StateOf(s1, k) && FindTrigger(s2, k) == FindTrigger(s, k);
      if job.concurrentDisallowed {
        UnblockJobEffect(s2, job.key, multi);
      }
      var s3 := if job.concurrentDisallowed then UnblockJob(s2, job.key, multi) else s2;
      SameDocuments(s3, Release(s, t, job, multi, corrected).store);
    }
  }

  /** Removing a trigger in a valid store removes its two documents, keeps
      every other trigger and record, and drops blocked markers at most. */
  lemma RemovalEffect(s: Store, k: TriggerKey)
    requires Valid(s)
    ensures var r := Removal(s, k);
      && r.result.Ok?
      && Valid(r.store)
      && FindTrigger(r.store, k).None? && StateOf(r.store, k).None?
      && (forall k' :: k' != k ==> FindTrigger(r.store, k') == FindTrigger(s, k') && StateOf(r.store, k') == StateOf(s, k'))
      && r.store.blockedJobs <= s.blockedJobs
  {
    Storage.RemoveTriggerKeepsValid(s, k, true);
    var d := DeleteTriggerDocuments(s, k);
    if FindTrigger(s, k).Some? {
      var removed := Storage.RemoveTrigger(s, k, true).store;
      assert removed.triggers == d.triggers && removed.states == d.states;
      assert forall k' :: FindTrigger(removed, k') == FindTrigger(d, k') && StateOf(removed, k') == StateOf(d, k');
    } else {
      assert StateOf(s, k).None?;
    }
  }

  /** Every instruction keeps the invariant, succeeds, and drops blocked
      markers at most. */
  lemma InstructKeepsValid(m: Store, t: Trigger, job: Job, instr: Instruction, multi: bool, rereadStored: bool)
    requires Valid(m)
    ensures var r := Instruct(m, t, job, instr, multi, rereadStored);
      && r.result.Ok?
      && Valid(r.store)
      && r.store.blockedJobs <= m.blockedJobs
  {
    match instr
    case DeleteTrigger => RemovalEffect(m, t.key);
    case SetTriggerComplete => UpdateKeepsValid(m, ById(t.key), SetState(Complete), multi);
    case SetTriggerError => UpdateKeepsValid(m, ById(t.key), SetState(Error), multi);
    case SetAllJobTriggersError => UpdateKeepsValid(m, KeyIn(JobKeys(m, job.key)), SetState(Error), multi);
    case SetAllJobTriggersComplete => UpdateKeepsValid(m, KeyIn(JobKeys(m, job.key)), SetState(Complete), multi);
    case _ =>
  }

  /** The state SetTriggerComplete and SetTriggerError write, and the one
      the job-wide instructions write. */
  function InstructedState(instr: Instruction): Option<StateName> {
    match instr
    case SetTriggerComplete => Some(Complete)
    case SetAllJobTriggersComplete => Some(Complete)
    case SetTriggerError => Some(Error)
    case SetAllJobTriggersError => Some(Error)
    case _ => None
  }

  /** SetTriggerComplete and SetTriggerError set the trigger's record to
      that state, owner kept, and leave every other record. */
  lemma InstructSetsTrigger(m: Store, t: Trigger, job: Job, instr: Instruction, multi: bool, rereadStored: bool)
    requires Documents.UniqueKeys(m.states, RecordKeyOf)
    requires instr == SetTriggerComplete || instr == SetTriggerError
    ensures var r := Instruct(m, t, job, instr, multi, rereadStored);
      && r.store.triggers == m.triggers
      && (StateOf(r.store, t.key).Some? <==> StateOf(m, t.key).Some?)
      && (StateOf(m, t.key).Some? ==> StateOf(r.store, t.key) == Some(StateOf(m, t.key).value.(state := InstructedState(instr).value)))
      && (forall k :: k != t.key ==> StateOf(r.store, k) == StateOf(m, k))
  {
    UpdateByKey(m, ById(t.key), SetState(InstructedState(instr).value), multi, t.key);
  }

  /** With the multi flag, the job-wide instructions set every record of
      the job's triggers to that state and leave every other record. */
  lemma InstructSetsJob(m: Store, t: Trigger, job: Job, instr: Instruction, multi: bool, rereadStored: bool)
    requires Valid(m) && multi
    requires instr == SetAllJobTriggersComplete || instr == SetAllJobTriggersError
    ensures var r := Instruct(m, t, job, instr, multi, rereadStored);
      && r.store.triggers == m.triggers
      && (forall k :: OfJob(m, k, job.key) ==> HasState(r.store, k, InstructedState(instr).value))
      && (forall k :: !OfJob(m, k, job.key) ==> StateOf(r.store, k) == StateOf(m, k))
  {
    var q := KeyIn(JobKeys(m, job.key));
    var c := SetState(InstructedState(instr).value);
    var r := UpdateStates(m, q, c, multi);
    forall k ensures OfJob(m, k, job.key) ==> HasState(r, k, InstructedState(instr).value)
      ensures !OfJob(m, k, job.key) ==> StateOf(r, k) == StateOf(m, k)
    {
      JobTriggerKeys(m, job.key, k);
      UpdateStateOf(m, q, c, multi, k);
    }
  }

  /** As written, DeleteTrigger removes the trigger whatever its fire
      times: the double check re-reads the caller's copy, which cannot
      have changed. */
  lemma InstructDeletes(m: Store, t: Trigger, job: Job, multi: bool)
    requires Valid(m)
    ensures var r := Instruct(m, t, job, DeleteTrigger, multi, false);
      && FindTrigger(r.store, t.key).None? && StateOf(r.store, t.key).None?
      && (forall k :: k != t.key ==> FindTrigger(r.store, k) == FindTrigger(m, k) && StateOf(r.store, k) == StateOf(m, k))
  {
    RemovalEffect(m, t.key);
  }

  /** With the double check reading the stored trigger, DeleteTrigger keeps
      a trigger that was rescheduled while its job ran, and removes it
      otherwise. */
  lemma InstructIntendedDeletes(m: Store, t: Trigger, job: Job, multi: bool)
    requires Valid(m)
    ensures var r := Instruct(m, t, job, DeleteTrigger, multi, true);
      var rescheduled := t.next.None? && FindTrigger(m, t.key).Some? && FindTrigger(m, t.key).value.next.Some?;
      && (rescheduled ==> r.store == m)
      && (!rescheduled ==> FindTrigger(r.store, t.key).None? && StateOf(r.store, t.key).None?)
      && (forall k :: k != t.key ==> FindTrigger(r.store, k) == FindTrigger(m, k) && StateOf(r.store, k) == StateOf(m, k))
  {
    RemovalEffect(m, t.key);
  }

  /** TriggeredJobComplete in a valid store keeps the invariant and adds
      no blocked marker. It succeeds exactly when the data write does not
      throw, that is unless the job persists a non-empty data map; then it
      clears the job's marker and stores the job's data when it persists
      it. When it throws, no job and no marker has changed. */
  lemma TriggeredJobCompleteKeepsValid(s: Store, t: Trigger, job: Job, instr: Instruction, driver: Driver)
    requires Valid(s)
    ensures var r := TriggeredJobComplete(s, t, job, instr, driver);
      && (r.result.Ok? <==> !job.persistData || |job.data| == 0)
      && Valid(r.store)
      && r.store.blockedJobs <= s.blockedJobs
      && (r.result.Ok? ==> job.key !in r.store.blockedJobs)
      && (r.result.Ok? && job.persistData && job.key in s.jobs && instr != DeleteTrigger ==> r.store.jobs[job.key].data == job.data)
      && (r.result.Err? ==> r.store.jobs == s.jobs && r.store.blockedJobs == s.blockedJobs)
  {
    ReleaseKeepsValid(s, t, job, driver.multi, false);
    InstructKeepsValid(Release(s, t, job, driver.multi, false).store, t, job, instr, driver.multi, false);
  }

  /** As written, completing a job that persists a non-empty data map
      throws at the data write: the trigger's record is Waiting with no
      owner, but the job's data is not stored, its marker stays, no other
      record changes, so triggers blocked by its firing stay Blocked, and
      the instruction is not carried out. */
  lemma CompletionWithDataStaysBlocked(s: Store, t: Trigger, job: Job, instr: Instruction, driver: Driver)
    requires Valid(s) && job.persistData && |job.data| > 0
    ensures var r := TriggeredJobComplete(s, t, job, instr, driver);
      && r.result == Err(if job.data[0].1 == Bson.Null then NullReference else InvalidCast)
      && r.store.jobs == s.jobs
      && r.store.blockedJobs == s.blockedJobs
      && (forall k :: FindTrigger(r.store, k) == FindTrigger(s, k))
      && (forall k :: k != t.key ==> StateOf(r.store, k) == StateOf(s, k))
  {
    ReleaseKeepsValid(s, t, job, driver.multi, false);
    ReleaseFrame(s, t, job, driver.multi, false);
    JobDataMapSerializer.AsWrittenRejectsEntries(job.data);
  }

  /** With the intended encoder, TriggeredJobComplete always succeeds,
      keeps the invariant, clears the job's marker and adds none, and
      stores the job's data when it persists it. */
  lemma TriggeredJobCompleteIntendedKeepsValid(s: Store, t: Trigger, job: Job, instr: Instruction, driver: Driver)
    requires Valid(s)
    ensures var r := TriggeredJobCompleteIntended(s, t, job, instr, driver);
      && r.result.Ok?
      && Valid(r.store)
      && job.key !in r.store.blockedJobs
      && r.store.blockedJobs <= s.blockedJobs
      && (job.persistData && job.key in s.jobs && instr != DeleteTrigger ==> r.store.jobs[job.key].data == job.data)
  {
    ReleaseKeepsValid(s, t, job, driver.multi, true);
    InstructKeepsValid(Release(s, t, job, driver.multi, true).store, t, job, instr, driver.multi, true);
  }

  /** With the intended encoder and the multi flag, completing a job that
      persists data and disallows concurrent execution unblocks every
      other trigger of the job, whatever the data map holds. */
  lemma TriggeredJobCompleteIntendedUnblocks(s: Store, t: Trigger, job: Job, instr: Instruction, driver: Driver)
    requires Valid(s) && driver.multi && job.concurrentDisallowed && TriggerOnly(instr) && instr != DeleteTrigger
    ensures var r := TriggeredJobCompleteIntended(s, t, job, instr, driver);
      && r.result.Ok?
      && (forall k :: k != t.key && OfJob(s, k, job.key) ==> StateOf(r.store, k) == Unblocking(StateOf(s, k)))
      && (forall k :: k != t.key && !OfJob(s, k, job.key) ==> StateOf(r.store, k) == StateOf(s, k))
  {
    var m := Release(s, t, job, driver.multi, true).store;
    ReleaseKeepsValid(s, t, job, driver.multi, true);
    ReleaseFrame(s, t, job, driver.multi, true);
    match instr
    case SetTriggerComplete => InstructSetsTrigger(m, t, job, instr, driver.multi, true);
    case SetTriggerError => InstructSetsTrigger(m, t, job, instr, driver.multi, true);
    case _ =>
  }

  /** Instructions that concern only the completed trigger. */
  predicate TriggerOnly(instr: Instruction) {
    instr != SetAllJobTriggersComplete && instr != SetAllJobTriggersError
  }

  /** What TriggeredJobComplete leaves in the completed trigger's record.
      When the data write succeeds: DeleteTrigger removes the trigger and
      its record; SetTriggerComplete and SetTriggerError set that state;
      any instruction that is not a job-wide one leaves it Waiting; in
      every case no instance owns it. When the data write throws, the
      trigger stays, Waiting with no owner, whatever the instruction. */
  lemma TriggeredJobCompleteSetsTrigger(s: Store, t: Trigger, job: Job, instr: Instruction, driver: Driver)
    requires Valid(s) && StateOf(s, t.key).Some?
    ensures var r := TriggeredJobComplete(s, t, job, instr, driver);
      && (!DataWriteFails(job, false) && instr == DeleteTrigger ==> FindTrigger(r.store, t.key).None? && StateOf(r.store, t.key).None?)
      && (!DataWriteFails(job, false) && TriggerOnly(instr) && instr != DeleteTrigger ==>
            && StateOf(r.store, t.key).Some?
            && StateOf(r.store, t.key).value.owner.None?
            && StateOf(r.store, t.key).value.state == InstructedState(instr).GetOr(Waiting))
      && (DataWriteFails(job, false) ==>
            && FindTrigger(r.store, t.key) == FindTrigger(s, t.key)
            && HasState(r.store, t.key, Waiting)
            && StateOf(r.store, t.key).value.owner.None?)
  {
    var m := Release(s, t, job, driver.multi, false).store;
    ReleaseKeepsValid(s, t, job, driver.multi, false);
    ReleaseResets(s, t, job, driver.multi, false);
    if !DataWriteFails(job, false) {
      match instr
      case DeleteTrigger => InstructDeletes(m, t, job, driver.multi);
      case SetTriggerComplete => InstructSetsTrigger(m, t, job, instr, driver.multi, false);
      case SetTriggerError => InstructSetsTrigger(m, t, job, instr, driver.multi, false);
      case _ =>
    }
  }

  /** With the multi flag and a data write that succeeds, the job-wide
      instructions leave every trigger of the job in that state. */
  lemma TriggeredJobCompleteSetsJob(s: Store, t: Trigger, job: Job, instr: Instruction, driver: Driver)
    requires Valid(s) && driver.multi
    requires instr == SetAllJobTriggersComplete || instr == SetAllJobTriggersError
    ensures var r := TriggeredJobComplete(s, t, job, instr, driver);
      && (!DataWriteFails(job, false) ==> forall k :: OfJob(s, k, job.key) ==> HasState(r.store, k, InstructedState(instr).value))
      && (DataWriteFails(job, false) ==> forall k :: k != t.key ==> StateOf(r.store, k) == StateOf(s, k))
  {
    var m := Release(s, t, job, driver.multi, false).store;
    ReleaseKeepsValid(s, t, job, driver.multi, false);
    ReleaseFrame(s, t, job, driver.multi, false);
    if !DataWriteFails(job, false) {
      InstructSetsJob(m, t, job, instr, driver.multi, false);
      assert forall k :: OfJob(m, k, job.key) == OfJob(s, k, job.key);
    }
  }

  /** With the multi flag and a data write that succeeds, completing a job
      that disallows concurrent execution unblocks every other trigger of
      the job and leaves the records of other jobs' triggers, unless the
      instruction is job-wide; when the data write throws, no other record
      changes, so the job's other triggers stay as they were. */
  lemma TriggeredJobCompleteUnblocks(s: Store, t: Trigger, job: Job, instr: Instruction, driver: Driver)
    requires Valid(s) && driver.multi && job.concurrentDisallowed && TriggerOnly(instr)
    ensures var r := TriggeredJobComplete(s, t, job, instr, driver);
      && (!DataWriteFails(job, false) ==> forall k :: k != t.key && OfJob(s, k, job.key) ==> StateOf(r.store, k) == Unblocking(StateOf(s, k)))
      && (forall k :: k != t.key && !OfJob(s, k, job.key) ==> StateOf(r.store, k) == StateOf(s, k))
      && (DataWriteFails(job, false) ==> forall k :: k != t.key ==> StateOf(r.store, k) == StateOf(s, k))
  {
    var m := Release(s, t, job, driver.multi, false).store;
    ReleaseKeepsValid(s, t, job, driver.multi, false);
    ReleaseFrame(s, t, job, driver.multi, false);
    if !DataWriteFails(job, false) {
      match instr
      case DeleteTrigger => InstructDeletes(m, t, job, driver.multi);
      case SetTriggerComplete => InstructSetsTrigger(m, t, job, instr, driver.multi, false);
      case SetTriggerError => InstructSetsTrigger(m, t, job, instr, driver.multi, false);
      case _ =>
    }
  }

  /** Unblocking undoes blocking on a record that was not blocked. */
  lemma UnblockingBlocking(o: Option<StateRecord>)
    requires o.Some? ==> o.value.state != Blocked && o.value.state != PausedAndBlocked
    ensures Unblocking(Blocking(o)) == o
  {
    if o.Some? {
      assert UnblockedState(BlockedState(o.value.state)) == o.value.state;
    }
  }

  /** Firing a trigger and then completing it with no instruction: the
      trigger is Waiting with no owner and stored as fired. The completion
      succeeds exactly when the stored job does not persist a non-empty
      data map, and then removes the job's marker; otherwise the markers
      stay as they were. */
  lemma FireThenComplete(s: Store, schedule: Schedule, driver: Driver, now: int, t: Trigger)
    requires Valid(s) && Fireable(s, t) && t.jobKey in s.jobs
    ensures var f := FireOne(s, schedule, driver, now, t);
      && f.result.Ok? && f.result.value.Some?
      && var b := f.result.value.value;
      && var c := TriggeredJobComplete(f.store, b.trigger, b.job, NoInstruction, driver);
      && HasState(c.store, t.key, Waiting) && StateOf(c.store, t.key).value.owner.None?
      && FindTrigger(c.store, t.key) == Some(b.trigger)
      && (c.result.Ok? <==> !DataWriteFails(s.jobs[t.jobKey], false))
      && (c.result.Ok? ==> c.store.blockedJobs == s.blockedJobs - {t.jobKey})
      && (c.result.Err? ==> c.store.blockedJobs == s.blockedJobs)
  {
    var rec := StateOf(s, t.key).value;
    var f := Fire(s, schedule, driver, now, t, rec);
    assert FireOne(s, schedule, driver, now, t) == f;
    FireEffect(s, schedule, driver, now, t, rec);
    var b := f.result.value.value;
    assert b.job.key == t.jobKey;
    ReleaseFired(f.store, b.trigger, b.job, driver.multi);
    var m := Release(f.store, b.trigger, b.job, driver.multi, false);
    assert TriggeredJobComplete(f.store, b.trigger, b.job, NoInstruction, driver) == m;
  }

  /** Releasing a stored trigger keeps it as stored and leaves its record
      Waiting with no owner; it removes the job's blocked marker unless
      the data write throws. */
  lemma ReleaseFired(f: Store, tr: Trigger, job: Job, multi: bool)
    requires Valid(f) && FindTrigger(f, tr.key) == Some(tr)
    ensures var m := Release(f, tr, job, multi, false);
      && HasState(m.store, tr.key, Waiting) && StateOf(m.store, tr.key).value.owner.None?
      && FindTrigger(m.store, tr.key) == Some(tr)
      && (m.result.Ok? ==> m.store.blockedJobs == f.blockedJobs - {job.key})
      && (m.result.Err? ==> m.store.blockedJobs == f.blockedJobs)
  {
    ReleaseKeepsValid(f, tr, job, multi, false);
    ReleaseResets(f, tr, job, multi, false);
  }

  /** Firing a trigger and then completing it with no instruction, when
      the driver updates every match and the data write succeeds, gives
      every other record that was not blocked before its state back: the
      blocking and the unblocking of the job's triggers cancel. When the
      data write throws, the completion leaves every other record as the
      firing left it. */
  lemma FireThenCompleteRestores(s: Store, schedule: Schedule, driver: Driver, now: int, t: Trigger)
    requires Valid(s) && driver.multi && Fireable(s, t) && t.jobKey in s.jobs
    ensures var f := FireOne(s, schedule, driver, now, t);
      && f.result.Ok? && f.result.value.Some?
      && var b := f.result.value.value;
      && var c := TriggeredJobComplete(f.store, b.trigger, b.job, NoInstruction, driver);
      && (!DataWriteFails(s.jobs[t.jobKey], false) ==>
            forall k :: k != t.key && !HasState(s, k, Blocked) && !HasState(s, k, PausedAndBlocked) ==>
              StateOf(c.store, k) == StateOf(s, k))
      && (DataWriteFails(s.jobs[t.jobKey], false) ==>
            forall k :: k != t.key ==> StateOf(c.store, k) == StateOf(f.store, k))
  {
    var rec := StateOf(s, t.key).value;
    FireOneOutcome(s, schedule, driver, now, t);
    FireFrame(s, schedule, driver, now, t, rec);
    FireEffect(s, schedule, driver, now, t, rec);
    var f := FireOne(s, schedule, driver, now, t);
    var b := f.result.value.value;
    assert b.job.key == t.jobKey;
    var m := Release(f.store, b.trigger, b.job, driver.multi, false);
    ReleaseFrame(f.store, b.trigger, b.job, driver.multi, false);
    assert TriggeredJobComplete(f.store, b.trigger, b.job, NoInstruction, driver) == m;
    if !DataWriteFails(b.job, false) {
      UnblockUndoesFire(s, f.store, m.store, t.key, t.jobKey, b.job.concurrentDisallowed);
    }
  }

  /** The record part of FireThenComplete, over abstract stores: `f` blocks
      the job's other triggers when `disallowed`, and `m` unblocks them. */
  lemma UnblockUndoesFire(s: Store, f: Store, m: Store, k0: TriggerKey, jk: JobKey, disallowed: bool)
    requires forall k :: k != k0 ==> FindTrigger(f, k) == FindTrigger(s, k)
    requires forall k :: k != k0 && !(disallowed && OfJob(s, k, jk)) ==> StateOf(f, k) == StateOf(s, k)
    requires disallowed ==> forall k :: k != k0 && OfJob(s, k, jk) ==> StateOf(f, k) == Blocking(StateOf(s, k))
    requires forall k :: k != k0 && !(disallowed && OfJob(f, k, jk)) ==> StateOf(m, k) == StateOf(f, k)
    requires disallowed ==> forall k :: k != k0 && OfJob(f, k, jk) ==> StateOf(m, k) == Unblocking(StateOf(f, k))
    ensures forall k :: k != k0 && !HasState(s, k, Blocked) && !HasState(s, k, PausedAndBlocked) ==> StateOf(m, k) == StateOf(s, k)
  {
    forall k | k != k0 && !HasState(s, k, Blocked) && !HasState(s, k, PausedAndBlocked)
      ensures StateOf(m, k) == StateOf(s, k)
    {
      assert OfJob(f, k, jk) == OfJob(s, k, jk);
      UnblockingBlocking(StateOf(s, k));
    }
  }

  /** As written, DeleteTrigger removes a trigger that was rescheduled
      while its job ran: the caller's copy has no next fire time, the
      stored trigger has one, and the double check reads the caller's copy.
      Only a throwing data write, which skips the instruction, keeps it. */
  lemma RescheduledTriggerDeleted(s: Store, t: Trigger, job: Job, driver: Driver)
    requires Valid(s) && t.next.None?
    requires FindTrigger(s, t.key).Some? && FindTrigger(s, t.key).value.next.Some?
    ensures !DataWriteFails(job, false) ==> FindTrigger(TriggeredJobComplete(s, t, job, DeleteTrigger, driver).store, t.key).None?
    ensures DataWriteFails(job, false) ==> FindTrigger(TriggeredJobComplete(s, t, job, DeleteTrigger, driver).store, t.key) == FindTrigger(s, t.key)
  {
    ReleaseKeepsValid(s, t, job, driver.multi, false);
    ReleaseFrame(s, t, job, driver.multi, false);
    if !DataWriteFails(job, false) {
      InstructDeletes(Release(s, t, job, driver.multi, false).store, t, job, driver.multi);
    }
  }

  /** The intended completion keeps such a trigger, Waiting, and deletes
      every other one asked to be deleted. */
  lemma RescheduledTriggerKeptIntended(s: Store, t: Trigger, job: Job, driver: Driver)
    requires Valid(s)
    ensures var r := TriggeredJobCompleteIntended(s, t, job, DeleteTrigger, driver);
      var rescheduled := t.next.None? && FindTrigger(s, t.key).Some? && FindTrigger(s, t.key).value.next.Some?;
      && (rescheduled ==> FindTrigger(r.store, t.key) == FindTrigger(s, t.key) && HasState(r.store, t.key, Waiting))
      && (!rescheduled ==> FindTrigger(r.store, t.key).None? && StateOf(r.store, t.key).None?)
  {
    var m := Release(s, t, job, driver.multi, true).store;
    ReleaseKeepsValid(s, t, job, driver.multi, true);
    ReleaseResets(s, t, job, driver.multi, true);
    InstructIntendedDeletes(m, t, job, driver.multi);
    assert FindTrigger(m, t.key) == FindTrigger(s, t.key);
  }
}

=== FILE: job_data_map_serializer.dfy ===
/** JobDataMapSerializer: a job data map as a document with one element per entry. */
module JobDataMapSerializer {
  import opened Wrappers
  import opened Exceptions
  import opened Bson

  /** A JobDataMap: its entries in iteration (insertion) order. Entry values
      are kept as the BSON values they are written as. */
  type JobDataMap = seq<(string, Value)>

  predicate DistinctKeys(m: JobDataMap) {
    forall i, j :: 0 <= i < j < |m| ==> m[i].0 != m[j].0
  }

  predicate HasKey(m: JobDataMap, key: string) {
    exists i :: 0 <= i < |m| && m[i].0 == key
  }

  /** Serialize as written: it iterates `item.Values` (the entry values)
      with a loop variable typed as a key/value pair, so the first value is
      unboxed to a pair: a null value throws NullReferenceException, any
      other value InvalidCastException. Only an empty map is written, as an
      empty document. */
  function SerializeAsWritten(m: JobDataMap): (r: Result<Value, Exception>)
    ensures r.Ok? <==> |m| == 0
    ensures r.Ok? ==> r.value == Document([])
  {
    if |m| == 0 then Ok(Document([]))
    else if m[0].1 == Null then Err(NullReference)
    else Err(InvalidCast)
  }

  /** Serialize as evidently intended: one element per entry, named by its
      key, in iteration order, and nothing else. */
  function Serialize(m: JobDataMap): (v: Value)
    ensures v.Document? && |v.fields| == |m|
    ensures forall i :: 0 <= i < |m| ==> v.fields[i].0 == m[i].0 && v.fields[i].1 == m[i].1
  {
    Document(m)
  }

  /** The decode loop: `item.Add(key, value)` per element in document order;
      Add throws ArgumentException on a key already present. */
  function AddAll(acc: JobDataMap, fs: seq<(string, Value)>): (r: Result<JobDataMap, Exception>)
    decreases |fs|
  {
    if |fs| == 0 then Ok(acc)
    else if HasKey(acc, fs[0].0) then Err(Argument)
    else AddAll(acc + [fs[0]], fs[1..])
  }

  /** The loop succeeds exactly when the keys stay distinct, and then it has
      appended every element, in order. */
  lemma {:induction false} AddAllSpec(acc: JobDataMap, fs: seq<(string, Value)>)
    requires DistinctKeys(acc)
    ensures AddAll(acc, fs).Ok? <==> DistinctKeys(acc + fs)
    ensures AddAll(acc, fs).Ok? ==> AddAll(acc, fs).value == acc + fs
    decreases |fs|
  {
    if |fs| == 0 {
      assert acc + fs == acc;
    } else {
      var acc' := acc + [fs[0]];
      assert acc + fs == acc' + fs[1..];
      if HasKey(acc, fs[0].0) {
        var i :| 0 <= i < |acc| && acc[i].0 == fs[0].0;
        assert (acc + fs)[i].0 == (acc + fs)[|acc|].0;
      } else {
        assert DistinctKeys(acc');
        AddAllSpec(acc', fs[1..]);
      }
    }
  }

  /** Deserialize: the type check, then a document read entry by entry;
      Null decodes to null; any other BSON type throws. */
  function Deserialize(v: Value, nominal: ClrType, actual: ClrType): (r: Result<Option<JobDataMap>, Exception>)
    ensures nominal != JobDataMapType || actual != JobDataMapType ==> r == Err(BsonSerialization)
    ensures nominal == JobDataMapType && actual == JobDataMapType ==>
              (v == Null <==> r == Ok(None)) &&
              (!v.Null? && !v.Document? ==> r == Err(BsonSerialization))
  {
    if nominal != JobDataMapType || actual != JobDataMapType then Err(BsonSerialization)
    else match v
      case Document(fs) =>
        var m := AddAll([], fs);
        if m.Err? then Err(m.error) else Ok(Some(m.value))
      case Null => Ok(None)
      case _ => Err(BsonSerialization)
  }

  /** A document decodes to the map of its elements, in document order,
      exactly when its element names are distinct. */
  lemma DecodeDocument(fs: seq<(string, Value)>)
    ensures Deserialize(Document(fs), JobDataMapType, JobDataMapType).Ok? <==> DistinctKeys(fs)
    ensures DistinctKeys(fs) ==> Deserialize(Document(fs), JobDataMapType, JobDataMapType) == Ok(Some(fs))
  {
    AddAllSpec([], fs);
    assert [] + fs == fs;
  }

  /** As written, no non-empty map can be serialized at all: the first
      entry's value decides which exception is thrown. */
  lemma AsWrittenRejectsEntries(m: JobDataMap)
    requires |m| > 0
    ensures m[0].1 == Null ==> SerializeAsWritten(m) == Err(NullReference)
    ensures m[0].1 != Null ==> SerializeAsWritten(m) == Err(InvalidCast)
  {
  }

  /** The intended serializer round-trips every map (map keys are distinct). */
  lemma RoundTrip(m: JobDataMap)
    requires DistinctKeys(m)
    ensures Deserialize(Serialize(m), JobDataMapType, JobDataMapType) == Ok(Some(m))
  {
    DecodeDocument(m);
  }
}

=== FILE: misfire.dfy ===
/** The misfire threshold and the misfire handling of the clustered store. */
module Misfire {
  import opened Wrappers
  import opened Exceptions
  import opened Quartz
  import opened Store
  import Documents

  /** The threshold a new store starts with: five seconds, in ticks. */
  const DefaultMisfireThreshold := 5_000 * TicksPerMillisecond

  /** The MisfireThreshold setter: a span of less than one millisecond is
      rejected and the threshold is left as it was. */
  function SetMisfireThreshold(s: Store, ticks: int): (r: Step<()>)
    ensures r.result.Err? <==> ticks < TicksPerMillisecond
    ensures r.result.Err? ==> r.result.error == Argument && r.store == s
    ensures r.result.Ok? ==> r.store == s.(misfireThreshold := ticks)
  {
    if ticks < TicksPerMillisecond then Step(s, Err(Argument))
    else Step(s.(misfireThreshold := ticks), Ok(()))
  }

  /** `now.AddMilliseconds(-threshold.TotalMilliseconds)`: the offset is
      rounded to a whole millisecond, half away from zero, before it is
      applied. A threshold that is not positive leaves `now`. */
  function MisfireTime(now: int, threshold: int): (r: int)
    ensures threshold <= 0 ==> r == now
    ensures threshold > 0 ==> (now - r) % TicksPerMillisecond == 0
    ensures threshold > 0 ==> now - threshold - 5_000 <= r < now - threshold + 5_000
  {
    if threshold > 0 then
      now - ((threshold + 5_000) / TicksPerMillisecond) * TicksPerMillisecond
    else now
  }

  /** A trigger with a whole-millisecond threshold is judged against
      exactly `now - threshold`. */
  lemma WholeMillisecondsExact(now: int, threshold: int)
    requires threshold > 0 && threshold % TicksPerMillisecond == 0
    ensures MisfireTime(now, threshold) == now - threshold
  {
  }

  /** The result of ApplyMisfire: the store after it, whether the trigger
      counts as misfired, and the caller's trigger object after it. */
  datatype Outcome = Outcome(store: Store, misfired: bool, trigger: Trigger)

  /** The trigger missed its next fire time by more than the threshold and
      does not ignore misfires. */
  predicate HasMisfired(s: Store, now: int, t: Trigger) {
    t.next.Some? && t.next.value <= MisfireTime(now, s.misfireThreshold) && !t.ignoreMisfire
  }

  /** The calendar ApplyMisfire hands to the trigger: the named one when it
      is stored, otherwise none. */
  function CalendarFor(s: Store, t: Trigger): (cal: Option<string>)
    ensures cal.Some? <==> t.calendar.Some? && t.calendar.value in s.calendars
    ensures cal.Some? ==> cal == t.calendar
  {
    if t.calendar.Some? && t.calendar.value in s.calendars then t.calendar else None
  }

  /** ApplyMisfire: a misfired trigger gets its misfire instruction applied
      and is saved; if it will not fire again its state becomes Complete.
      It counts as misfired unless its next fire time came out unchanged. */
  function ApplyMisfire(s: Store, schedule: Schedule, now: int, t: Trigger): (r: Outcome)
    ensures !HasMisfired(s, now, t) ==> r == Outcome(s, false, t)
    ensures HasMisfired(s, now, t) ==>
      r.trigger == WithFireTimes(t, schedule.afterMisfire(t, CalendarFor(s, t)))
    ensures r.store == s.(triggers := r.store.triggers, states := r.store.states)
    ensures !r.misfired ==> r.trigger.next == t.next
    ensures r.trigger.key == t.key && r.trigger.jobKey == t.jobKey
  {
    if !HasMisfired(s, now, t) then Outcome(s, false, t)
    else
      var updated := WithFireTimes(t, schedule.afterMisfire(t, CalendarFor(s, t)));
      var saved := SaveTrigger(s, updated);
      if updated.next.None? then
        Outcome(UpdateStates(saved, ById(t.key), SetState(Complete), false), true, updated)
      else if updated.next == t.next then Outcome(saved, false, updated)
      else Outcome(saved, true, updated)
  }

  /** What ApplyMisfire does to a stored trigger in a valid store: the store
      stays valid; when the trigger misfired, the updated trigger is saved,
      it is reported as misfired exactly when its next fire time changed,
      and a trigger with no next fire time is Complete; no job, no other
      trigger and no other state record changes. */
  lemma ApplyMisfireEffect(s: Store, schedule: Schedule, now: int, t: Trigger)
    requires Valid(s) && FindTrigger(s, t.key).Some? && t.jobKey in s.jobs
    ensures var r := ApplyMisfire(s, schedule, now, t);
      && Valid(r.store)
      && r.store.jobs == s.jobs
      && (forall k :: k != t.key ==> FindTrigger(r.store, k) == FindTrigger(s, k) && StateOf(r.store, k) == StateOf(s, k))
      && (HasMisfired(s, now, t) ==>
            && FindTrigger(r.store, t.key) == Some(r.trigger)
            && (r.misfired <==> r.trigger.next != t.next)
            && (r.trigger.next.None? ==> StateOf(r.store, t.key).value.state == Complete)
            && (r.trigger.next.Some? ==> StateOf(r.store, t.key) == StateOf(s, t.key)))
  {
    if HasMisfired(s, now, t) {
      var updated := WithFireTimes(t, schedule.afterMisfire(t, CalendarFor(s, t)));
      var saved := SaveTrigger(s, updated);
      SaveTriggerKeepsValid(s, updated);
      if updated.next.None? {
        UpdateKeepsValid(saved, ById(t.key), SetState(Complete), false);
        UpdateByKey(saved, ById(t.key), SetState(Complete), false, t.key);
        var final := UpdateStates(saved, ById(t.key), SetState(Complete), false);
        assert forall k :: FindTrigger(final, k) == FindTrigger(saved, k);
      }
    }
  }
}

=== FILE: naive_store.dfy ===
/** The naive MongoDB job store: each trigger document carries its own
    `State` element, acquisition is a query with no locking, and firing
    saves the trigger object back whole. */
module Naive {
  import opened Wrappers
  import opened Exceptions
  import opened Quartz
  import Bson
  import Documents
  import Reported
  import Store

  /** A document of the Triggers collection: the serialized trigger and its
      `State` element, which is absent until an update sets it (the trigger
      classes have no such member). */
  datatype Doc = Doc(trigger: Trigger, state: Option<Bson.Value>)

  function DocKey(d: Doc): TriggerKey { d.trigger.key }

  /** The collections the modelled methods touch, and the `_instanceId` the
      scheduler hands in (null until it is set). */
  datatype NaiveStore = NaiveStore(jobs: map<JobKey, Job>, triggers: seq<Doc>, instanceId: Option<string>)

  /** The stored trigger with key `k`, as FindOneById returns it. */
  function FindDoc(s: NaiveStore, k: TriggerKey): Option<Doc> {
    Documents.Find(s.triggers, DocKey, k)
  }

  // ---------------------------------------------------------------------
  // Acquisition

  /** The acquisition limit: `now + timeWindow`, unless noLaterThan is
      earlier. */
  function Limit(now: int, noLaterThan: int, timeWindow: int): (r: int)
    ensures r <= noLaterThan && r <= now + timeWindow
    ensures r == noLaterThan || r == now + timeWindow
  {
    if noLaterThan < now + timeWindow then noLaterThan else now + timeWindow
  }

  /** The acquisition query: a next fire time at or before the limit (a
      trigger with none has no `Ticks` to compare) and a State other than
      "Paused" (a missing State matches `$ne`). */
  predicate Eligible(d: Doc, limit: int) {
    && d.trigger.next.Some?
    && d.trigger.next.value <= limit
    && d.state != Some(Bson.Str("Paused"))
  }

  /** The triggers the query returns, in natural order. */
  function EligibleTriggers(ds: seq<Doc>, limit: int): (r: seq<Trigger>)
    ensures forall t :: t in r ==> exists d :: d in ds && Eligible(d, limit) && d.trigger == t
    ensures forall d :: d in ds && Eligible(d, limit) ==> d.trigger in r
    ensures forall i :: 0 <= i < |r| ==> r[i].next.Some? && r[i].next.value <= limit
    ensures |r| <= |ds|
  {
    if |ds| == 0 then []
    else
      var rest := EligibleTriggers(ds[1..], limit);
      assert forall d :: d in ds[1..] ==> d in ds;
      assert forall d :: d in ds && d != ds[0] ==> d in ds[1..];
      if Eligible(ds[0], limit) then [ds[0].trigger] + rest else rest
  }

  /** The order OrderBy uses on nullable fire times: null first, then by
      ticks. */
  predicate NotAfter(a: Option<int>, b: Option<int>) {
    a.None? || (b.Some? && a.value <= b.value)
  }

  predicate SortedByNext(ts: seq<Trigger>) {
    forall i, j :: 0 <= i < j < |ts| ==> NotAfter(ts[i].next, ts[j].next)
  }

  /** Inserts `t` before the first trigger that does not fire earlier, so
      it stays ahead of triggers with the same fire time. */
  function Insert(t: Trigger, ts: seq<Trigger>): (r: seq<Trigger>)
    ensures multiset(r) == multiset(ts) + multiset{t}
    ensures SortedByNext(ts) ==> SortedByNext(r)
    ensures |r| == |ts| + 1
  {
    if |ts| == 0 || NotAfter(t.next, ts[0].next) then
      var r := [t] + ts;
      assert SortedByNext(ts) ==> SortedByNext(r) by {
        if SortedByNext(ts) && |ts| > 0 {
          forall i, j | 0 <= i < j < |r| ensures NotAfter(r[i].next, r[j].next) {
            if i > 0 { assert r[i] == ts[i - 1] && r[j] == ts[j - 1]; }
            else if j > 1 { assert r[j] == ts[j - 1]; assert NotAfter(ts[0].next, ts[j - 1].next); }
          }
        }
      }
      r
    else
      var rest := Insert(t, ts[1..]);
      assert ts == [ts[0]] + ts[1..];
      var r := [ts[0]] + rest;
      assert SortedByNext(ts) ==> SortedByNext(r) by {
        if SortedByNext(ts) {
          assert SortedByNext(ts[1..]) by {
            forall i, j | 0 <= i < j < |ts[1..]| ensures NotAfter(ts[1..][i].next, ts[1..][j].next) {
              assert ts[1..][i] == ts[i + 1] && ts[1..][j] == ts[j + 1];
            }
          }
          forall j | 0 < j < |r| ensures NotAfter(r[0].next, r[j].next) {
            assert r[j] in multiset(rest);
            assert r[j] in multiset(ts[1..]) || r[j] == t;
            if r[j] != t {
              var m :| 0 <= m < |ts[1..]| && ts[1..][m] == r[j];
              assert ts[1..][m] == ts[m + 1];
            }
          }
        }
      }
      r
  }

  /** `OrderBy(t => t.GetNextFireTimeUtc())`: a stable sort on the next
      fire time. */
  function SortByNext(ts: seq<Trigger>): (r: seq<Trigger>)
    ensures multiset(r) == multiset(ts)
    ensures SortedByNext(r)
    ensures |r| == |ts|
  {
    if |ts| == 0 then []
    else
      assert ts == [ts[0]] + ts[1..];
      Insert(ts[0], SortByNext(ts[1..]))
  }

  /** The triggers with a given next fire time, in order. */
  function AtTime(ts: seq<Trigger>, v: Option<int>): (r: seq<Trigger>)
    ensures forall t :: t in r ==> t in ts && t.next == v
  {
    if |ts| == 0 then []
    else if ts[0].next == v then [ts[0]] + AtTime(ts[1..], v)
    else AtTime(ts[1..], v)
  }

  /** Inserting puts `t` ahead of the triggers that fire at the same time
      and leaves their relative order alone. */
  lemma {:induction false} InsertAtTime(t: Trigger, ts: seq<Trigger>, v: Option<int>)
    ensures AtTime(Insert(t, ts), v) == if t.next == v then [t] + AtTime(ts, v) else AtTime(ts, v)
    decreases |ts|
  {
    var r := Insert(t, ts);
    if |ts| == 0 || NotAfter(t.next, ts[0].next) {
      assert r[0] == t && r[1..] == ts;
    } else {
      var rest := Insert(t, ts[1..]);
      assert r[0] == ts[0] && r[1..] == rest;
      InsertAtTime(t, ts[1..], v);
      assert ts[0].next != t.next;
      if ts[0].next == v {
        assert t.next != v;
      }
    }
  }

  /** The sort is stable: triggers sharing a fire time keep their natural
      order. */
  lemma {:induction false} SortIsStable(ts: seq<Trigger>, v: Option<int>)
    ensures AtTime(SortByNext(ts), v) == AtTime(ts, v)
    decreases |ts|
  {
    if |ts| > 0 {
      SortIsStable(ts[1..], v);
      InsertAtTime(ts[0], SortByNext(ts[1..]), v);
    }
  }

  /** `Take(maxCount)`: the first maxCount elements, none when maxCount is
      not positive. */
  function Take(ts: seq<Trigger>, maxCount: int): (r: seq<Trigger>)
    ensures |r| == if maxCount <= 0 then 0 else if maxCount < |ts| then maxCount else |ts|
    ensures r <= ts
  {
    if maxCount <= 0 then [] else if maxCount < |ts| then ts[..maxCount] else ts
  }

  /** What AcquireNextTriggers would return if every document read back as
      a trigger: the eligible triggers ordered by next fire time, at most
      maxCount of them. It takes the store but returns no store: the lock
      writes are commented out and nothing is written. */
  function AcquireIntended(s: NaiveStore, now: int, noLaterThan: int, maxCount: int, timeWindow: int): (r: seq<Trigger>)
    ensures SortedByNext(r)
    ensures maxCount <= 0 ==> r == []
    ensures |r| <= maxCount || |r| == 0
    ensures multiset(r) <= multiset(EligibleTriggers(s.triggers, Limit(now, noLaterThan, timeWindow)))
  {
    var sorted := SortByNext(EligibleTriggers(s.triggers, Limit(now, noLaterThan, timeWindow)));
    var r := Take(sorted, maxCount);
    assert sorted == r + sorted[|r|..];
    r
  }

  /** A document the acquisition query returns that carries a State
      element. No member of the trigger classes reads that element and the
      class maps do not ignore extra elements, so reading the document as
      a trigger throws FileFormatException. */
  predicate Unreadable(d: Doc, limit: int) {
    Eligible(d, limit) && d.state.Some?
  }

  /** AcquireNextTriggers as written. The cursor reads every document the
      query returns as a trigger once the ordering pulls from it, which
      `Take` does only for a positive maxCount; one document with a State
      element then makes the whole call throw. Otherwise the result is the
      ordered, truncated query result. */
  function AcquireNextTriggers(s: NaiveStore, now: int, noLaterThan: int, maxCount: int, timeWindow: int): (r: Result<seq<Trigger>, Exception>)
    ensures r.Err? <==> maxCount > 0 && exists d :: d in s.triggers && Unreadable(d, Limit(now, noLaterThan, timeWindow))
    ensures r.Err? ==> r.error == FileFormat
    ensures r.Ok? ==> r.value == AcquireIntended(s, now, noLaterThan, maxCount, timeWindow)
  {
    var limit := Limit(now, noLaterThan, timeWindow);
    if maxCount > 0 && exists d :: d in s.triggers && Unreadable(d, limit) then Err(FileFormat)
    else Ok(AcquireIntended(s, now, noLaterThan, maxCount, timeWindow))
  }

  /** Every acquired trigger answers the query: it is stored, not Paused,
      and due at or before both noLaterThan and `now + timeWindow`. */
  lemma AcquireEligible(s: NaiveStore, now: int, noLaterThan: int, maxCount: int, timeWindow: int, t: Trigger)
    requires t in AcquireIntended(s, now, noLaterThan, maxCount, timeWindow)
    ensures exists d :: d in s.triggers && Eligible(d, Limit(now, noLaterThan, timeWindow)) && d.trigger == t
    ensures t.next.Some? && t.next.value <= noLaterThan && t.next.value <= now + timeWindow
  {
    var eligible := EligibleTriggers(s.triggers, Limit(now, noLaterThan, timeWindow));
    assert t in multiset(eligible);
    assert t in eligible;
  }

  /** Acquisition succeeds exactly when maxCount is not positive or no
      returned document carries State, and then returns as many triggers
      as it may: maxCount, or every eligible one when there are fewer. */
  lemma AcquireCount(s: NaiveStore, now: int, noLaterThan: int, maxCount: int, timeWindow: int)
    ensures var r := AcquireNextTriggers(s, now, noLaterThan, maxCount, timeWindow);
      var n := |EligibleTriggers(s.triggers, Limit(now, noLaterThan, timeWindow))|;
      && (r.Ok? <==> maxCount <= 0 || forall d :: d in s.triggers ==> !Unreadable(d, Limit(now, noLaterThan, timeWindow)))
      && (r.Ok? ==> |r.value| == if maxCount <= 0 then 0 else if maxCount < n then maxCount else n)
  {
  }

  /** Acquisition takes the earliest triggers: an eligible trigger left out
      does not fire before any trigger taken. */
  lemma AcquireTakesEarliest(s: NaiveStore, now: int, noLaterThan: int, maxCount: int, timeWindow: int, d: Doc)
    requires d in s.triggers && Eligible(d, Limit(now, noLaterThan, timeWindow))
    requires d.trigger !in AcquireIntended(s, now, noLaterThan, maxCount, timeWindow)
    ensures forall t :: t in AcquireIntended(s, now, noLaterThan, maxCount, timeWindow) ==>
      NotAfter(t.next, d.trigger.next)
  {
    var limit := Limit(now, noLaterThan, timeWindow);
    var eligible := EligibleTriggers(s.triggers, limit);
    var sorted := SortByNext(eligible);
    var r := AcquireIntended(s, now, noLaterThan, maxCount, timeWindow);
    assert r == Take(sorted, maxCount);
    assert d.trigger in multiset(sorted);
    var m :| 0 <= m < |sorted| && sorted[m] == d.trigger;
    assert m >= |r|;
    forall t | t in r ensures NotAfter(t.next, d.trigger.next) {
      var i :| 0 <= i < |r| && r[i] == t;
      assert sorted[i] == t;
    }
  }

  /** Among triggers with the same fire time, acquisition follows natural
      order: those taken are the first ones in the collection. */
  lemma AcquireKeepsTies(s: NaiveStore, now: int, noLaterThan: int, maxCount: int, timeWindow: int, v: Option<int>)
    ensures AtTime(AcquireIntended(s, now, noLaterThan, maxCount, timeWindow), v)
      <= AtTime(EligibleTriggers(s.triggers, Limit(now, noLaterThan, timeWindow)), v)
  {
    var eligible := EligibleTriggers(s.triggers, Limit(now, noLaterThan, timeWindow));
    var sorted := SortByNext(eligible);
    var r := AcquireIntended(s, now, noLaterThan, maxCount, timeWindow);
    SortIsStable(eligible, v);
    AtTimePrefix(r, sorted, v);
  }

  /** A prefix of a sequence picks a prefix of its triggers at any time. */
  lemma {:induction false} AtTimePrefix(a: seq<Trigger>, b: seq<Trigger>, v: Option<int>)
    requires a <= b
    ensures AtTime(a, v) <= AtTime(b, v)
    decreases |a|
  {
    if |a| > 0 {
      assert a[1..] <= b[1..];
      AtTimePrefix(a[1..], b[1..], v);
    }
  }

  // ---------------------------------------------------------------------
  // Reported state

  /** `TriggerState.ToString()`: the State text each reported state is
      written as. */
  function StateText(st: Reported.TriggerState): string {
    match st
    case Normal => "Normal"
    case Paused => "Paused"
    case Complete => "Complete"
    case Error => "Error"
    case Blocked => "Blocked"
    case NotFound => "None"
  }

  /** The switch of GetTriggerState: five names map to their namesakes,
      any other text to TriggerState.None. */
  function ReadState(text: string): (st: Reported.TriggerState)
    ensures st != Reported.NotFound ==> StateText(st) == text
    ensures st == Reported.NotFound <==> text !in {"Blocked", "Complete", "Error", "Normal", "Paused"}
  {
    if text == "Blocked" then Reported.Blocked
    else if text == "Complete" then Reported.Complete
    else if text == "Error" then Reported.Error
    else if text == "Normal" then Reported.Normal
    else if text == "Paused" then Reported.Paused
    else Reported.NotFound
  }

  /** Every state other than None reads back as itself. */
  lemma ReadStateText(st: Reported.TriggerState)
    requires st != Reported.NotFound
    ensures ReadState(StateText(st)) == st
  {
    match st
    case Normal =>
      assert StateText(st) != "Blocked" && StateText(st) != "Complete" && StateText(st) != "Error";
    case Paused =>
      assert StateText(st) != "Blocked" && StateText(st) != "Complete" && StateText(st) != "Error" && StateText(st) != "Normal";
    case Complete =>
      assert StateText(st) != "Blocked";
    case Error =>
      assert StateText(st) != "Blocked" && StateText(st) != "Complete";
    case Blocked =>
  }

  /** GetTriggerState: reads the document's State element as a string. A
      missing document is null (NullReferenceException), a missing element
      throws KeyNotFoundException, and a value that is not a string
      InvalidCastException. */
  function GetTriggerState(s: NaiveStore, k: TriggerKey): (r: Result<Reported.TriggerState, Exception>)
    ensures r == Err(NullReference) <==> FindDoc(s, k).None?
    ensures r == Err(KeyNotFound) <==> FindDoc(s, k).Some? && FindDoc(s, k).value.state.None?
    ensures r == Err(InvalidCast) <==>
      FindDoc(s, k).Some? && FindDoc(s, k).value.state.Some? && !FindDoc(s, k).value.state.value.Str?
    ensures r.Ok? ==> FindDoc(s, k).value.state == Some(Bson.Str(FindDoc(s, k).value.state.value.s))
    ensures r.Ok? && r.value != Reported.NotFound ==> FindDoc(s, k).value.state == Some(Bson.Str(StateText(r.value)))
  {
    match FindDoc(s, k)
    case None => Err(NullReference)
    case Some(d) =>
      match d.state
      case None => Err(KeyNotFound)
      case Some(v) => if v.Str? then Ok(ReadState(v.s)) else Err(InvalidCast)
  }

  // ---------------------------------------------------------------------
  // Pause and resume

  /** The documents an update selects: by `_id`; by JobGroup and JobName
      (which together are the JobKey); by JobGroup; by trigger Group; or
      every document (`Query.Null`). A group matcher contributes only its
      value: its operator is never consulted. */
  datatype Selection =
    | ByKey(key: TriggerKey)
    | ByJob(job: JobKey)
    | ByJobGroup(jobGroup: string)
    | ByGroup(group: string)
    | All

  predicate Selects(sel: Selection, t: Trigger) {
    match sel
    case ByKey(k) => t.key == k
    case ByJob(jk) => t.jobKey.group == jk.group && t.jobKey.name == jk.name
    case ByJobGroup(g) => t.jobKey.group == g
    case ByGroup(g) => t.key.group == g
    case All => true
  }

  function MatcherOf(sel: Selection): Doc -> bool { (d: Doc) => Selects(sel, d.trigger) }

  function SetterOf(text: string): Doc -> Doc { (d: Doc) => d.(state := Some(Bson.Str(text))) }

  /** `Update(query, Update.Set("State", text))`: the selected documents get
      that State, every match with the multi flag and otherwise only the
      first one; nothing else changes. */
  function SetStates(s: NaiveStore, sel: Selection, text: string, multi: bool): (r: NaiveStore)
    ensures r.jobs == s.jobs && r.instanceId == s.instanceId
    ensures |r.triggers| == |s.triggers|
    ensures forall i :: 0 <= i < |s.triggers| ==> r.triggers[i].trigger == s.triggers[i].trigger
    ensures forall i :: 0 <= i < |s.triggers| ==>
      r.triggers[i].state == if Documents.Selected(s.triggers, MatcherOf(sel), multi, i) then Some(Bson.Str(text)) else s.triggers[i].state
  {
    s.(triggers := Documents.Update(s.triggers, MatcherOf(sel), SetterOf(text), multi))
  }

  /** The pause methods set State "Paused" on their selection. */
  function Pause(s: NaiveStore, sel: Selection, driver: Store.Driver): NaiveStore {
    SetStates(s, sel, StateText(Reported.Paused), driver.multi)
  }

  /** The resume methods set State "Normal" on their selection. */
  function Resume(s: NaiveStore, sel: Selection, driver: Store.Driver): NaiveStore {
    SetStates(s, sel, StateText(Reported.Normal), driver.multi)
  }

  function PauseTrigger(s: NaiveStore, k: TriggerKey, driver: Store.Driver): NaiveStore { Pause(s, ByKey(k), driver) }
  function PauseJob(s: NaiveStore, jk: JobKey, driver: Store.Driver): NaiveStore { Pause(s, ByJob(jk), driver) }
  function PauseAll(s: NaiveStore, driver: Store.Driver): NaiveStore { Pause(s, All, driver) }
  function ResumeTrigger(s: NaiveStore, k: TriggerKey, driver: Store.Driver): NaiveStore { Resume(s, ByKey(k), driver) }
  function ResumeJob(s: NaiveStore, jk: JobKey, driver: Store.Driver): NaiveStore { Resume(s, ByJob(jk), driver) }
  function ResumeAll(s: NaiveStore, driver: Store.Driver): NaiveStore { Resume(s, All, driver) }

  /** PauseJobs: pauses by JobGroup and returns an empty list. */
  function PauseJobs(s: NaiveStore, matcher: GroupMatcher, driver: Store.Driver): (NaiveStore, seq<string>) {
    (Pause(s, ByJobGroup(matcher.value), driver), [])
  }

  /** PauseTriggers: pauses by Group and returns an empty set. */
  function PauseTriggers(s: NaiveStore, matcher: GroupMatcher, driver: Store.Driver): (NaiveStore, set<string>) {
    (Pause(s, ByGroup(matcher.value), driver), {})
  }

  /** ResumeJobs: resumes by JobGroup and returns an empty set. */
  function ResumeJobs(s: NaiveStore, matcher: GroupMatcher, driver: Store.Driver): (NaiveStore, set<string>) {
    (Resume(s, ByJobGroup(matcher.value), driver), {})
  }

  /** ResumeTriggers: resumes by Group and returns an empty list. */
  function ResumeTriggers(s: NaiveStore, matcher: GroupMatcher, driver: Store.Driver): (NaiveStore, seq<string>) {
    (Resume(s, ByGroup(matcher.value), driver), [])
  }

  /** An update that keeps the `_id` finds, for any key, the document it
      found before, changed exactly when the update selected it. */
  lemma FindUpdated(ds: seq<Doc>, matches: Doc -> bool, f: Doc -> Doc, multi: bool, k: TriggerKey)
    requires forall d :: DocKey(f(d)) == DocKey(d)
    ensures var r := Documents.Update(ds, matches, f, multi);
      && (Documents.Find(r, DocKey, k).None? <==> Documents.Find(ds, DocKey, k).None?)
      && (Documents.Find(ds, DocKey, k).Some? ==>
            var i := Documents.IndexOf(ds, DocKey, k).value;
            Documents.Find(r, DocKey, k) == Some(if Documents.Selected(ds, matches, multi, i) then f(ds[i]) else ds[i]))
  {
    Documents.UpdateKeepsKeys(ds, DocKey, matches, f, multi, k);
  }

  /** After a State update, a stored trigger the update selects reports the
      state written, and one it does not select reports what it did
      before. A query by key always selects; any other needs the multi
      flag to reach more than the first match. */
  lemma SetStatesReports(s: NaiveStore, sel: Selection, text: string, multi: bool, k: TriggerKey)
    requires FindDoc(s, k).Some?
    ensures FindDoc(SetStates(s, sel, text, multi), k).Some?
    ensures FindDoc(SetStates(s, sel, text, multi), k).value.trigger == FindDoc(s, k).value.trigger
    ensures (multi || sel == ByKey(k)) && Selects(sel, FindDoc(s, k).value.trigger) ==>
      GetTriggerState(SetStates(s, sel, text, multi), k) == Ok(ReadState(text))
    ensures !Selects(sel, FindDoc(s, k).value.trigger) ==>
      GetTriggerState(SetStates(s, sel, text, multi), k) == GetTriggerState(s, k)
    ensures (multi || sel == ByKey(k)) && Selects(sel, FindDoc(s, k).value.trigger) ==>
      FindDoc(SetStates(s, sel, text, multi), k).value.state == Some(Bson.Str(text))
    ensures !Selects(sel, FindDoc(s, k).value.trigger) ==>
      FindDoc(SetStates(s, sel, text, multi), k) == FindDoc(s, k)
  {
    var r := SetStates(s, sel, text, multi);
    var m := MatcherOf(sel);
    FindUpdated(s.triggers, m, SetterOf(text), multi, k);
    var i := Documents.IndexOf(s.triggers, DocKey, k).value;
    var d := s.triggers[i];
    assert FindDoc(s, k) == Some(d);
    var picked := Documents.Selected(s.triggers, m, multi, i);
    assert FindDoc(r, k) == Some(if picked then d.(state := Some(Bson.Str(text))) else d);
    if sel == ByKey(k) && Selects(sel, d.trigger) {
      forall j | 0 <= j < i ensures !m(s.triggers[j]) {
        assert DocKey(s.triggers[j]) != k;
      }
      assert picked;
    }
    if !Selects(sel, d.trigger) {
      assert !picked;
    }
  }

  /** Pausing a stored trigger makes it report Paused; resuming makes it
      report Normal. */
  lemma PauseResumeTrigger(s: NaiveStore, k: TriggerKey, driver: Store.Driver)
    requires FindDoc(s, k).Some?
    ensures GetTriggerState(PauseTrigger(s, k, driver), k) == Ok(Reported.Paused)
    ensures GetTriggerState(ResumeTrigger(s, k, driver), k) == Ok(Reported.Normal)
  {
    assert FindDoc(s, k).value.trigger.key == k;
    SetStatesReports(s, ByKey(k), StateText(Reported.Paused), driver.multi, k);
    ReadStateText(Reported.Paused);
    assert PauseTrigger(s, k, driver) == SetStates(s, ByKey(k), StateText(Reported.Paused), driver.multi);
    SetStatesReports(s, ByKey(k), StateText(Reported.Normal), driver.multi, k);
    ReadStateText(Reported.Normal);
    assert ResumeTrigger(s, k, driver) == SetStates(s, ByKey(k), StateText(Reported.Normal), driver.multi);
  }

  /** Resuming after pausing the same selection is resuming alone: the
      pause leaves no trace, whatever the driver. */
  lemma PauseThenResume(s: NaiveStore, sel: Selection, driver: Store.Driver)
    ensures Resume(Pause(s, sel, driver), sel, driver) == Resume(s, sel, driver)
  {
    var p := Pause(s, sel, driver);
    var a := Resume(p, sel, driver);
    var b := Resume(s, sel, driver);
    var m := MatcherOf(sel);
    assert forall i :: 0 <= i < |s.triggers| ==> m(p.triggers[i]) == m(s.triggers[i]);
    assert forall i :: 0 <= i < |s.triggers| ==>
      Documents.Selected(p.triggers, m, driver.multi, i) == Documents.Selected(s.triggers, m, driver.multi, i);
    assert forall i :: 0 <= i < |s.triggers| ==> a.triggers[i] == b.triggers[i];
  }

  /** As written, pausing and resuming a due trigger breaks acquisition:
      the resume leaves a State element on the trigger's document, the
      query still returns it, and reading it as a trigger throws. */
  lemma PauseResumeBreaksAcquire(s: NaiveStore, k: TriggerKey, driver: Store.Driver,
                                 now: int, noLaterThan: int, maxCount: int, timeWindow: int)
    requires FindDoc(s, k).Some? && maxCount > 0
    requires FindDoc(s, k).value.trigger.next.Some?
    requires FindDoc(s, k).value.trigger.next.value <= Limit(now, noLaterThan, timeWindow)
    ensures AcquireNextTriggers(ResumeTrigger(PauseTrigger(s, k, driver), k, driver), now, noLaterThan, maxCount, timeWindow)
      == Err(FileFormat)
  {
    var r := ResumeTrigger(PauseTrigger(s, k, driver), k, driver);
    PauseThenResume(s, ByKey(k), driver);
    assert r == SetStates(s, ByKey(k), StateText(Reported.Normal), driver.multi);
    SetStatesReports(s, ByKey(k), StateText(Reported.Normal), driver.multi, k);
    assert FindDoc(s, k).value.trigger.key == k;
    var d := FindDoc(r, k).value;
    assert d in r.triggers && Unreadable(d, Limit(now, noLaterThan, timeWindow));
  }

  /** Reading the documents as triggers regardless of extra elements, the
      same trigger is acquired after the pause and the resume whenever
      maxCount leaves room for every eligible trigger. */
  lemma PauseResumeAcquireIntended(s: NaiveStore, k: TriggerKey, driver: Store.Driver,
                                   now: int, noLaterThan: int, maxCount: int, timeWindow: int)
    requires FindDoc(s, k).Some? && maxCount >= |s.triggers|
    requires FindDoc(s, k).value.trigger.next.Some?
    requires FindDoc(s, k).value.trigger.next.value <= Limit(now, noLaterThan, timeWindow)
    ensures FindDoc(s, k).value.trigger in
      AcquireIntended(ResumeTrigger(PauseTrigger(s, k, driver), k, driver), now, noLaterThan, maxCount, timeWindow)
  {
    var limit := Limit(now, noLaterThan, timeWindow);
    var r := ResumeTrigger(PauseTrigger(s, k, driver), k, driver);
    PauseThenResume(s, ByKey(k), driver);
    assert r == SetStates(s, ByKey(k), StateText(Reported.Normal), driver.multi);
    SetStatesReports(s, ByKey(k), StateText(Reported.Normal), driver.multi, k);
    assert FindDoc(s, k).value.trigger.key == k;
    var d := FindDoc(r, k).value;
    assert d in r.triggers && Eligible(d, limit);
    var eligible := EligibleTriggers(r.triggers, limit);
    assert d.trigger in eligible;
    var sorted := SortByNext(eligible);
    assert d.trigger in multiset(sorted);
    assert AcquireIntended(r, now, noLaterThan, maxCount, timeWindow) == sorted;
  }

  /** So a stored trigger in the selection reports Normal after a pause and
      a resume: always for a single key, for any selection with the multi
      flag. */
  lemma PauseResumeLeavesNormal(s: NaiveStore, sel: Selection, driver: Store.Driver, k: TriggerKey)
    requires FindDoc(s, k).Some? && Selects(sel, FindDoc(s, k).value.trigger)
    requires driver.multi || sel == ByKey(k)
    ensures GetTriggerState(Resume(Pause(s, sel, driver), sel, driver), k) == Ok(Reported.Normal)
  {
    PauseThenResume(s, sel, driver);
    SetStatesReports(s, sel, StateText(Reported.Normal), driver.multi, k);
  }

  /** With the multi flag, every stored trigger of a paused selection
      reports Paused and every other trigger reports what it did before. */
  lemma PauseSelection(s: NaiveStore, sel: Selection, k: TriggerKey)
    requires FindDoc(s, k).Some?
    ensures Selects(sel, FindDoc(s, k).value.trigger) ==>
      GetTriggerState(Pause(s, sel, Store.Driver(true, true)), k) == Ok(Reported.Paused)
    ensures !Selects(sel, FindDoc(s, k).value.trigger) ==>
      GetTriggerState(Pause(s, sel, Store.Driver(true, true)), k) == GetTriggerState(s, k)
  {
    SetStatesReports(s, sel, StateText(Reported.Paused), true, k);
  }

  // ---------------------------------------------------------------------
  // Firing

  /** The bundle handed to the scheduler for a fired trigger. The calendar
      is always null and the recovering flag false, so they are omitted;
      `fireTime` is the local clock. */
  datatype NaiveBundle = NaiveBundle(
    job: Option<Job>,
    trigger: Trigger,
    fireTime: int,
    scheduledFireTime: Option<int>,
    prevFireTime: Option<int>,
    nextFireTime: Option<int>)

  /** `trigger.Triggered(null)` followed by stamping the store's instance id. */
  function Fired(s: NaiveStore, schedule: Schedule, t: Trigger): (f: Trigger)
    ensures f.key == t.key && f.jobKey == t.jobKey && f.calendar == t.calendar
    ensures f.fireInstanceId == s.instanceId
    ensures f.next == schedule.triggered(t, None).next && f.prev == schedule.triggered(t, None).prev
  {
    WithFireTimes(t, schedule.triggered(t, None)).(fireInstanceId := s.instanceId)
  }

  /** One iteration of TriggersFired: the fired trigger is saved whole
      (an upsert that replaces the document, so its State element is
      gone), and the bundle is built from it. Both the scheduled and the
      previous fire time are read after `Triggered`. A missing job gives a
      null job in the bundle. */
  function FireOne(s: NaiveStore, schedule: Schedule, now: int, t: Trigger): (r: (NaiveStore, NaiveBundle))
    ensures r.0.jobs == s.jobs && r.0.instanceId == s.instanceId
    ensures FindDoc(r.0, t.key) == Some(Doc(r.1.trigger, None))
    ensures forall k :: k != t.key ==> FindDoc(r.0, k) == FindDoc(s, k)
    ensures r.1.trigger == Fired(s, schedule, t)
    ensures r.1.fireTime == now
    ensures r.1.scheduledFireTime == r.1.trigger.prev && r.1.prevFireTime == r.1.trigger.prev
    ensures r.1.nextFireTime == r.1.trigger.next
    ensures r.1.job.Some? <==> t.jobKey in s.jobs
    ensures r.1.job.Some? ==> r.1.job.value == s.jobs[t.jobKey]
  {
    var fired := Fired(s, schedule, t);
    var s1 := s.(triggers := Documents.Save(s.triggers, DocKey, Doc(fired, None)));
    var job := if fired.jobKey in s1.jobs then Some(s1.jobs[fired.jobKey]) else None;
    (s1, NaiveBundle(job, fired, now, fired.prev, fired.prev, fired.next))
  }

  /** TriggersFired: fires every given trigger in order, with no check that
      it is stored or in any particular state, and returns one bundle per
      trigger. */
  function TriggersFired(s: NaiveStore, schedule: Schedule, now: int, ts: seq<Trigger>): (r: (NaiveStore, seq<NaiveBundle>))
    ensures r.0.jobs == s.jobs && r.0.instanceId == s.instanceId
    ensures |r.1| == |ts|
    ensures forall i :: 0 <= i < |ts| ==> r.1[i].trigger.key == ts[i].key && r.1[i].trigger.jobKey == ts[i].jobKey
    ensures forall i :: 0 <= i < |ts| ==> r.1[i].trigger.fireInstanceId == s.instanceId
    decreases |ts|
  {
    if |ts| == 0 then (s, [])
    else
      var one := FireOne(s, schedule, now, ts[0]);
      var rest := TriggersFired(one.0, schedule, now, ts[1..]);
      (rest.0, [one.1] + rest.1)
  }

  /** Some trigger of `ts` has key `k`. */
  ghost predicate HasKey(ts: seq<Trigger>, k: TriggerKey) {
    exists i :: 0 <= i < |ts| && ts[i].key == k
  }

  lemma HasKeyCons(ts: seq<Trigger>, k: TriggerKey)
    requires |ts| > 0
    ensures HasKey(ts, k) <==> ts[0].key == k || HasKey(ts[1..], k)
  {
    if HasKey(ts, k) && ts[0].key != k {
      var i :| 0 <= i < |ts| && ts[i].key == k;
      assert ts[1..][i - 1].key == k;
    }
    if HasKey(ts[1..], k) {
      var i :| 0 <= i < |ts[1..]| && ts[1..][i].key == k;
      assert ts[i + 1].key == k;
    }
  }

  /** After TriggersFired every given key is stored, stamped with the
      instance id and without a State element, and every other document
      is as it was. */
  lemma {:induction false} TriggersFiredStores(s: NaiveStore, schedule: Schedule, now: int, ts: seq<Trigger>, k: TriggerKey)
    ensures HasKey(ts, k) ==> FindDoc(TriggersFired(s, schedule, now, ts).0, k).Some?
    ensures HasKey(ts, k) ==> FindDoc(TriggersFired(s, schedule, now, ts).0, k).value.state.None?
    ensures HasKey(ts, k) ==> FindDoc(TriggersFired(s, schedule, now, ts).0, k).value.trigger.fireInstanceId == s.instanceId
    ensures !HasKey(ts, k) ==> FindDoc(TriggersFired(s, schedule, now, ts).0, k) == FindDoc(s, k)
    decreases |ts|
  {
    if |ts| > 0 {
      var one := FireOne(s, schedule, now, ts[0]);
      TriggersFiredStores(one.0, schedule, now, ts[1..], k);
      HasKeyCons(ts, k);
      assert TriggersFired(s, schedule, now, ts).0 == TriggersFired(one.0, schedule, now, ts[1..]).0;
    }
  }

  /** GetTriggerState with a missing State element read as Normal, as it
      must be for a trigger that exists and was never paused or finished. */
  function GetTriggerStateIntended(s: NaiveStore, k: TriggerKey): (r: Result<Reported.TriggerState, Exception>)
    ensures FindDoc(s, k).Some? && FindDoc(s, k).value.state.None? ==> r == Ok(Reported.Normal)
    ensures !(FindDoc(s, k).Some? && FindDoc(s, k).value.state.None?) ==> r == GetTriggerState(s, k)
    ensures r == Err(NullReference) <==> FindDoc(s, k).None?
  {
    match FindDoc(s, k)
    case Some(d) => if d.state.None? then Ok(Reported.Normal) else GetTriggerState(s, k)
    case None => Err(NullReference)
  }

  /** As written, a trigger that has just fired can no longer report its
      state: the whole-document save dropped State, so GetTriggerState
      throws KeyNotFoundException. */
  lemma FiredTriggerStateLost(s: NaiveStore, schedule: Schedule, now: int, ts: seq<Trigger>, i: nat)
    requires i < |ts|
    ensures GetTriggerState(TriggersFired(s, schedule, now, ts).0, ts[i].key) == Err(KeyNotFound)
  {
    TriggersFiredStores(s, schedule, now, ts, ts[i].key);
  }

  /** With the missing element read as Normal, a fired trigger reports
      Normal. */
  lemma FiredTriggerReportsNormal(s: NaiveStore, schedule: Schedule, now: int, ts: seq<Trigger>, i: nat)
    requires i < |ts|
    ensures GetTriggerStateIntended(TriggersFired(s, schedule, now, ts).0, ts[i].key) == Ok(Reported.Normal)
  {
    TriggersFiredStores(s, schedule, now, ts, ts[i].key);
  }

  // ---------------------------------------------------------------------
  // Completion

  /** The value passed to `SignalSchedulingChange`: `new DateTimeOffset()`,
      whose ticks are zero. */
  const SignalledTime := 0

  function ClearerOf(): Doc -> Doc { (d: Doc) => d.(trigger := d.trigger.(fireInstanceId := None)) }

  /** The instruction switch of TriggeredJobComplete. */
  function Instructed(s: NaiveStore, t: Trigger, job: Job, instr: Instruction, multi: bool): (r: NaiveStore)
    ensures r.jobs == s.jobs && r.instanceId == s.instanceId
  {
    match instr
    case DeleteTrigger => s.(triggers := Documents.Remove(s.triggers, DocKey, t.key))
    case SetAllJobTriggersComplete => SetStates(s, ByJob(job.key), StateText(Reported.Complete), multi)
    case SetAllJobTriggersError => SetStates(s, ByJob(job.key), StateText(Reported.Error), multi)
    case SetTriggerComplete => SetStates(s, ByKey(t.key), StateText(Reported.Complete), multi)
    case SetTriggerError => SetStates(s, ByKey(t.key), StateText(Reported.Error), multi)
    case _ => s
  }

  /** `Update(_id == k, Update.Set("FireInstanceId", null))`. */
  function ClearFireInstanceId(s: NaiveStore, k: TriggerKey, multi: bool): (r: NaiveStore)
    ensures r.jobs == s.jobs && r.instanceId == s.instanceId
  {
    s.(triggers := Documents.Update(s.triggers, MatcherOf(ByKey(k)), ClearerOf(), multi))
  }

  /** Clearing changes only the FireInstanceId of the trigger with key `k`:
      every trigger is found as before, that one with no instance id, and
      every State is kept. */
  lemma ClearEffect(s: NaiveStore, k: TriggerKey, multi: bool, k': TriggerKey)
    ensures FindDoc(ClearFireInstanceId(s, k, multi), k').Some? <==> FindDoc(s, k').Some?
    ensures FindDoc(s, k').Some? && k' == k ==>
      FindDoc(ClearFireInstanceId(s, k, multi), k') ==
        Some(FindDoc(s, k').value.(trigger := FindDoc(s, k').value.trigger.(fireInstanceId := None)))
    ensures k' != k ==> FindDoc(ClearFireInstanceId(s, k, multi), k') == FindDoc(s, k')
    ensures GetTriggerState(ClearFireInstanceId(s, k, multi), k') == GetTriggerState(s, k')
  {
    var r := ClearFireInstanceId(s, k, multi);
    var m := MatcherOf(ByKey(k));
    FindUpdated(s.triggers, m, ClearerOf(), multi, k');
    if FindDoc(s, k').Some? {
      var i := Documents.IndexOf(s.triggers, DocKey, k').value;
      var d := s.triggers[i];
      assert FindDoc(s, k') == Some(d);
      var picked := Documents.Selected(s.triggers, m, multi, i);
      assert FindDoc(r, k') == Some(if picked then ClearerOf()(d) else d);
      if k' == k {
        forall j | 0 <= j < i ensures !m(s.triggers[j]) {
          assert DocKey(s.triggers[j]) != k';
        }
        assert picked;
      } else {
        assert !picked;
      }
      assert FindDoc(r, k').value.state == d.state;
    }
    SameStateSameReport(s, r, k');
  }

  /** GetTriggerState reads only whether the document exists and its State. */
  lemma SameStateSameReport(s: NaiveStore, r: NaiveStore, k: TriggerKey)
    requires FindDoc(r, k).Some? <==> FindDoc(s, k).Some?
    requires FindDoc(s, k).Some? ==> FindDoc(r, k).value.state == FindDoc(s, k).value.state
    ensures GetTriggerState(r, k) == GetTriggerState(s, k)
  {
  }

  /** TriggeredJobComplete: applies the instruction, signals a scheduling
      change (the returned value is the time it passes), then clears the
      trigger's FireInstanceId. */
  function TriggeredJobComplete(s: NaiveStore, t: Trigger, job: Job, instr: Instruction, driver: Store.Driver): (r: (NaiveStore, int))
    ensures r.0.jobs == s.jobs && r.0.instanceId == s.instanceId
    ensures r.1 == SignalledTime
  {
    (ClearFireInstanceId(Instructed(s, t, job, instr, driver.multi), t.key, driver.multi), SignalledTime)
  }

  /** The instruction switch removes the completed trigger exactly on
      DeleteTrigger and otherwise keeps its trigger document. */
  lemma InstructedKeepsTrigger(s: NaiveStore, t: Trigger, job: Job, instr: Instruction, multi: bool)
    requires FindDoc(s, t.key).Some?
    ensures var r := Instructed(s, t, job, instr, multi);
      && (instr == DeleteTrigger <==> FindDoc(r, t.key).None?)
      && (instr != DeleteTrigger ==> FindDoc(r, t.key).value.trigger == FindDoc(s, t.key).value.trigger)
  {
    match instr
    case SetAllJobTriggersComplete =>
      SetStatesReports(s, ByJob(job.key), StateText(Reported.Complete), multi, t.key);
    case SetAllJobTriggersError =>
      SetStatesReports(s, ByJob(job.key), StateText(Reported.Error), multi, t.key);
    case SetTriggerComplete =>
      SetStatesReports(s, ByKey(t.key), StateText(Reported.Complete), multi, t.key);
    case SetTriggerError =>
      SetStatesReports(s, ByKey(t.key), StateText(Reported.Error), multi, t.key);
    case DeleteTrigger =>
    case NoInstruction =>
    case ReExecuteJob =>
  }

  /** Setting the State of a stored trigger by its key to a reported
      state's text makes it report that state. */
  lemma SetByKeyReports(s: NaiveStore, k: TriggerKey, st: Reported.TriggerState, multi: bool)
    requires FindDoc(s, k).Some? && st != Reported.NotFound
    ensures GetTriggerState(SetStates(s, ByKey(k), StateText(st), multi), k) == Ok(st)
  {
    assert Selects(ByKey(k), FindDoc(s, k).value.trigger);
    SetStatesReports(s, ByKey(k), StateText(st), multi, k);
    ReadStateText(st);
  }

  /** The completed trigger afterwards: removed by DeleteTrigger and
      otherwise still stored with its FireInstanceId cleared, reporting
      what it reported before after NoInstruction and ReExecuteJob. */
  lemma TriggeredJobCompleteTrigger(s: NaiveStore, t: Trigger, job: Job, instr: Instruction, driver: Store.Driver)
    requires FindDoc(s, t.key).Some?
    ensures var r := TriggeredJobComplete(s, t, job, instr, driver).0;
      && (instr == DeleteTrigger <==> FindDoc(r, t.key).None?)
      && (instr != DeleteTrigger ==>
            FindDoc(r, t.key).value.trigger == FindDoc(s, t.key).value.trigger.(fireInstanceId := None))
      && (instr in {NoInstruction, ReExecuteJob} ==> GetTriggerState(r, t.key) == GetTriggerState(s, t.key))
  {
    var s1 := Instructed(s, t, job, instr, driver.multi);
    InstructedKeepsTrigger(s, t, job, instr, driver.multi);
    ClearEffect(s1, t.key, driver.multi, t.key);
    assert TriggeredJobComplete(s, t, job, instr, driver).0 == ClearFireInstanceId(s1, t.key, driver.multi);
  }

  /** SetTriggerComplete and SetTriggerError leave the completed trigger
      reporting Complete or Error. */
  lemma TriggeredJobCompleteSetsTrigger(s: NaiveStore, t: Trigger, job: Job, instr: Instruction, driver: Store.Driver)
    requires FindDoc(s, t.key).Some?
    requires instr in {SetTriggerComplete, SetTriggerError}
    ensures GetTriggerState(TriggeredJobComplete(s, t, job, instr, driver).0, t.key) ==
      Ok(if instr == SetTriggerComplete then Reported.Complete else Reported.Error)
  {
    var st := if instr == SetTriggerComplete then Reported.Complete else Reported.Error;
    var s1 := Instructed(s, t, job, instr, driver.multi);
    assert s1 == SetStates(s, ByKey(t.key), StateText(st), driver.multi);
    SetByKeyReports(s, t.key, st, driver.multi);
    ClearEffect(s1, t.key, driver.multi, t.key);
    assert TriggeredJobComplete(s, t, job, instr, driver).0 == ClearFireInstanceId(s1, t.key, driver.multi);
  }

  /** What the instruction switch does to another stored trigger: with the
      multi flag, the job-wide instructions give every trigger of the job
      their state; any other instruction leaves its state alone; its
      trigger document is never changed. */
  lemma InstructedOther(s: NaiveStore, t: Trigger, job: Job, instr: Instruction, k: TriggerKey)
    requires FindDoc(s, k).Some? && k != t.key
    ensures FindDoc(Instructed(s, t, job, instr, true), k).Some?
    ensures FindDoc(Instructed(s, t, job, instr, true), k).value.trigger == FindDoc(s, k).value.trigger
    ensures instr == SetAllJobTriggersComplete && FindDoc(s, k).value.trigger.jobKey == job.key ==>
      GetTriggerState(Instructed(s, t, job, instr, true), k) == Ok(Reported.Complete)
    ensures instr == SetAllJobTriggersError && FindDoc(s, k).value.trigger.jobKey == job.key ==>
      GetTriggerState(Instructed(s, t, job, instr, true), k) == Ok(Reported.Error)
    ensures instr !in {SetAllJobTriggersComplete, SetAllJobTriggersError} ==>
      GetTriggerState(Instructed(s, t, job, instr, true), k) == GetTriggerState(s, k)
  {
    var tk := FindDoc(s, k).value.trigger;
    match instr
    case SetAllJobTriggersComplete =>
      ReadStateText(Reported.Complete);
      SetStatesReports(s, ByJob(job.key), StateText(Reported.Complete), true, k);
    case SetAllJobTriggersError =>
      ReadStateText(Reported.Error);
      SetStatesReports(s, ByJob(job.key), StateText(Reported.Error), true, k);
    case SetTriggerComplete =>
      SetStatesReports(s, ByKey(t.key), StateText(Reported.Complete), true, k);
      assert !Selects(ByKey(t.key), tk);
    case SetTriggerError =>
      SetStatesReports(s, ByKey(t.key), StateText(Reported.Error), true, k);
      assert !Selects(ByKey(t.key), tk);
    case _ =>
  }

  /** With the multi flag, SetAllJobTriggersComplete and
      SetAllJobTriggersError give every stored trigger of the job that
      state, and any other instruction leaves the states of other triggers
      alone; no other trigger document changes. */
  lemma TriggeredJobCompleteJob(s: NaiveStore, t: Trigger, job: Job, instr: Instruction, k: TriggerKey)
    requires FindDoc(s, k).Some? && k != t.key
    ensures var r := TriggeredJobComplete(s, t, job, instr, Store.Driver(true, true)).0;
      && FindDoc(r, k).Some?
      && FindDoc(r, k).value.trigger == FindDoc(s, k).value.trigger
      && (instr == SetAllJobTriggersComplete && FindDoc(s, k).value.trigger.jobKey == job.key ==>
            GetTriggerState(r, k) == Ok(Reported.Complete))
      && (instr == SetAllJobTriggersError && FindDoc(s, k).value.trigger.jobKey == job.key ==>
            GetTriggerState(r, k) == Ok(Reported.Error))
      && (instr !in {SetAllJobTriggersComplete, SetAllJobTriggersError} ==> GetTriggerState(r, k) == GetTriggerState(s, k))
  {
    var s1 := Instructed(s, t, job, instr, true);
    InstructedOther(s, t, job, instr, k);
    ClearEffect(s1, t.key, true, k);
    assert TriggeredJobComplete(s, t, job, instr, Store.Driver(true, true)).0 == ClearFireInstanceId(s1, t.key, true);
  }
}

=== FILE: name_value_collection_serializer.dfy ===
/** NameValueCollectionSerializer: a collection as a document of string
    elements whose names have every "." written as "__period__". */
module NameValueCollectionSerializer {
  import opened Wrappers
  import opened Exceptions
  import opened Bson

  /** The collection as (key, value) pairs: for encoding, its AllKeys with
      each key's value; for decoding, the sequence of Add calls. */
  type Pairs = seq<(string, string)>

  /** String.Replace(pat, rep): ordinal, left to right, non-overlapping. */
  function Replace(s: string, pat: string, rep: string): string
    requires |pat| > 0
    decreases |s|
  {
    if |s| < |pat| then s
    else if s[..|pat|] == pat then rep + Replace(s[|pat|..], pat, rep)
    else [s[0]] + Replace(s[1..], pat, rep)
  }

  const Period: string := "."
  const PeriodEscape: string := "__period__"

  function Escape(key: string): string { Replace(key, Period, PeriodEscape) }
  function Unescape(name: string): string { Replace(name, PeriodEscape, Period) }

  /** No encoded element name contains ".". */
  lemma {:induction false} EscapeHasNoPeriod(key: string)
    ensures '.' !in Escape(key)
    decreases |key|
  {
    if |key| >= 1 {
      EscapeHasNoPeriod(key[1..]);
    }
  }

  /** Serialize: null or empty writes an empty document; otherwise one
      string element per key, with the key escaped. */
  function Serialize(c: Option<Pairs>): (v: Value)
    ensures v.Document?
    ensures c.None? || |c.value| == 0 ==> v.fields == []
    ensures c.Some? ==> |v.fields| == |c.value|
    ensures c.Some? ==> forall i :: 0 <= i < |c.value| ==>
              v.fields[i] == (Escape(c.value[i].0), Str(c.value[i].1)) && '.' !in v.fields[i].0
  {
    if c.None? || |c.value| == 0 then Document([])
    else
      forall i | 0 <= i < |c.value| ensures '.' !in Escape(c.value[i].0) {
        EscapeHasNoPeriod(c.value[i].0);
      }
      Document(seq(|c.value|, i requires 0 <= i < |c.value| => (Escape(c.value[i].0), Str(c.value[i].1))))
  }

  /** The decode loop: each element's name unescaped, its value read as a string. */
  function ReadPairs(fs: seq<(string, Value)>): (r: Result<Pairs, Exception>)
    ensures r.Ok? <==> forall i :: 0 <= i < |fs| ==> fs[i].1.Str?
    ensures r.Ok? ==> (|r.value| == |fs| &&
              forall i :: 0 <= i < |fs| ==> r.value[i] == (Unescape(fs[i].0), fs[i].1.s))
    decreases |fs|
  {
    if |fs| == 0 then Ok([])
    else if !fs[0].1.Str? then Err(InvalidOperation)
    else
      var rest := ReadPairs(fs[1..]);
      if rest.Err? then
        assert exists i :: 0 <= i < |fs| && !fs[i].1.Str? by {
          var j :| 0 <= j < |fs[1..]| && !fs[1..][j].1.Str?;
          assert !fs[j + 1].1.Str?;
        }
        Err(rest.error)
      else Ok([(Unescape(fs[0].0), fs[0].1.s)] + rest.value)
  }

  /** Deserialize: ReadStartDocument throws on anything but a document
      (including Null); the result is never null. */
  function Deserialize(v: Value): (r: Result<Pairs, Exception>)
    ensures !v.Document? ==> r == Err(InvalidOperation)
  {
    match v
    case Document(fs) => ReadPairs(fs)
    case _ => Err(InvalidOperation)
  }

  /** Decoding an encoding unescapes each escaped key and keeps each value. */
  lemma RoundTripShape(c: Pairs)
    ensures Deserialize(Serialize(Some(c))).Ok?
    ensures var r := Deserialize(Serialize(Some(c))).value;
            |r| == |c| && forall i :: 0 <= i < |c| ==> r[i] == (Unescape(Escape(c[i].0)), c[i].1)
  {
  }

  /** A null collection comes back as an empty one, not as null. */
  lemma NullComesBackEmpty()
    ensures Deserialize(Serialize(None)) == Ok([])
  {
  }

  lemma ReplaceFirstDiffers(s: string, pat: string, rep: string)
    requires |pat| > 0 && |s| > 0 && s[0] != pat[0]
    ensures Replace(s, pat, rep) == [s[0]] + Replace(s[1..], pat, rep)
  {
    if |s| >= |pat| {
      assert s[..|pat|][0] != pat[0];
    }
  }

  /** Keys without an underscore survive the round trip. */
  lemma {:induction false} UnescapeEscapeWithoutUnderscore(key: string)
    requires '_' !in key
    ensures Unescape(Escape(key)) == key
    decreases |key|
  {
    if |key| > 0 {
      var rest := key[1..];
      assert '_' !in rest by { assert forall i :: 0 <= i < |rest| ==> rest[i] == key[i + 1]; }
      UnescapeEscapeWithoutUnderscore(rest);
      if key[0] == '.' {
        assert key[..1] == Period;
        assert Escape(key) == PeriodEscape + Escape(rest);
        assert (PeriodEscape + Escape(rest))[..|PeriodEscape|] == PeriodEscape;
        assert (PeriodEscape + Escape(rest))[|PeriodEscape|..] == Escape(rest);
        assert Unescape(Escape(key)) == Period + Unescape(Escape(rest));
        assert key == [key[0]] + rest;
      } else {
        ReplaceFirstDiffers(key, Period, PeriodEscape);
        assert Escape(key) == [key[0]] + Escape(rest);
        ReplaceFirstDiffers(Escape(key), PeriodEscape, Period);
        assert Escape(key)[1..] == Escape(rest);
        assert key == [key[0]] + rest;
      }
    }
  }

  /** A key without a period is written unchanged. */
  lemma {:induction false} EscapeWithoutPeriod(key: string)
    requires '.' !in key
    ensures Escape(key) == key
    decreases |key|
  {
    if |key| > 0 {
      var rest := key[1..];
      assert '.' !in rest by { assert forall i :: 0 <= i < |rest| ==> rest[i] == key[i + 1]; }
      EscapeWithoutPeriod(rest);
      ReplaceFirstDiffers(key, Period, PeriodEscape);
      assert key == [key[0]] + rest;
    }
  }

  /** The escaping is not injective: a key already holding the escape text
      and a key holding a period meet. */
  lemma EscapingCollides()
    ensures Unescape(Escape("a__period__b")) == "a.b"
    ensures Unescape(Escape("a.b")) == "a.b"
  {
    var s := "a__period__b";
    assert '.' !in s;
    EscapeWithoutPeriod(s);
    ReplaceFirstDiffers(s, PeriodEscape, Period);
    var t := s[1..];
    assert t[..10] == PeriodEscape;
    assert t[10..] == "b";
    assert Replace(t, PeriodEscape, Period) == Period + Replace("b", PeriodEscape, Period);
    UnescapeEscapeWithoutUnderscore("a.b");
  }

  /** An injective escaping, as the serializer evidently intends: "." is
      written "_p" and "_" itself "__", so every "_" opens a two-character
      escape and the reader can undo it. */
  function EscapeCharIntended(c: char): string {
    if c == '.' then "_p" else if c == '_' then "__" else [c]
  }

  function EscapeIntended(key: string): (r: string)
    ensures '.' !in r
    decreases |key|
  {
    if |key| == 0 then [] else EscapeCharIntended(key[0]) + EscapeIntended(key[1..])
  }

  function UnescapeIntended(name: string): string
    decreases |name|
  {
    if |name| >= 2 && name[0] == '_' && name[1] == 'p' then "." + UnescapeIntended(name[2..])
    else if |name| >= 2 && name[0] == '_' && name[1] == '_' then "_" + UnescapeIntended(name[2..])
    else if |name| == 0 then []
    else [name[0]] + UnescapeIntended(name[1..])
  }

  lemma {:induction false} UnescapeEscapeIntended(key: string)
    ensures UnescapeIntended(EscapeIntended(key)) == key
    decreases |key|
  {
    if |key| > 0 {
      var rest := EscapeIntended(key[1..]);
      UnescapeEscapeIntended(key[1..]);
      var e := EscapeCharIntended(key[0]) + rest;
      if key[0] == '.' || key[0] == '_' {
        assert e[2..] == rest;
      } else {
        assert e[1..] == rest;
      }
      assert key == [key[0]] + key[1..];
    }
  }

  function SerializeIntended(c: Option<Pairs>): (v: Value)
    ensures v.Document?
    ensures c.None? || |c.value| == 0 ==> v.fields == []
    ensures c.Some? ==> (|v.fields| == |c.value| &&
              forall i :: 0 <= i < |c.value| ==> '.' !in v.fields[i].0 && v.fields[i].1 == Str(c.value[i].1))
  {
    if c.None? || |c.value| == 0 then Document([])
    else Document(seq(|c.value|, i requires 0 <= i < |c.value| => (EscapeIntended(c.value[i].0), Str(c.value[i].1))))
  }

  function DeserializeIntended(v: Value): (r: Result<Pairs, Exception>)
    ensures !v.Document? ==> r == Err(InvalidOperation)
  {
    match v
    case Document(fs) =>
      var r := ReadPairs(fs);
      if r.Err? then r
      else Ok(seq(|fs|, i requires 0 <= i < |fs| => (UnescapeIntended(fs[i].0), r.value[i].1)))
    case _ => Err(InvalidOperation)
  }

  /** With the injective escaping every collection round-trips, pair by pair. */
  lemma IntendedRoundTrip(c: Pairs)
    ensures DeserializeIntended(SerializeIntended(Some(c))) == Ok(c)
  {
    var fs := SerializeIntended(Some(c)).fields;
    if |c| > 0 {
      assert forall i :: 0 <= i < |fs| ==> fs[i].1.Str?;
      var pairs := ReadPairs(fs);
      assert pairs.Ok?;
      var r := seq(|fs|, i requires 0 <= i < |fs| => (UnescapeIntended(fs[i].0), pairs.value[i].1));
      assert DeserializeIntended(Document(fs)) == Ok(r);
      assert |r| == |c|;
      forall i | 0 <= i < |c| ensures r[i] == c[i] {
        assert fs[i].0 == EscapeIntended(c[i].0);
        assert pairs.value[i].1 == c[i].1;
        UnescapeEscapeIntended(c[i].0);
      }
      assert r == c;
      assert SerializeIntended(Some(c)) == Document(fs);
    } else {
      assert fs == [];
      assert ReadPairs(fs) == Ok([]);
      assert c == [];
      var d := DeserializeIntended(Document([]));
      assert d.Ok? && |d.value| == 0;
    }
  }
}

=== FILE: pause_resume.dfy ===
/** Pausing and resuming triggers and jobs in the clustered store. */
module PauseResume {
  import opened Wrappers
  import opened Exceptions
  import opened Quartz
  import opened Store
  import Documents
  import Misfire

  /** PauseTrigger: a Blocked record becomes PausedAndBlocked, then every
      record of the key that is not Blocked becomes Paused; the second
      update matches the record the first one just changed. */
  function PauseTrigger(s: Store, k: TriggerKey): (r: Store)
    ensures r == s.(states := r.states)
  {
    var s1 := UpdateStates(s, ByIdInState(k, Blocked), SetState(PausedAndBlocked), false);
    UpdateStates(s1, ByIdNotInState(k, Blocked), SetState(Paused), false)
  }

  /** A paused trigger is Paused whatever state it was in, Blocked
      included, with its owner kept; no other record changes, and the
      invariant holds. */
  lemma PauseTriggerPauses(s: Store, k: TriggerKey)
    requires Valid(s)
    ensures var r := PauseTrigger(s, k);
      && Valid(r)
      && (forall k' :: k' != k ==> StateOf(r, k') == StateOf(s, k'))
      && (StateOf(s, k).Some? ==> StateOf(r, k) == Some(StateOf(s, k).value.(state := Paused)))
      && (StateOf(s, k).None? ==> StateOf(r, k).None?)
  {
    var s1 := UpdateStates(s, ByIdInState(k, Blocked), SetState(PausedAndBlocked), false);
    UpdateByKey(s, ByIdInState(k, Blocked), SetState(PausedAndBlocked), false, k);
    UpdateKeepsValid(s, ByIdInState(k, Blocked), SetState(PausedAndBlocked), false);
    UpdateByKey(s1, ByIdNotInState(k, Blocked), SetState(Paused), false, k);
    UpdateKeepsValid(s1, ByIdNotInState(k, Blocked), SetState(Paused), false);
  }

  /** PauseTrigger for each key in turn. */
  function PauseKeys(s: Store, keys: seq<TriggerKey>): (r: Store)
    decreases |keys|
  {
    if |keys| == 0 then s else PauseKeys(PauseTrigger(s, keys[0]), keys[1..])
  }

  /** Pausing a list of keys pauses each stored one and changes no other
      record. */
  lemma {:induction false} PauseKeysPauses(s: Store, keys: seq<TriggerKey>)
    requires Valid(s)
    ensures var r := PauseKeys(s, keys);
      && Valid(r)
      && r == s.(states := r.states)
      && (forall k :: k !in keys ==> StateOf(r, k) == StateOf(s, k))
      && (forall k :: k in keys && StateOf(s, k).Some? ==> StateOf(r, k) == Some(StateOf(s, k).value.(state := Paused)))
      && (forall k :: StateOf(r, k).Some? <==> StateOf(s, k).Some?)
    decreases |keys|
  {
    if |keys| > 0 {
      var s1 := PauseTrigger(s, keys[0]);
      PauseTriggerPauses(s, keys[0]);
      PauseKeysPauses(s1, keys[1..]);
      var r := PauseKeys(s, keys);
      forall k | k in keys && StateOf(s, k).Some?
        ensures StateOf(r, k) == Some(StateOf(s, k).value.(state := Paused))
      {
        if k != keys[0] {
          assert k in keys[1..];
        }
      }
    }
  }

  /** PauseJob: PauseTrigger on every trigger of the job. */
  function PauseJob(s: Store, jk: JobKey): (r: Store)
  {
    PauseKeys(s, KeysOf(TriggersForJob(s.triggers, jk)))
  }

  /** After PauseJob every trigger of the job is Paused and every other
      trigger's record is unchanged. */
  lemma PauseJobPauses(s: Store, jk: JobKey)
    requires Valid(s)
    ensures var r := PauseJob(s, jk);
      && Valid(r)
      && r.triggers == s.triggers
      && (forall t :: t in s.triggers && t.jobKey == jk ==> StateOf(r, t.key).value.state == Paused)
      && (forall t :: t in s.triggers && t.jobKey != jk ==> StateOf(r, t.key) == StateOf(s, t.key))
  {
    var ts := TriggersForJob(s.triggers, jk);
    var keys := KeysOf(ts);
    PauseKeysPauses(s, keys);
    var r := PauseJob(s, jk);
    forall t | t in s.triggers && t.jobKey == jk ensures StateOf(r, t.key).value.state == Paused {
      var i :| 0 <= i < |ts| && ts[i] == t;
      assert keys[i] == t.key;
      var m :| 0 <= m < |s.triggers| && s.triggers[m] == t;
      Documents.FindAt(s.triggers, TriggerKeyOf, m);
    }
    forall t | t in s.triggers && t.jobKey != jk ensures StateOf(r, t.key) == StateOf(s, t.key) {
      var m :| 0 <= m < |s.triggers| && s.triggers[m] == t;
      Documents.FindAt(s.triggers, TriggerKeyOf, m);
      JobTriggerKeys(s, jk, t.key);
    }
  }

  /** PauseTriggers(matcher) and PauseJobs(matcher) throw
      NotImplementedException before any write. */
  function PauseGroups(s: Store, matcher: GroupMatcher): (r: Step<set<string>>)
    ensures r.store == s && r.result == Err(NotImplemented)
  {
    Step(s, Err(NotImplemented))
  }

  /** PauseAll: PauseTriggers on each trigger group GetTriggerGroupNames
      lists, so it throws on the first group there is; nothing is written. */
  function PauseAll(s: Store): (r: Step<()>)
    ensures r.store == s
    ensures r.result.Err? <==> |s.triggers| > 0
    ensures r.result.Err? ==> r.result.error == NotImplemented
  {
    if |s.triggers| > 0 then
      var first := PauseGroups(s, GroupMatcher(Equality, s.triggers[0].key.group));
      Step(first.store, Err(first.result.error))
    else Step(s, Ok(()))
  }

  /** ResumeTriggers: GetTriggerKeys selects triggers whose group equals the
      matcher's value (the operator is not consulted), and the loop throws
      on the first one; with none, no group is resumed. */
  function ResumeTriggers(s: Store, matcher: GroupMatcher): (r: Step<seq<string>>)
    ensures r.store == s
    ensures r.result.Err? <==> exists t :: t in s.triggers && t.key.group == matcher.value
    ensures r.result.Err? ==> r.result.error == NotImplemented
    ensures r.result.Ok? ==> r.result.value == []
  {
    var keys := Documents.Filter(s.triggers, (t: Trigger) => t.key.group == matcher.value);
    if |keys| > 0 then
      assert keys[0] in keys;
      Step(s, Err(NotImplemented))
    else Step(s, Ok([]))
  }

  /** ResumeAll: clears every paused job group, then calls ResumeTriggers
      on each trigger group, so it throws as soon as there is a trigger. */
  function ResumeAll(s: Store): (r: Step<()>)
    ensures r.store == s.(pausedJobGroups := {})
    ensures r.result.Err? <==> |s.triggers| > 0
    ensures r.result.Err? ==> r.result.error == NotImplemented
  {
    var s1 := s.(pausedJobGroups := {});
    if |s1.triggers| > 0 then
      var first := ResumeTriggers(s1, GroupMatcher(Equality, s1.triggers[0].key.group));
      Step(first.store, Err(first.result.error))
    else Step(s1, Ok(()))
  }

  /** The state a resumed trigger returns to: Blocked while its job is
      blocked, otherwise Waiting. */
  function ResumedState(s: Store, t: Trigger): (st: StateName)
    ensures st == Blocked <==> t.jobKey in s.blockedJobs
    ensures st in {Blocked, Waiting}
  {
    if t.jobKey in s.blockedJobs then Blocked else Waiting
  }

  /** ResumeTrigger as written: the state document is read, the trigger's
      misfire is applied (which may mark the record Complete), and then the
      document read earlier is saved with the resumed state, over whatever
      the misfire wrote. A missing trigger is ignored; a missing state
      document is dereferenced. */
  function ResumeTrigger(s: Store, schedule: Schedule, now: int, k: TriggerKey): (r: Step<()>)
    ensures FindTrigger(s, k).None? ==> r == Step(s, Ok(()))
    ensures r.result.Err? <==> FindTrigger(s, k).Some? && StateOf(s, k).None?
    ensures r.result.Err? ==> r.result.error == NullReference
  {
    ResumeWith(s, schedule, now, k, false)
  }

  /** ResumeTrigger with a trigger that its misfire completed left Complete. */
  function ResumeTriggerIntended(s: Store, schedule: Schedule, now: int, k: TriggerKey): (r: Step<()>)
    ensures FindTrigger(s, k).None? ==> r == Step(s, Ok(()))
    ensures r.result.Err? <==> FindTrigger(s, k).Some? && StateOf(s, k).None?
  {
    ResumeWith(s, schedule, now, k, true)
  }

  /** The body both versions share; `keepComplete` says whether a trigger
      the misfire left with no next fire time stays Complete. */
  function ResumeWith(s: Store, schedule: Schedule, now: int, k: TriggerKey, keepComplete: bool): (r: Step<()>)
    ensures r.store == s.(triggers := r.store.triggers, states := r.store.states)
  {
    match FindTrigger(s, k)
    case None => Step(s, Ok(()))
    case Some(t) =>
      match StateOf(s, k)
      case None => Step(s, Err(NullReference))
      case Some(rec) =>
        if rec.state != Paused && rec.state != PausedAndBlocked then Step(s, Ok(()))
        else
          var m := Misfire.ApplyMisfire(s, schedule, now, t);
          if keepComplete && m.misfired && m.trigger.next.None? then Step(m.store, Ok(()))
          else Step(SaveState(m.store, rec.(state := ResumedState(s, t))), Ok(()))
  }

  /** Resuming in a valid store succeeds, keeps the invariant, the jobs,
      the blocked markers, the set of stored triggers, and every other
      key's trigger and record. */
  lemma ResumeFrame(s: Store, schedule: Schedule, now: int, k: TriggerKey, keepComplete: bool)
    requires Valid(s)
    ensures var r := ResumeWith(s, schedule, now, k, keepComplete);
      && r.result.Ok?
      && Valid(r.store)
      && r.store.jobs == s.jobs && r.store.blockedJobs == s.blockedJobs
      && (forall k' :: FindTrigger(r.store, k').Some? <==> FindTrigger(s, k').Some?)
      && (forall k' :: k' != k ==> FindTrigger(r.store, k') == FindTrigger(s, k') && StateOf(r.store, k') == StateOf(s, k'))
  {
    if FindTrigger(s, k).Some? {
      var t := FindTrigger(s, k).value;
      assert t in s.triggers;
      var rec := StateOf(s, k).value;
      if rec.state == Paused || rec.state == PausedAndBlocked {
        Misfire.ApplyMisfireEffect(s, schedule, now, t);
        var m := Misfire.ApplyMisfire(s, schedule, now, t);
        if !(keepComplete && m.misfired && m.trigger.next.None?) {
          SaveStateKeepsValid(m.store, rec.(state := ResumedState(s, t)));
        }
      }
    }
  }

  /** What resuming does to the resumed key's record: a paused trigger
      leaves the paused states (as Waiting or Blocked in the written
      version, and Complete instead when the intended version's misfire
      finished it); a trigger that was not paused keeps its record. */
  lemma ResumeEffect(s: Store, schedule: Schedule, now: int, k: TriggerKey, keepComplete: bool)
    requires Valid(s)
    ensures var r := ResumeWith(s, schedule, now, k, keepComplete);
      && (StateOf(s, k).Some? && StateOf(s, k).value.state !in {Paused, PausedAndBlocked} ==> StateOf(r.store, k) == StateOf(s, k))
      && (StateOf(r.store, k).Some? ==> StateOf(r.store, k).value.state !in {Paused, PausedAndBlocked})
      && (!keepComplete && StateOf(s, k).Some? && StateOf(s, k).value.state in {Paused, PausedAndBlocked} ==>
            StateOf(r.store, k) == Some(StateOf(s, k).value.(state := ResumedState(s, FindTrigger(s, k).value))))
  {
    if FindTrigger(s, k).Some? {
      var t := FindTrigger(s, k).value;
      assert t in s.triggers;
      var rec := StateOf(s, k).value;
      if rec.state == Paused || rec.state == PausedAndBlocked {
        Misfire.ApplyMisfireEffect(s, schedule, now, t);
      }
    }
  }

  /** The written ResumeTrigger loses a completion: a paused trigger whose
      misfire leaves it with no next fire time is saved as Waiting or
      Blocked, a state from which it would be acquired again. */
  lemma ResumeTriggerForgetsCompletion(s: Store, schedule: Schedule, now: int, k: TriggerKey)
    requires Valid(s) && FindTrigger(s, k).Some? && StateOf(s, k).Some?
    requires StateOf(s, k).value.state in {Paused, PausedAndBlocked}
    requires Misfire.HasMisfired(s, now, FindTrigger(s, k).value)
    requires schedule.afterMisfire(FindTrigger(s, k).value, Misfire.CalendarFor(s, FindTrigger(s, k).value)).next.None?
    ensures var r := ResumeTrigger(s, schedule, now, k);
      && FindTrigger(r.store, k).value.next.None?
      && StateOf(r.store, k).value.state in {Waiting, Blocked}
  {
    var t := FindTrigger(s, k).value;
    assert t in s.triggers;
    Misfire.ApplyMisfireEffect(s, schedule, now, t);
    ResumeFrame(s, schedule, now, k, false);
    ResumeEffect(s, schedule, now, k, false);
  }

  /** The intended ResumeTrigger: a paused trigger whose misfire finishes it
      is Complete afterwards, and any other paused trigger is Waiting or
      Blocked. */
  lemma ResumeTriggerIntendedKeepsCompletion(s: Store, schedule: Schedule, now: int, k: TriggerKey)
    requires Valid(s) && FindTrigger(s, k).Some? && StateOf(s, k).Some?
    requires StateOf(s, k).value.state in {Paused, PausedAndBlocked}
    ensures var r := ResumeTriggerIntended(s, schedule, now, k);
      var finished := Misfire.HasMisfired(s, now, FindTrigger(s, k).value) && FindTrigger(r.store, k).value.next.None?;
      && (finished ==> StateOf(r.store, k).value.state == Complete)
      && (!finished ==> StateOf(r.store, k).value.state in {Waiting, Blocked})
  {
    var t := FindTrigger(s, k).value;
    assert t in s.triggers;
    Misfire.ApplyMisfireEffect(s, schedule, now, t);
    ResumeFrame(s, schedule, now, k, true);
    ResumeEffect(s, schedule, now, k, true);
  }

  /** ResumeTrigger for each key in turn; the first error stops it. */
  function ResumeKeys(s: Store, schedule: Schedule, now: int, keys: seq<TriggerKey>): (r: Step<()>)
    decreases |keys|
  {
    if |keys| == 0 then Step(s, Ok(()))
    else
      var first := ResumeTrigger(s, schedule, now, keys[0]);
      if first.result.Err? then first else ResumeKeys(first.store, schedule, now, keys[1..])
  }

  /** Resuming a list of keys in a valid store succeeds, keeps the
      invariant, leaves none of the keys paused and every other key's
      trigger and record as it was. */
  lemma {:induction false} ResumeKeysResumes(s: Store, schedule: Schedule, now: int, keys: seq<TriggerKey>)
    requires Valid(s)
    ensures var r := ResumeKeys(s, schedule, now, keys);
      && r.result.Ok?
      && Valid(r.store)
      && r.store.jobs == s.jobs
      && (forall k :: FindTrigger(r.store, k).Some? <==> FindTrigger(s, k).Some?)
      && (forall k :: k !in keys ==> FindTrigger(r.store, k) == FindTrigger(s, k) && StateOf(r.store, k) == StateOf(s, k))
      && (forall k :: k in keys && StateOf(r.store, k).Some? ==> StateOf(r.store, k).value.state !in {Paused, PausedAndBlocked})
    decreases |keys|
  {
    if |keys| > 0 {
      ResumeFrame(s, schedule, now, keys[0], false);
      ResumeEffect(s, schedule, now, keys[0], false);
      var first := ResumeTrigger(s, schedule, now, keys[0]);
      ResumeKeysResumes(first.store, schedule, now, keys[1..]);
      var r := ResumeKeys(s, schedule, now, keys);
      assert r == ResumeKeys(first.store, schedule, now, keys[1..]);
      forall k | k !in keys
        ensures FindTrigger(r.store, k) == FindTrigger(s, k) && StateOf(r.store, k) == StateOf(s, k)
      {
        assert k != keys[0] && k !in keys[1..];
      }
      forall k | k in keys && StateOf(r.store, k).Some?
        ensures StateOf(r.store, k).value.state !in {Paused, PausedAndBlocked}
      {
        if k !in keys[1..] {
          assert k == keys[0];
        }
      }
    }
  }

  /** ResumeJob: ResumeTrigger on every trigger of the job. */
  function ResumeJob(s: Store, schedule: Schedule, now: int, jk: JobKey): (r: Step<()>)
  {
    ResumeKeys(s, schedule, now, KeysOf(TriggersForJob(s.triggers, jk)))
  }

  /** After ResumeJob no trigger of the job is paused and every other
      trigger and record is unchanged. */
  lemma ResumeJobResumes(s: Store, schedule: Schedule, now: int, jk: JobKey)
    requires Valid(s)
    ensures var r := ResumeJob(s, schedule, now, jk);
      && r.result.Ok?
      && Valid(r.store)
      && (forall t :: t in s.triggers && t.jobKey == jk ==>
            StateOf(r.store, t.key).Some? && StateOf(r.store, t.key).value.state !in {Paused, PausedAndBlocked})
      && (forall t :: t in s.triggers && t.jobKey != jk ==>
            FindTrigger(r.store, t.key) == FindTrigger(s, t.key) && StateOf(r.store, t.key) == StateOf(s, t.key))
  {
    var ts := TriggersForJob(s.triggers, jk);
    var keys := KeysOf(ts);
    ResumeKeysResumes(s, schedule, now, keys);
    var r := ResumeJob(s, schedule, now, jk);
    forall t | t in s.triggers && t.jobKey == jk
      ensures StateOf(r.store, t.key).Some? && StateOf(r.store, t.key).value.state !in {Paused, PausedAndBlocked}
    {
      var i :| 0 <= i < |ts| && ts[i] == t;
      assert keys[i] == t.key;
      var m :| 0 <= m < |s.triggers| && s.triggers[m] == t;
      Documents.FindAt(s.triggers, TriggerKeyOf, m);
    }
    forall t | t in s.triggers && t.jobKey != jk
      ensures FindTrigger(r.store, t.key) == FindTrigger(s, t.key) && StateOf(r.store, t.key) == StateOf(s, t.key)
    {
      var m :| 0 <= m < |s.triggers| && s.triggers[m] == t;
      Documents.FindAt(s.triggers, TriggerKeyOf, m);
      JobTriggerKeys(s, jk, t.key);
    }
  }

  /** The paused job groups the matcher's operator selects. */
  function ResumedGroups(s: Store, matcher: GroupMatcher): set<string> {
    set g | g in s.pausedJobGroups && Evaluate(matcher.op, g, matcher.value)
  }

  /** The triggers ResumeJobs resumes: those of the jobs GetJobKeys finds,
      whose group equals the matcher's value (the operator is not
      consulted there). */
  function JobGroupTriggerKeys(s: Store, group: string): seq<TriggerKey> {
    KeysOf(Documents.Filter(s.triggers, (t: Trigger) => t.jobKey in s.jobs && t.jobKey.group == group))
  }

  /** ResumeJobs as written. It reads PausedJobGroups with
      `FindAllAs<string>()`, but every stored item is a document, which the
      driver cannot read as a string: any paused job group makes the call
      throw before anything is written. With none stored no group is
      selected, so the removal from the paused TRIGGER groups that follows
      removes nothing; then every trigger of the value's jobs is resumed. */
  function ResumeJobs(s: Store, schedule: Schedule, now: int, matcher: GroupMatcher): (r: Step<set<string>>)
    ensures s.pausedJobGroups != {} ==> r == Step(s, Err(Deserialization))
    ensures r.result.Ok? ==> r.result.value == {}
  {
    if s.pausedJobGroups != {} then
      Step(s, Err(Deserialization))
    else
      var groups := ResumedGroups(s, matcher);
      var s1 := s.(pausedTriggerGroups := s.pausedTriggerGroups - groups);
      var resumed := ResumeKeys(s1, schedule, now, JobGroupTriggerKeys(s1, matcher.value));
      if resumed.result.Err? then Step(resumed.store, Err(resumed.result.error))
      else Step(resumed.store, Ok(groups))
  }

  /** ResumeJobs reading each paused job group's `_id` and clearing the
      groups it reports from the paused job groups. */
  function ResumeJobsIntended(s: Store, schedule: Schedule, now: int, matcher: GroupMatcher): (r: Step<set<string>>)
    ensures r.result.Ok? ==> r.result.value == ResumedGroups(s, matcher)
  {
    var groups := ResumedGroups(s, matcher);
    var s1 := s.(pausedJobGroups := s.pausedJobGroups - groups);
    var resumed := ResumeKeys(s1, schedule, now, JobGroupTriggerKeys(s1, matcher.value));
    if resumed.result.Err? then Step(resumed.store, Err(resumed.result.error))
    else Step(resumed.store, Ok(groups))
  }

  /** As written, a paused job group can never be resumed: ResumeJobs on it
      throws, writes nothing, and the group stays paused, so a trigger
      stored into it afterwards still starts Paused. */
  lemma ResumeJobsLeavesGroupPaused(s: Store, schedule: Schedule, now: int, g: string)
    requires Valid(s) && g in s.pausedJobGroups
    ensures var r := ResumeJobs(s, schedule, now, GroupMatcher(Equality, g));
      && r.result == Err(Deserialization)
      && r.store == s
      && g in r.store.pausedJobGroups
  {
  }

  /** As written, with no paused job group stored, ResumeJobs on a valid
      store succeeds, reports no group, and leaves no trigger of the
      value's jobs paused. */
  lemma ResumeJobsWithNoPausedGroup(s: Store, schedule: Schedule, now: int, matcher: GroupMatcher)
    requires Valid(s) && s.pausedJobGroups == {}
    ensures var r := ResumeJobs(s, schedule, now, matcher);
      && r.result == Ok({})
      && Valid(r.store)
      && (forall t :: t in s.triggers && t.jobKey.group == matcher.value && StateOf(r.store, t.key).Some? ==>
            StateOf(r.store, t.key).value.state !in {Paused, PausedAndBlocked})
  {
    var groups := ResumedGroups(s, matcher);
    assert groups == {};
    var s1 := s.(pausedTriggerGroups := s.pausedTriggerGroups - groups);
    assert forall k :: FindTrigger(s1, k) == FindTrigger(s, k) && StateOf(s1, k) == StateOf(s, k);
    var keys := JobGroupTriggerKeys(s1, matcher.value);
    ResumeKeysResumes(s1, schedule, now, keys);
    var ts := Documents.Filter(s1.triggers, (t: Trigger) => t.jobKey in s1.jobs && t.jobKey.group == matcher.value);
    forall t | t in s.triggers && t.jobKey.group == matcher.value ensures t.key in keys {
      assert t in ts;
      var i :| 0 <= i < |ts| && ts[i] == t;
      assert keys[i] == t.key;
    }
  }

  /** The intended ResumeJobs: in a valid store it succeeds, reports the
      selected paused job groups, clears exactly those from the paused job
      groups, and leaves no trigger of the value's jobs paused. */
  lemma ResumeJobsIntendedResumes(s: Store, schedule: Schedule, now: int, matcher: GroupMatcher)
    requires Valid(s)
    ensures var r := ResumeJobsIntended(s, schedule, now, matcher);
      && r.result == Ok(ResumedGroups(s, matcher))
      && Valid(r.store)
      && r.store.pausedJobGroups == s.pausedJobGroups - ResumedGroups(s, matcher)
      && (forall g :: g in s.pausedJobGroups && Evaluate(matcher.op, g, matcher.value) ==> g !in r.store.pausedJobGroups)
      && (forall t :: t in s.triggers && t.jobKey.group == matcher.value && StateOf(r.store, t.key).Some? ==>
            StateOf(r.store, t.key).value.state !in {Paused, PausedAndBlocked})
  {
    var groups := ResumedGroups(s, matcher);
    var s1 := s.(pausedJobGroups := s.pausedJobGroups - groups);
    assert forall k :: FindTrigger(s1, k) == FindTrigger(s, k) && StateOf(s1, k) == StateOf(s, k);
    var keys := JobGroupTriggerKeys(s1, matcher.value);
    ResumeKeysResumes(s1, schedule, now, keys);
    ResumeKeysKeepMarkers(s1, schedule, now, keys);
    var ts := Documents.Filter(s1.triggers, (t: Trigger) => t.jobKey in s1.jobs && t.jobKey.group == matcher.value);
    forall t | t in s.triggers && t.jobKey.group == matcher.value ensures t.key in keys {
      assert t in ts;
      var i :| 0 <= i < |ts| && ts[i] == t;
      assert keys[i] == t.key;
    }
  }

  /** Resuming triggers never touches the marker collections. */
  lemma {:induction false} ResumeKeysKeepMarkers(s: Store, schedule: Schedule, now: int, keys: seq<TriggerKey>)
    ensures var r := ResumeKeys(s, schedule, now, keys).store;
      && r.pausedJobGroups == s.pausedJobGroups
      && r.pausedTriggerGroups == s.pausedTriggerGroups
      && r.blockedJobs == s.blockedJobs
    decreases |keys|
  {
    if |keys| > 0 {
      ResumeKeysKeepMarkers(ResumeTrigger(s, schedule, now, keys[0]).store, schedule, now, keys[1..]);
    }
  }
}

=== FILE: quartz.dfy ===
/** The Quartz.NET types the job stores consume: keys, job details, operable
    triggers (with their schedule arithmetic left uninterpreted), the
    completion instructions and group matchers. */
module Quartz {
  import opened Wrappers
  import Bson

  /** Quartz keys are (name, group) pairs; the constructors take the name first. */
  datatype JobKey = JobKey(name: string, group: string)
  datatype TriggerKey = TriggerKey(name: string, group: string)

  /** A job detail: its key, the three flags the store consults, and the
      opaque job data map (entries in insertion order). */
  datatype Job = Job(
    key: JobKey,
    durable: bool,
    concurrentDisallowed: bool,
    persistData: bool,
    data: seq<(string, Bson.Value)>)

  /** An operable trigger. Fire times are integer ticks; `ignoreMisfire`
      is true when the misfire instruction is IgnoreMisfirePolicy. */
  datatype Trigger = Trigger(
    key: TriggerKey,
    jobKey: JobKey,
    calendar: Option<string>,
    ignoreMisfire: bool,
    next: Option<int>,
    prev: Option<int>,
    fireInstanceId: Option<string>)

  datatype FireTimes = FireTimes(next: Option<int>, prev: Option<int>)

  /** The trigger's own schedule arithmetic (cron, interval, daily window ...),
      which is not part of this model: `UpdateAfterMisfire(cal)` and
      `Triggered(cal)` as functions from the trigger and the resolved
      calendar name (None for a null calendar) to its new fire times. */
  datatype Schedule = Schedule(
    afterMisfire: (Trigger, Option<string>) -> FireTimes,
    triggered: (Trigger, Option<string>) -> FireTimes)

  function WithFireTimes(t: Trigger, ft: FireTimes): (r: Trigger)
    ensures r.key == t.key && r.jobKey == t.jobKey && r.calendar == t.calendar
    ensures r.ignoreMisfire == t.ignoreMisfire && r.fireInstanceId == t.fireInstanceId
    ensures r.next == ft.next && r.prev == ft.prev
  {
    t.(next := ft.next, prev := ft.prev)
  }

  /** Quartz's SchedulerInstruction enumeration. */
  datatype Instruction =
    | NoInstruction
    | ReExecuteJob
    | SetTriggerComplete
    | DeleteTrigger
    | SetAllJobTriggersComplete
    | SetTriggerError
    | SetAllJobTriggersError

  /** Quartz's StringOperator over group names. */
  datatype StringOperator = Equality | StartsWith | EndsWith | Contains | Anything

  datatype GroupMatcher = GroupMatcher(op: StringOperator, value: string)

  predicate IsPrefix(p: string, s: string) { |p| <= |s| && s[..|p|] == p }
  predicate IsSuffix(p: string, s: string) { |p| <= |s| && s[|s| - |p|..] == p }
  predicate IsInfix(p: string, s: string)
    decreases |s|
  {
    IsPrefix(p, s) || (|s| > 0 && IsInfix(p, s[1..]))
  }

  /** `StringOperator.Evaluate(value, compareTo)`. */
  predicate Evaluate(op: StringOperator, value: string, compareTo: string) {
    match op
    case Equality => value == compareTo
    case StartsWith => IsPrefix(compareTo, value)
    case EndsWith => IsSuffix(compareTo, value)
    case Contains => IsInfix(compareTo, value)
    case Anything => true
  }
}

/** Quartz's TriggerState enumeration, as reported to the scheduler. It lives
    apart from `Quartz` because its constructor names are also state strings
    the stores write; users qualify it as `Reported.Paused`. `NotFound` is the
    enumeration's `None` (no such trigger). */
module Reported {
  datatype TriggerState = Normal | Paused | Complete | Error | Blocked | NotFound
}

=== FILE: storage.dfy ===
/** Storing and removing jobs and triggers in the clustered store, and the
    state it reports for a trigger. */
module Storage {
  import opened Wrappers
  import opened Exceptions
  import opened Quartz
  import opened Store
  import Documents
  import Reported
  import Bson
  import JobDataMapSerializer

  /** StoreJob with the intended JobDataMap encoding: an existing key
      without replace is rejected before any write; otherwise the job is
      inserted or replaced. */
  function StoreJobIntended(s: Store, job: Job, replaceExisting: bool): (r: Step<()>)
    ensures r.result.Err? <==> job.key in s.jobs && !replaceExisting
    ensures r.result.Err? ==> r.result.error == ObjectAlreadyExists && r.store == s
    ensures r.result.Ok? ==> r.store == s.(jobs := r.store.jobs)
    ensures r.result.Ok? ==> job.key in r.store.jobs && r.store.jobs[job.key] == job
    ensures r.result.Ok? ==> forall jk :: jk != job.key ==> (jk in r.store.jobs <==> jk in s.jobs)
    ensures r.result.Ok? ==> forall jk :: jk != job.key && jk in s.jobs ==> r.store.jobs[jk] == s.jobs[jk]
  {
    if job.key in s.jobs && !replaceExisting then Step(s, Err(ObjectAlreadyExists))
    else Step(s.(jobs := s.jobs[job.key := job]), Ok(()))
  }

  /** StoreJob as written: after the existence check the job document is
      built by JobDetailImplSerializer, whose JobDataMap element goes
      through the registered JobDataMapSerializer; that throws on any
      entry, so only a job with an empty data map is written. */
  function StoreJob(s: Store, job: Job, replaceExisting: bool): (r: Step<()>)
    ensures r.result.Err? <==> (job.key in s.jobs && !replaceExisting) || |job.data| > 0
    ensures r.result.Err? ==> r.store == s
    ensures job.key in s.jobs && !replaceExisting ==> r.result == Err(ObjectAlreadyExists)
    ensures r.result.Ok? ==> r == StoreJobIntended(s, job, replaceExisting)
  {
    if job.key in s.jobs && !replaceExisting then Step(s, Err(ObjectAlreadyExists))
    else
      var document := JobDataMapSerializer.SerializeAsWritten(job.data);
      if document.Err? then Step(s, Err(document.error))
      else StoreJobIntended(s, job, replaceExisting)
  }

  /** As written, storing a job that carries data throws with the
      serializer's error and writes nothing, with or without replace; the
      intended encoding stores it. */
  lemma StoreJobWithDataFails(s: Store, job: Job, replaceExisting: bool)
    requires |job.data| > 0 && (job.key !in s.jobs || replaceExisting)
    ensures StoreJob(s, job, replaceExisting) ==
      Step(s, Err(if job.data[0].1 == Bson.Null then NullReference else InvalidCast))
    ensures StoreJobIntended(s, job, replaceExisting).result.Ok?
  {
    JobDataMapSerializer.AsWrittenRejectsEntries(job.data);
  }

  lemma StoreJobIntendedKeepsValid(s: Store, job: Job, replaceExisting: bool)
    requires Valid(s)
    ensures Valid(StoreJobIntended(s, job, replaceExisting).store)
  {
    var r := StoreJobIntended(s, job, replaceExisting).store;
    assert r.triggers == s.triggers && r.states == s.states;
    assert forall k :: FindTrigger(r, k) == FindTrigger(s, k) && StateOf(r, k) == StateOf(s, k);
  }

  lemma StoreJobKeepsValid(s: Store, job: Job, replaceExisting: bool)
    requires Valid(s)
    ensures Valid(StoreJob(s, job, replaceExisting).store)
  {
    StoreJobIntendedKeepsValid(s, job, replaceExisting);
  }

  /** Some job of the group remains. */
  predicate GroupHasJobs(jobs: map<JobKey, Job>, group: string) {
    exists jk :: jk in jobs && jk.group == group
  }

  /** The part of RemoveJob after its trigger cascade: if the job exists,
      delete it and its blocked marker, and drop the group's paused marker
      when no job of the group is left. Returns whether the job existed. */
  function DeleteJob(s: Store, jk: JobKey): (r: Step<bool>)
    ensures r.result == Ok(jk in s.jobs)
    ensures r.store.jobs == s.jobs - {jk}
    ensures jk in s.jobs ==> r.store.blockedJobs == s.blockedJobs - {jk}
    ensures jk !in s.jobs ==> r.store == s
    ensures jk.group !in r.store.pausedJobGroups <==>
      jk.group !in s.pausedJobGroups || (jk in s.jobs && !GroupHasJobs(s.jobs - {jk}, jk.group))
    ensures forall g :: g != jk.group ==> (g in r.store.pausedJobGroups <==> g in s.pausedJobGroups)
    ensures r.store == s.(jobs := r.store.jobs, blockedJobs := r.store.blockedJobs, pausedJobGroups := r.store.pausedJobGroups)
  {
    if jk !in s.jobs then Step(s, Ok(false))
    else
      var jobs := s.jobs - {jk};
      var s1 := s.(jobs := jobs, blockedJobs := s.blockedJobs - {jk});
      if !GroupHasJobs(jobs, jk.group) then Step(s1.(pausedJobGroups := s.pausedJobGroups - {jk.group}), Ok(true))
      else Step(s1, Ok(true))
  }

  lemma DeleteJobKeepsValid(s: Store, jk: JobKey)
    requires Valid(s)
    requires forall t :: t in s.triggers ==> t.jobKey != jk
    ensures Valid(DeleteJob(s, jk).store)
  {
    var r := DeleteJob(s, jk).store;
    assert r.triggers == s.triggers && r.states == s.states;
    assert forall k :: FindTrigger(r, k) == FindTrigger(s, k) && StateOf(r, k) == StateOf(s, k);
  }

  /** Apart from the trigger with key `k`, no trigger belongs to job `jk`. */
  ghost predicate OnlyTriggerOfJob(s: Store, k: TriggerKey, jk: JobKey) {
    forall u :: u in s.triggers && u.jobKey == jk ==> u.key == k
  }

  /** RemoveTrigger(key, removeOrphanedJob): deletes the trigger and its state
      document and reports whether it existed; with orphan removal, the job is
      then deleted when it is not durable and has no trigger left. A missing
      job is dereferenced (NullReferenceException). */
  function RemoveTrigger(s: Store, k: TriggerKey, removeOrphanedJob: bool): (r: Step<bool>)
    ensures r.result.Ok? ==> r.result.value == FindTrigger(s, k).Some?
    ensures FindTrigger(s, k).None? ==> r == Step(s, Ok(false))
    ensures FindTrigger(s, k).Some? ==> r.store.triggers == DeleteTriggerDocuments(s, k).triggers
    ensures FindTrigger(s, k).Some? ==> r.store.states == DeleteTriggerDocuments(s, k).states
    ensures !removeOrphanedJob ==> r.result.Ok? && r.store == s.(triggers := r.store.triggers, states := r.store.states)
  {
    match FindTrigger(s, k)
    case None => Step(s, Ok(false))
    case Some(t) =>
      var s1 := DeleteTriggerDocuments(s, k);
      if !removeOrphanedJob then Step(s1, Ok(true))
      else if t.jobKey !in s1.jobs then Step(s1, Err(NullReference))
      else
        var job := s1.jobs[t.jobKey];
        if |TriggersForJob(s1.triggers, job.key)| == 0 && !job.durable then
          Step(DeleteJob(s1, job.key).store, Ok(true))
        else Step(s1, Ok(true))
  }

  /** In a valid store RemoveTrigger succeeds and keeps the store valid; the
      orphan-removing overload deletes the job exactly when it is not durable
      and this was its only trigger, and the other overload never deletes a job. */
  lemma RemoveTriggerKeepsValid(s: Store, k: TriggerKey, removeOrphanedJob: bool)
    requires Valid(s)
    ensures RemoveTrigger(s, k, removeOrphanedJob).result.Ok?
    ensures Valid(RemoveTrigger(s, k, removeOrphanedJob).store)
    ensures FindTrigger(s, k).Some? ==>
      var jk := FindTrigger(s, k).value.jobKey;
      RemoveTrigger(s, k, removeOrphanedJob).store.jobs ==
        if removeOrphanedJob && !s.jobs[jk].durable && OnlyTriggerOfJob(s, k, jk) then s.jobs - {jk} else s.jobs
    ensures FindTrigger(s, k).None? ==> RemoveTrigger(s, k, removeOrphanedJob).store == s
  {
    if FindTrigger(s, k).Some? {
      var t := FindTrigger(s, k).value;
      var s1 := DeleteTriggerDocuments(s, k);
      DeleteKeepsValid(s, k);
      assert t in s.triggers;
      if removeOrphanedJob {
        var job := s1.jobs[t.jobKey];
        assert job.key == t.jobKey;
        var ts := TriggersForJob(s1.triggers, job.key);
        if |ts| == 0 {
          assert forall u :: u in s1.triggers ==> u.jobKey != job.key;
          assert OnlyTriggerOfJob(s, k, t.jobKey);
          if !job.durable {
            DeleteJobKeepsValid(s1, job.key);
          }
        } else {
          assert ts[0] in ts;
          assert !OnlyTriggerOfJob(s, k, t.jobKey);
        }
      }
    }
  }

  /** RemoveTriggers: removes each key in turn with orphan removal and reports
      whether every one was found. */
  function RemoveTriggers(s: Store, keys: seq<TriggerKey>): (r: Step<bool>)
    decreases |keys|
  {
    if |keys| == 0 then Step(s, Ok(true))
    else
      var first := RemoveTrigger(s, keys[0], true);
      if first.result.Err? then Step(first.store, Err(first.result.error))
      else
        var rest := RemoveTriggers(first.store, keys[1..]);
        if rest.result.Err? then rest
        else Step(rest.store, Ok(first.result.value && rest.result.value))
  }

  /** In a valid store RemoveTriggers succeeds and keeps the store valid. */
  lemma {:induction false} RemoveTriggersKeepsValid(s: Store, keys: seq<TriggerKey>)
    requires Valid(s)
    ensures RemoveTriggers(s, keys).result.Ok? && Valid(RemoveTriggers(s, keys).store)
    decreases |keys|
  {
    if |keys| > 0 {
      RemoveTriggerKeepsValid(s, keys[0], true);
      RemoveTriggersKeepsValid(RemoveTrigger(s, keys[0], true).store, keys[1..]);
    }
  }

  /** After a successful RemoveTriggers none of the keys is stored. */
  lemma {:induction false} RemoveTriggersRemovesAll(s: Store, keys: seq<TriggerKey>)
    requires RemoveTriggers(s, keys).result.Ok?
    ensures forall i :: 0 <= i < |keys| ==> FindTrigger(RemoveTriggers(s, keys).store, keys[i]).None?
    decreases |keys|
  {
    if |keys| > 0 {
      var first := RemoveTrigger(s, keys[0], true);
      RemoveTriggersRemovesAll(first.store, keys[1..]);
      RemoveTriggersKeepsAbsent(first.store, keys[1..], keys[0]);
      assert forall i :: 1 <= i < |keys| ==> keys[1..][i - 1] == keys[i];
    }
  }

  /** With distinct keys, a successful RemoveTriggers reports true exactly
      when every key was stored. */
  lemma {:induction false} RemoveTriggersReportsAllFound(s: Store, keys: seq<TriggerKey>)
    requires Distinct(keys)
    requires RemoveTriggers(s, keys).result.Ok?
    ensures RemoveTriggers(s, keys).result.value <==> forall i :: 0 <= i < |keys| ==> FindTrigger(s, keys[i]).Some?
    decreases |keys|
  {
    if |keys| > 0 {
      var first := RemoveTrigger(s, keys[0], true);
      var rest := RemoveTriggers(first.store, keys[1..]);
      assert forall i :: 1 <= i < |keys| ==> keys[1..][i - 1] == keys[i];
      assert Distinct(keys[1..]);
      RemoveTriggersReportsAllFound(first.store, keys[1..]);
      assert RemoveTriggers(s, keys).result.value == (first.result.value && rest.result.value);
      assert first.result.value == FindTrigger(s, keys[0]).Some?;
      forall i | 1 <= i < |keys| ensures FindTrigger(first.store, keys[i]) == FindTrigger(s, keys[i]) {
        if FindTrigger(s, keys[0]).Some? {
          var d := DeleteTriggerDocuments(s, keys[0]);
          assert first.store.triggers == d.triggers;
          assert FindTrigger(d, keys[i]) == FindTrigger(s, keys[i]);
        }
      }
    }
  }

  /** RemoveTriggers never brings back a trigger. */
  lemma {:induction false} RemoveTriggersKeepsAbsent(s: Store, keys: seq<TriggerKey>, k: TriggerKey)
    requires FindTrigger(s, k).None?
    ensures FindTrigger(RemoveTriggers(s, keys).store, k).None?
    decreases |keys|
  {
    if |keys| > 0 {
      var first := RemoveTrigger(s, keys[0], true);
      RemoveTriggerKeepsAbsent(s, keys[0], k);
      RemoveTriggersKeepsAbsent(first.store, keys[1..], k);
      if first.result.Ok? {
        var rest := RemoveTriggers(first.store, keys[1..]);
        assert RemoveTriggers(s, keys).store == rest.store;
      }
    }
  }

  /** One removal never brings back a trigger. */
  lemma RemoveTriggerKeepsAbsent(s: Store, k0: TriggerKey, k: TriggerKey)
    requires FindTrigger(s, k).None?
    ensures FindTrigger(RemoveTrigger(s, k0, true).store, k).None?
  {
    if FindTrigger(s, k0).Some? {
      var d := DeleteTriggerDocuments(s, k0);
      assert RemoveTrigger(s, k0, true).store.triggers == d.triggers;
      assert FindTrigger(d, k).None?;
    }
  }

  /** The precondition of the job cascade: `keys` are distinct, name stored
      triggers of job `jk`, and cover every trigger of it. */
  ghost predicate CascadeKeys(s: Store, jk: JobKey, keys: seq<TriggerKey>)
  {
    && Distinct(keys)
    && (forall i :: 0 <= i < |keys| ==> FindTrigger(s, keys[i]).Some? && FindTrigger(s, keys[i]).value.jobKey == jk)
    && (forall t :: t in s.triggers && t.jobKey == jk ==> t.key in keys)
  }

  /** One step of the job cascade: removing the first key keeps the rest of
      the cascade's precondition. */
  lemma CascadeStepKeys(s: Store, jk: JobKey, keys: seq<TriggerKey>)
    requires Valid(s) && CascadeKeys(s, jk, keys) && |keys| > 0
    ensures CascadeKeys(RemoveTrigger(s, keys[0], true).store, jk, keys[1..])
  {
    var s1 := RemoveTrigger(s, keys[0], true).store;
    RemoveTriggerKeepsValid(s, keys[0], true);
    var d := DeleteTriggerDocuments(s, keys[0]);
    assert s1.triggers == d.triggers;
    var tail := keys[1..];
    assert forall i :: 0 <= i < |tail| ==> tail[i] == keys[i + 1];
    forall i | 0 <= i < |tail| ensures FindTrigger(s1, tail[i]) == FindTrigger(s, tail[i]) {
      assert tail[i] != keys[0];
      assert FindTrigger(d, tail[i]) == FindTrigger(s, tail[i]);
    }
    forall t | t in s1.triggers && t.jobKey == jk ensures t.key in tail {
      assert t in s.triggers && t.key != keys[0];
      var i :| 0 <= i < |keys| && keys[i] == t.key;
      assert tail[i - 1] == t.key;
    }
    assert Distinct(tail);
  }

  /** One step of the job cascade: the job goes only with its last trigger. */
  lemma CascadeStepJobs(s: Store, jk: JobKey, keys: seq<TriggerKey>)
    requires Valid(s) && CascadeKeys(s, jk, keys) && |keys| > 0
    ensures jk in s.jobs
    ensures RemoveTrigger(s, keys[0], true).store.jobs ==
      if |keys| == 1 && !s.jobs[jk].durable then s.jobs - {jk} else s.jobs
  {
    RemoveTriggerKeepsValid(s, keys[0], true);
    var t0 := FindTrigger(s, keys[0]).value;
    assert t0 in s.triggers;
    if |keys| > 1 {
      var t1 := FindTrigger(s, keys[1]).value;
      assert t1 in s.triggers && t1.jobKey == jk && t1.key != keys[0];
      assert !OnlyTriggerOfJob(s, keys[0], jk);
    } else {
      forall u | u in s.triggers && u.jobKey == jk ensures u.key == keys[0] {
        assert u.key in keys;
      }
      assert OnlyTriggerOfJob(s, keys[0], jk);
    }
  }

  /** Removing, one by one, exactly the triggers of a job deletes every one of
      them and, if there was at least one, the job itself unless it is
      durable; no other job is touched. */
  lemma {:induction false} CascadeRemovesJobTriggers(s: Store, jk: JobKey, keys: seq<TriggerKey>)
    requires Valid(s) && CascadeKeys(s, jk, keys)
    ensures RemoveTriggers(s, keys).result.Ok? && Valid(RemoveTriggers(s, keys).store)
    ensures forall t :: t in RemoveTriggers(s, keys).store.triggers ==> t.jobKey != jk
    ensures |keys| > 0 ==>
      jk in s.jobs && RemoveTriggers(s, keys).store.jobs == if !s.jobs[jk].durable then s.jobs - {jk} else s.jobs
    ensures |keys| == 0 ==> RemoveTriggers(s, keys).store == s
    decreases |keys|
  {
    if |keys| > 0 {
      var first := RemoveTrigger(s, keys[0], true);
      RemoveTriggerKeepsValid(s, keys[0], true);
      CascadeStepKeys(s, jk, keys);
      CascadeStepJobs(s, jk, keys);
      CascadeRemovesJobTriggers(first.store, jk, keys[1..]);
    }
  }

  /** RemoveJob as written: the job's triggers are removed through the
      orphan-removing overload, and only then is the job's existence checked. */
  function RemoveJob(s: Store, jk: JobKey): (r: Step<bool>)
  {
    var cascade := RemoveTriggers(s, KeysOf(TriggersForJob(s.triggers, jk)));
    if cascade.result.Err? then Step(cascade.store, Err(cascade.result.error))
    else DeleteJob(cascade.store, jk)
  }

  /** The cascade RemoveJob starts with removes the job's triggers, and the
      job itself when it is non-durable and had one. */
  lemma JobCascade(s: Store, jk: JobKey)
    requires Valid(s)
    ensures var c := RemoveTriggers(s, KeysOf(TriggersForJob(s.triggers, jk)));
      && c.result.Ok?
      && Valid(c.store)
      && (forall t :: t in c.store.triggers ==> t.jobKey != jk)
      && c.store.jobs == if |TriggersForJob(s.triggers, jk)| > 0 && !s.jobs[jk].durable then s.jobs - {jk} else s.jobs
  {
    var keys := KeysOf(TriggersForJob(s.triggers, jk));
    JobKeysCascade(s, jk);
    CascadeRemovesJobTriggers(s, jk, keys);
  }

  /** The keys of a job's triggers, in store order, are a cascade for it. */
  lemma JobKeysCascade(s: Store, jk: JobKey)
    requires Valid(s)
    ensures CascadeKeys(s, jk, KeysOf(TriggersForJob(s.triggers, jk)))
  {
    var ts := TriggersForJob(s.triggers, jk);
    var keys := KeysOf(ts);
    assert Documents.UniqueKeys(ts, TriggerKeyOf);
    forall i | 0 <= i < |keys| ensures FindTrigger(s, keys[i]).Some? && FindTrigger(s, keys[i]).value.jobKey == jk {
      assert ts[i] in ts;
      var m :| 0 <= m < |s.triggers| && s.triggers[m] == ts[i];
      Documents.FindAt(s.triggers, TriggerKeyOf, m);
    }
    forall t | t in s.triggers && t.jobKey == jk ensures t.key in keys {
      assert t in ts;
      var i :| 0 <= i < |ts| && ts[i] == t;
      assert keys[i] == t.key;
    }
    assert Distinct(keys);
  }

  /** In a valid store RemoveJob succeeds, keeps the store valid, and leaves
      neither the job nor any trigger of it; no other job is removed. */
  lemma RemoveJobRemoves(s: Store, jk: JobKey)
    requires Valid(s)
    ensures var r := RemoveJob(s, jk);
      && r.result.Ok?
      && Valid(r.store)
      && r.store.jobs == s.jobs - {jk}
      && (forall t :: t in r.store.triggers ==> t.jobKey != jk)
  {
    JobCascade(s, jk);
    var c := RemoveTriggers(s, KeysOf(TriggersForJob(s.triggers, jk)));
    DeleteJobKeepsValid(c.store, jk);
  }

  /** What RemoveJob as written returns: true only for a job that is durable or
      had no trigger. A non-durable job with triggers is deleted by its own
      cascade, so the call reports false although the job existed. */
  lemma RemoveJobReturnsAsWritten(s: Store, jk: JobKey)
    requires Valid(s)
    ensures RemoveJob(s, jk).result ==
      Ok(jk in s.jobs && (s.jobs[jk].durable || |TriggersForJob(s.triggers, jk)| == 0))
  {
    JobCascade(s, jk);
  }

  /** A one-job, one-trigger store on which RemoveJob reports false. */
  function OneJobOneTrigger(durable: bool): (s: Store)
    ensures Valid(s)
  {
    var jk := JobKey("job", "DEFAULT");
    var tk := TriggerKey("trigger", "DEFAULT");
    var s := Store(map[jk := Job(jk, durable, false, false, [])],
                   [Trigger(tk, jk, None, false, Some(0), None, None)],
                   [StateRecord(tk, Waiting, None)],
                   {}, {}, {}, {}, map[], 0, 50_000_000);
    assert Documents.UniqueKeys(s.triggers, TriggerKeyOf) && Documents.UniqueKeys(s.states, RecordKeyOf);
    assert forall k :: FindTrigger(s, k).Some? <==> k == tk;
    assert forall k :: StateOf(s, k).Some? <==> k == tk;
    s
  }

  lemma RemoveJobReportsFalseForExistingJob()
    ensures var s := OneJobOneTrigger(false);
      JobKey("job", "DEFAULT") in s.jobs && RemoveJob(s, JobKey("job", "DEFAULT")).result == Ok(false)
  {
    var s := OneJobOneTrigger(false);
    var jk := JobKey("job", "DEFAULT");
    assert s.triggers[0] in TriggersForJob(s.triggers, jk);
    RemoveJobReturnsAsWritten(s, jk);
  }

  /** RemoveJob with the existence check made before the cascade, as its
      documentation promises: true exactly when the job was stored. */
  function RemoveJobIntended(s: Store, jk: JobKey): (r: Step<bool>)
  {
    var found := jk in s.jobs;
    var removed := RemoveJob(s, jk);
    if removed.result.Err? then removed else Step(removed.store, Ok(found))
  }

  lemma RemoveJobIntendedReportsFound(s: Store, jk: JobKey)
    requires Valid(s)
    ensures var r := RemoveJobIntended(s, jk);
      && r.result == Ok(jk in s.jobs)
      && Valid(r.store)
      && r.store.jobs == s.jobs - {jk}
      && (forall t :: t in r.store.triggers ==> t.jobKey != jk)
  {
    RemoveJobRemoves(s, jk);
  }

  /** RemoveJobs: removes each job in turn and reports whether all were found. */
  function RemoveJobs(s: Store, jobKeys: seq<JobKey>): (r: Step<bool>)
    decreases |jobKeys|
  {
    if |jobKeys| == 0 then Step(s, Ok(true))
    else
      var first := RemoveJob(s, jobKeys[0]);
      if first.result.Err? then first
      else
        var rest := RemoveJobs(first.store, jobKeys[1..]);
        if rest.result.Err? then rest
        else Step(rest.store, Ok(first.result.value && rest.result.value))
  }

  lemma {:induction false} RemoveJobsRemoves(s: Store, jobKeys: seq<JobKey>)
    requires Valid(s)
    ensures RemoveJobs(s, jobKeys).result.Ok?
    ensures Valid(RemoveJobs(s, jobKeys).store)
    ensures RemoveJobs(s, jobKeys).store.jobs == s.jobs - ElementsOf(jobKeys)
    decreases |jobKeys|
  {
    if |jobKeys| > 0 {
      RemoveJobRemoves(s, jobKeys[0]);
      var first := RemoveJob(s, jobKeys[0]);
      RemoveJobsRemoves(first.store, jobKeys[1..]);
      var rest := RemoveJobs(first.store, jobKeys[1..]);
      assert RemoveJobs(s, jobKeys).store == rest.store;
      ElementsOfCons(jobKeys);
    }
  }

  /** The set of the elements of a sequence. */
  ghost function ElementsOf<T>(xs: seq<T>): set<T> {
    set i | 0 <= i < |xs| :: xs[i]
  }

  lemma ElementsOfCons<T>(xs: seq<T>)
    requires |xs| > 0
    ensures ElementsOf(xs) == {xs[0]} + ElementsOf(xs[1..])
  {
    forall x | x in ElementsOf(xs) ensures x in {xs[0]} + ElementsOf(xs[1..]) {
      var i :| 0 <= i < |xs| && xs[i] == x;
      if i > 0 { assert xs[1..][i - 1] == x; }
    }
    forall x | x in ElementsOf(xs[1..]) ensures x in ElementsOf(xs) {
      var i :| 0 <= i < |xs[1..]| && xs[1..][i] == x;
      assert xs[i + 1] == x;
    }
  }

  /** The state a newly stored trigger starts in: paused when its own group
      or its job's group is paused, blocked when its job is blocked, and
      paused-and-blocked when both hold. */
  function InitialState(s: Store, t: Trigger): (r: StateName)
    ensures r in {Paused, PausedAndBlocked} <==>
      t.key.group in s.pausedTriggerGroups || t.jobKey.group in s.pausedJobGroups
    ensures r in {Blocked, PausedAndBlocked} <==> t.jobKey in s.blockedJobs
    ensures r in {Waiting, Paused, Blocked, PausedAndBlocked}
  {
    if t.key.group in s.pausedTriggerGroups || t.jobKey.group in s.pausedJobGroups then
      if t.jobKey in s.blockedJobs then PausedAndBlocked else Paused
    else if t.jobKey in s.blockedJobs then Blocked
    else Waiting
  }

  /** StoreTrigger: an existing key without replace is rejected before any
      write; with replace the previous trigger is removed first (its job is kept).
      Only then is the job looked up, so a replace naming a missing job has
      already deleted the previous trigger when it throws. */
  function StoreTrigger(s: Store, t: Trigger, replaceExisting: bool): (r: Step<()>)
    ensures r.result == Err(ObjectAlreadyExists) <==> FindTrigger(s, t.key).Some? && !replaceExisting
    ensures r.result == Err(ObjectAlreadyExists) ==> r.store == s
    ensures r.result.Err? ==> r.result.error in {ObjectAlreadyExists, JobPersistence}
  {
    if FindTrigger(s, t.key).Some? && !replaceExisting then Step(s, Err(ObjectAlreadyExists))
    else
      var s1 := if FindTrigger(s, t.key).Some? then RemoveTrigger(s, t.key, false).store else s;
      if t.jobKey !in s1.jobs then Step(s1, Err(JobPersistence))
      else
        var s2 := SaveTrigger(s1, t);
        Step(SaveState(s2, StateRecord(t.key, InitialState(s1, t), None)), Ok(()))
  }

  /** In a valid store, storing a trigger of a stored job (new, or with
      replace) succeeds: the trigger and its initial, unowned state record are
      stored, the store stays valid, and no job and no other trigger changes. */
  lemma StoreTriggerStores(s: Store, t: Trigger, replaceExisting: bool)
    requires Valid(s) && t.jobKey in s.jobs
    requires FindTrigger(s, t.key).None? || replaceExisting
    ensures var r := StoreTrigger(s, t, replaceExisting);
      && r.result.Ok?
      && Valid(r.store)
      && FindTrigger(r.store, t.key) == Some(t)
      && StateOf(r.store, t.key) == Some(StateRecord(t.key, InitialState(s, t), None))
      && r.store.jobs == s.jobs
      && (forall k :: k != t.key ==> FindTrigger(r.store, k) == FindTrigger(s, k) && StateOf(r.store, k) == StateOf(s, k))
  {
    var s1 := if FindTrigger(s, t.key).Some? then RemoveTrigger(s, t.key, false).store else s;
    if FindTrigger(s, t.key).Some? {
      RemoveTriggerKeepsValid(s, t.key, false);
      var d := DeleteTriggerDocuments(s, t.key);
      assert forall k :: FindTrigger(s1, k) == FindTrigger(d, k) && StateOf(s1, k) == StateOf(d, k);
    }
    assert Valid(s1) && s1.jobs == s.jobs;
    assert InitialState(s1, t) == InitialState(s, t);
    SavePairKeepsValid(s1, t, StateRecord(t.key, InitialState(s1, t), None));
  }

  /** Storing a trigger whose job is missing throws JobPersistenceException;
      with replace, the previous trigger and its state are gone by then. */
  lemma StoreTriggerMissingJob(s: Store, t: Trigger, replaceExisting: bool)
    requires t.jobKey !in s.jobs
    requires FindTrigger(s, t.key).None? || replaceExisting
    ensures var r := StoreTrigger(s, t, replaceExisting);
      && r.result == Err(JobPersistence)
      && FindTrigger(r.store, t.key).None?
      && r.store.jobs == s.jobs
  {
  }

  /** GetTriggerState's mapping from the stored state to the one reported:
      both paused states read as Paused, and every state in which the trigger
      is still scheduled (waiting, locked, acquired, executing) as Normal. */
  function Report(st: StateName): (r: Reported.TriggerState)
    ensures r == Reported.Paused <==> st == Paused || st == PausedAndBlocked
    ensures r == Reported.Normal <==> st in {Waiting, Locked, Acquired, Executing}
    ensures r == Reported.Complete <==> st == Complete
    ensures r == Reported.Blocked <==> st == Blocked
    ensures r == Reported.Error <==> st == Error
    ensures r != Reported.NotFound
  {
    match st
    case Complete => Reported.Complete
    case Paused => Reported.Paused
    case PausedAndBlocked => Reported.Paused
    case Blocked => Reported.Blocked
    case Error => Reported.Error
    case _ => Reported.Normal
  }

  /** GetTriggerState as written: a missing state document is a null
      reference (the null test is made on the document's own member). */
  function GetTriggerState(s: Store, k: TriggerKey): (r: Result<Reported.TriggerState, Exception>)
    ensures r.Err? <==> StateOf(s, k).None?
    ensures r.Err? ==> r.error == NullReference
    ensures r.Ok? ==> r.value == Report(StateOf(s, k).value.state)
  {
    match StateOf(s, k)
    case None => Err(NullReference)
    case Some(rec) => Ok(Report(rec.state))
  }

  /** GetTriggerState as its documentation describes it: an unknown trigger
      reports NotFound. */
  function GetTriggerStateIntended(s: Store, k: TriggerKey): (r: Reported.TriggerState)
    ensures r == Reported.NotFound <==> StateOf(s, k).None?
    ensures StateOf(s, k).Some? ==> Ok(r) == GetTriggerState(s, k)
  {
    match StateOf(s, k)
    case None => Reported.NotFound
    case Some(rec) => Report(rec.state)
  }

  /** In a valid store a stored trigger reports NotFound exactly when it is
      not stored, and right after StoreTrigger it reports Paused, Blocked or
      Normal according to the paused groups and blocked jobs. */
  lemma StoredTriggerReports(s: Store, t: Trigger, replaceExisting: bool)
    requires Valid(s) && t.jobKey in s.jobs
    requires FindTrigger(s, t.key).None? || replaceExisting
    ensures var r := GetTriggerStateIntended(StoreTrigger(s, t, replaceExisting).store, t.key);
      && (r == Reported.Paused <==> t.key.group in s.pausedTriggerGroups || t.jobKey.group in s.pausedJobGroups)
      && (r == Reported.Blocked <==>
            t.jobKey in s.blockedJobs && t.key.group !in s.pausedTriggerGroups && t.jobKey.group !in s.pausedJobGroups)
      && (r == Reported.Normal <==>
            t.jobKey !in s.blockedJobs && t.key.group !in s.pausedTriggerGroups && t.jobKey.group !in s.pausedJobGroups)
  {
    StoreTriggerStores(s, t, replaceExisting);
  }

  /** In a valid store GetTriggerState (either version) finds a state for
      exactly the stored triggers. */
  lemma ReportedNotFoundIffAbsent(s: Store, k: TriggerKey)
    requires Valid(s)
    ensures GetTriggerStateIntended(s, k) == Reported.NotFound <==> FindTrigger(s, k).None?
    ensures GetTriggerState(s, k).Ok? <==> FindTrigger(s, k).Some?
  {
  }

  /** A store with no triggers, states, jobs or calendars reports NotFound for
      every key in the intended version and throws in the written one. */
  lemma GetTriggerStateThrowsOnUnknown(s: Store, k: TriggerKey)
    requires s.states == []
    ensures GetTriggerState(s, k) == Err(NullReference)
    ensures GetTriggerStateIntended(s, k) == Reported.NotFound
  {
  }

  /** StoreJobAndTrigger: StoreJob then StoreTrigger, neither replacing. */
  function StoreJobAndTrigger(s: Store, job: Job, t: Trigger): (r: Step<()>)
    ensures job.key in s.jobs ==> r == Step(s, Err(ObjectAlreadyExists))
    ensures |job.data| > 0 ==> r.result.Err? && r.store == s
  {
    var first := StoreJob(s, job, false);
    if first.result.Err? then first else StoreTrigger(first.store, t, false)
  }

  /** Storing a new job with a new trigger of it succeeds exactly when
      the job carries no data, and then leaves the trigger among the job's
      triggers; a job with data is rejected before anything is written. */
  lemma StoreJobAndTriggerLinks(s: Store, job: Job, t: Trigger)
    requires Valid(s) && job.key !in s.jobs && FindTrigger(s, t.key).None? && t.jobKey == job.key
    ensures var r := StoreJobAndTrigger(s, job, t);
      && (r.result.Ok? <==> |job.data| == 0)
      && Valid(r.store)
      && (r.result.Ok? ==> r.store.jobs == s.jobs[job.key := job] && t in TriggersForJob(r.store.triggers, job.key))
      && (r.result.Err? ==> r.store == s)
  {
    if |job.data| > 0 {
      return;
    }
    var s1 := StoreJob(s, job, false).store;
    StoreJobKeepsValid(s, job, false);
    assert FindTrigger(s1, t.key) == FindTrigger(s, t.key);
    StoreTriggerStores(s1, t, false);
    var r := StoreJobAndTrigger(s, job, t).store;
    Documents.FindAt(r.triggers, TriggerKeyOf, Documents.IndexOf(r.triggers, TriggerKeyOf, t.key).value);
  }

  /** A job with the triggers to store for it: one entry of the dictionary
      StoreJobsAndTriggers takes, in its enumeration order. */
  datatype Entry = Entry(job: Job, triggers: seq<Trigger>)

  /** Some job or trigger of the entries is already stored. */
  predicate Collides(s: Store, entries: seq<Entry>) {
    exists i :: 0 <= i < |entries| &&
      (entries[i].job.key in s.jobs ||
       exists j :: 0 <= j < |entries[i].triggers| && FindTrigger(s, entries[i].triggers[j].key).Some?)
  }

  /** The collision check of StoreJobsAndTriggers, in the order it runs:
      each job, then that job's triggers. */
  function CheckCollisions(s: Store, entries: seq<Entry>): (r: bool)
    ensures r <==> Collides(s, entries)
    decreases |entries|
  {
    if |entries| == 0 then false
    else
      var e := entries[0];
      var here := e.job.key in s.jobs || AnyTriggerExists(s, e.triggers);
      var rest := CheckCollisions(s, entries[1..]);
      assert rest <==> Collides(s, entries[1..]);
      assert Collides(s, entries) <==> here || Collides(s, entries[1..]) by {
        if Collides(s, entries[1..]) {
          var i :| 0 <= i < |entries[1..]| &&
            (entries[1..][i].job.key in s.jobs ||
             exists j :: 0 <= j < |entries[1..][i].triggers| && FindTrigger(s, entries[1..][i].triggers[j].key).Some?);
          assert entries[i + 1] == entries[1..][i];
        }
        if Collides(s, entries) {
          var i :| 0 <= i < |entries| &&
            (entries[i].job.key in s.jobs ||
             exists j :: 0 <= j < |entries[i].triggers| && FindTrigger(s, entries[i].triggers[j].key).Some?);
          if i > 0 { assert entries[1..][i - 1] == entries[i]; }
        }
      }
      here || rest
  }

  function AnyTriggerExists(s: Store, ts: seq<Trigger>): (r: bool)
    ensures r <==> exists j :: 0 <= j < |ts| && FindTrigger(s, ts[j].key).Some?
  {
    if |ts| == 0 then false
    else
      assert forall j :: 1 <= j < |ts| ==> ts[1..][j - 1] == ts[j];
      FindTrigger(s, ts[0].key).Some? || AnyTriggerExists(s, ts[1..])
  }

  /** StoreTrigger(t, true) for each trigger in turn; the first error stops it. */
  function StoreTriggers(s: Store, ts: seq<Trigger>): (r: Step<()>)
    decreases |ts|
  {
    if |ts| == 0 then Step(s, Ok(()))
    else
      var first := StoreTrigger(s, ts[0], true);
      if first.result.Err? then first else StoreTriggers(first.store, ts[1..])
  }

  /** The bulk add of StoreJobsAndTriggers: StoreJob(job, true), then the
      job's triggers, entry by entry. */
  function StoreEntries(s: Store, entries: seq<Entry>): (r: Step<()>)
    decreases |entries|
  {
    if |entries| == 0 then Step(s, Ok(()))
    else
      var stored := StoreJob(s, entries[0].job, true);
      if stored.result.Err? then stored
      else
        var first := StoreTriggers(stored.store, entries[0].triggers);
        if first.result.Err? then first else StoreEntries(first.store, entries[1..])
  }

  /** StoreJobsAndTriggers: without replace, any stored job or trigger among
      the entries is rejected before any write; otherwise everything is
      stored, replacing what is there. */
  function StoreJobsAndTriggers(s: Store, entries: seq<Entry>, replace: bool): (r: Step<()>)
    ensures !replace && Collides(s, entries) ==> r == Step(s, Err(ObjectAlreadyExists))
  {
    if !replace && CheckCollisions(s, entries) then Step(s, Err(ObjectAlreadyExists))
    else StoreEntries(s, entries)
  }

  /** Storing triggers of stored jobs succeeds, keeps the store valid and
      the jobs, keeps every trigger that was stored, and stores each one. */
  lemma {:induction false} StoreTriggersStores(s: Store, ts: seq<Trigger>)
    requires Valid(s)
    requires forall j :: 0 <= j < |ts| ==> ts[j].jobKey in s.jobs
    ensures var r := StoreTriggers(s, ts);
      && r.result.Ok? && Valid(r.store) && r.store.jobs == s.jobs
      && (forall k :: FindTrigger(s, k).Some? ==> FindTrigger(r.store, k).Some?)
      && (forall j :: 0 <= j < |ts| ==> FindTrigger(r.store, ts[j].key).Some?)
    decreases |ts|
  {
    if |ts| > 0 {
      StoreTriggerStores(s, ts[0], true);
      var first := StoreTrigger(s, ts[0], true);
      assert forall j :: 1 <= j < |ts| ==> ts[1..][j - 1] == ts[j];
      StoreTriggersStores(first.store, ts[1..]);
    }
  }

  /** Every job and trigger stored in `s` is still stored in `r`. */
  ghost predicate Keeps(s: Store, r: Store) {
    && (forall jk :: jk in s.jobs ==> jk in r.jobs)
    && (forall k :: FindTrigger(s, k).Some? ==> FindTrigger(r, k).Some?)
  }

  /** Every job and trigger of the entries is stored in `r`. */
  ghost predicate Holds(r: Store, entries: seq<Entry>) {
    && (forall i :: 0 <= i < |entries| ==> entries[i].job.key in r.jobs)
    && (forall i, j :: 0 <= i < |entries| && 0 <= j < |entries[i].triggers| ==>
          FindTrigger(r, entries[i].triggers[j].key).Some?)
  }

  /** Every trigger of an entry belongs to that entry's job. */
  ghost predicate OwnTriggers(entries: seq<Entry>) {
    forall i, j :: 0 <= i < |entries| && 0 <= j < |entries[i].triggers| ==>
      entries[i].triggers[j].jobKey == entries[i].job.key
  }

  lemma KeepsTransitive(a: Store, b: Store, c: Store)
    requires Keeps(a, b) && Keeps(b, c)
    ensures Keeps(a, c)
  {
  }

  /** Every job of the entries carries an empty data map. */
  ghost predicate NoData(entries: seq<Entry>) {
    forall i :: 0 <= i < |entries| ==> |entries[i].job.data| == 0
  }

  /** Storing one entry: the job's write fails, writing nothing, exactly
      when the job carries data; otherwise the job and every trigger of it
      end up stored. */
  lemma StoreEntryStores(s: Store, e: Entry)
    requires Valid(s)
    requires forall j :: 0 <= j < |e.triggers| ==> e.triggers[j].jobKey == e.job.key
    ensures var stored := StoreJob(s, e.job, true);
      && (stored.result.Ok? <==> |e.job.data| == 0)
      && (stored.result.Err? ==> stored.store == s)
      && (stored.result.Ok? ==>
            var r := StoreTriggers(stored.store, e.triggers);
            && r.result.Ok? && Valid(r.store) && Keeps(s, r.store)
            && e.job.key in r.store.jobs
            && (forall j :: 0 <= j < |e.triggers| ==> FindTrigger(r.store, e.triggers[j].key).Some?))
  {
    var stored := StoreJob(s, e.job, true).store;
    StoreJobKeepsValid(s, e.job, true);
    assert forall k :: FindTrigger(stored, k) == FindTrigger(s, k);
    if |e.job.data| == 0 {
      StoreTriggersStores(stored, e.triggers);
    }
  }

  /** Storing entries whose triggers belong to their entry's job keeps the
      store valid and every job and trigger that was stored; it succeeds
      exactly when no job of the entries carries data, and then stores
      every job and trigger of the entries. */
  lemma {:induction false} StoreEntriesStores(s: Store, entries: seq<Entry>)
    requires Valid(s) && OwnTriggers(entries)
    ensures var r := StoreEntries(s, entries);
      && (r.result.Ok? <==> NoData(entries))
      && Valid(r.store) && Keeps(s, r.store)
      && (r.result.Ok? ==> Holds(r.store, entries))
    decreases |entries|
  {
    if |entries| > 0 {
      var e := entries[0];
      StoreEntryStores(s, e);
      EntriesCons(entries);
      if |e.job.data| > 0 {
        return;
      }
      var first := StoreTriggers(StoreJob(s, e.job, true).store, e.triggers);
      var tail := entries[1..];
      StoreEntriesStores(first.store, tail);
      var r := StoreEntries(first.store, tail);
      assert StoreEntries(s, entries) == r;
      KeepsTransitive(s, first.store, r.store);
      if r.result.Ok? {
        HoldsCons(first.store, r.store, entries);
      }
    }
  }

  /** How the entry predicates split over the first entry and the rest. */
  lemma EntriesCons(entries: seq<Entry>)
    requires |entries| > 0
    ensures OwnTriggers(entries) ==> OwnTriggers(entries[1..])
    ensures NoData(entries) <==> |entries[0].job.data| == 0 && NoData(entries[1..])
  {
    var tail := entries[1..];
    assert forall i :: 1 <= i < |entries| ==> tail[i - 1] == entries[i];
    if |entries[0].job.data| == 0 && NoData(tail) {
      forall i | 0 <= i < |entries| ensures |entries[i].job.data| == 0 {
        if i > 0 { assert entries[i] == tail[i - 1]; }
      }
    }
  }

  /** The first entry stored in `first`, the rest in `r`, which keeps
      what `first` holds: `r` holds all of them. */
  lemma HoldsCons(first: Store, r: Store, entries: seq<Entry>)
    requires |entries| > 0 && Keeps(first, r) && Holds(r, entries[1..])
    requires entries[0].job.key in first.jobs
    requires forall j :: 0 <= j < |entries[0].triggers| ==> FindTrigger(first, entries[0].triggers[j].key).Some?
    ensures Holds(r, entries)
  {
    var tail := entries[1..];
    forall i, j | 0 <= i < |entries| && 0 <= j < |entries[i].triggers|
      ensures FindTrigger(r, entries[i].triggers[j].key).Some?
    {
      if i > 0 { assert entries[i] == tail[i - 1]; }
    }
    forall i | 0 <= i < |entries| ensures entries[i].job.key in r.jobs {
      if i > 0 { assert entries[i] == tail[i - 1]; }
    }
  }

  /** Storing jobs with their own triggers into a valid store succeeds
      unless, without replace, something collides, or some job carries
      data; on success everything of the entries is stored, and the store
      stays valid either way. */
  lemma StoreJobsAndTriggersStores(s: Store, entries: seq<Entry>, replace: bool)
    requires Valid(s) && OwnTriggers(entries)
    ensures var r := StoreJobsAndTriggers(s, entries, replace);
      && (r.result.Err? <==> (!replace && Collides(s, entries)) || !NoData(entries))
      && Valid(r.store) && Keeps(s, r.store)
      && (r.result.Ok? ==> Holds(r.store, entries))
  {
    if replace || !Collides(s, entries) {
      StoreEntriesStores(s, entries);
    }
  }

  /** ReplaceTrigger as written: the previous trigger goes through the
      orphan-removing RemoveTrigger, so a non-durable job whose only trigger
      is being replaced is deleted before the new trigger is stored. A
      failing store (JobPersistenceException or its ObjectAlreadyExists
      subclass) puts the previous trigger back; an error from that replaces the
      first one. */
  function ReplaceTrigger(s: Store, k: TriggerKey, newTrigger: Trigger): (r: Step<bool>)
    ensures FindTrigger(s, k).None? ==> r == Step(s, Ok(false))
    ensures FindTrigger(s, k).Some? && FindTrigger(s, k).value.jobKey != newTrigger.jobKey ==>
      r == Step(s, Err(JobPersistence))
    ensures r.result.Ok? ==> r.result.value == FindTrigger(s, k).Some?
  {
    ReplaceWith(s, k, newTrigger, true)
  }

  /** ReplaceTrigger with the previous trigger removed by the RemoveTrigger
      overload that keeps the job, as StoreTrigger does on replace. */
  function ReplaceTriggerIntended(s: Store, k: TriggerKey, newTrigger: Trigger): (r: Step<bool>)
    ensures FindTrigger(s, k).None? ==> r == Step(s, Ok(false))
    ensures FindTrigger(s, k).Some? && FindTrigger(s, k).value.jobKey != newTrigger.jobKey ==>
      r == Step(s, Err(JobPersistence))
    ensures r.result.Ok? ==> r.result.value == FindTrigger(s, k).Some?
  {
    ReplaceWith(s, k, newTrigger, false)
  }

  /** The body both versions share; `removeOrphanedJob` is the overload of
      RemoveTrigger used on the previous trigger. */
  function ReplaceWith(s: Store, k: TriggerKey, newTrigger: Trigger, removeOrphanedJob: bool): (r: Step<bool>)
    ensures FindTrigger(s, k).None? ==> r == Step(s, Ok(false))
    ensures FindTrigger(s, k).Some? && FindTrigger(s, k).value.jobKey != newTrigger.jobKey ==>
      r == Step(s, Err(JobPersistence))
    ensures r.result.Ok? ==> r.result.value == FindTrigger(s, k).Some?
  {
    match FindTrigger(s, k)
    case None => Step(s, Ok(false))
    case Some(previous) =>
      if previous.jobKey != newTrigger.jobKey then Step(s, Err(JobPersistence))
      else
        var removed := RemoveTrigger(s, k, removeOrphanedJob);
        if removed.result.Err? then Step(removed.store, Err(removed.result.error))
        else
          var stored := StoreTrigger(removed.store, newTrigger, false);
          if stored.result.Ok? then Step(stored.store, Ok(true))
          else if IsJobPersistence(stored.result.error) then
            var back := StoreTrigger(stored.store, previous, false);
            if back.result.Err? then Step(back.store, Err(back.result.error))
            else Step(back.store, Err(stored.result.error))
          else Step(stored.store, Err(stored.result.error))
  }

  /** Replacing the only trigger of a non-durable job throws, and leaves
      neither the job nor the trigger behind. */
  lemma ReplaceTriggerLosesJob()
    ensures var s := OneJobOneTrigger(false);
      var k := TriggerKey("trigger", "DEFAULT");
      var r := ReplaceTrigger(s, k, Trigger(k, JobKey("job", "DEFAULT"), None, false, Some(100), None, None));
      && r.result == Err(JobPersistence)
      && r.store.jobs == map[]
      && FindTrigger(r.store, k).None?
  {
    var s := OneJobOneTrigger(false);
    var jk := JobKey("job", "DEFAULT");
    var k := TriggerKey("trigger", "DEFAULT");
    var previous := s.triggers[0];
    assert FindTrigger(s, k) == Some(previous);
    RemoveTriggerKeepsValid(s, k, true);
    assert OnlyTriggerOfJob(s, k, jk);
    var removed := RemoveTrigger(s, k, true);
    assert removed.store.jobs == map[];
    assert FindTrigger(removed.store, k).None?;
  }

  /** The intended ReplaceTrigger, in a valid store, for a new trigger of
      the same job whose key is the previous one or is free: succeeds, stores the
      new trigger in place of the previous, keeps every job and the invariant. */
  lemma ReplaceTriggerIntendedReplaces(s: Store, k: TriggerKey, newTrigger: Trigger)
    requires Valid(s) && FindTrigger(s, k).Some? && FindTrigger(s, k).value.jobKey == newTrigger.jobKey
    requires newTrigger.key == k || FindTrigger(s, newTrigger.key).None?
    ensures var r := ReplaceTriggerIntended(s, k, newTrigger);
      && r.result == Ok(true)
      && Valid(r.store)
      && r.store.jobs == s.jobs
      && FindTrigger(r.store, newTrigger.key) == Some(newTrigger)
      && (newTrigger.key != k ==> FindTrigger(r.store, k).None?)
  {
    var previous := FindTrigger(s, k).value;
    assert previous in s.triggers;
    RemoveTriggerKeepsValid(s, k, false);
    var removed := RemoveTrigger(s, k, false);
    var d := DeleteTriggerDocuments(s, k);
    assert forall x :: FindTrigger(removed.store, x) == FindTrigger(d, x);
    assert FindTrigger(removed.store, newTrigger.key).None?;
    StoreTriggerStores(removed.store, newTrigger, false);
  }

  /** Every trigger's calendar is stored. */
  ghost predicate CalendarsResolved(s: Store) {
    forall t :: t in s.triggers && t.calendar.Some? ==> t.calendar.value in s.calendars
  }

  /** `Triggers.FindAs(Query.EQ("CalendarName", name))`: a cursor over the
      triggers naming the calendar. The cursor object itself is never null,
      whatever it would enumerate. */
  function TriggersWithCalendar(s: Store, name: string): (cursor: Option<seq<Trigger>>)
    ensures cursor.Some?
    ensures forall t :: t in cursor.value <==> t in s.triggers && t.calendar == Some(name)
  {
    Some(Documents.Filter(s.triggers, (t: Trigger) => t.calendar == Some(name)))
  }

  /** RemoveCalendar as written: the guard tests the cursor against null. */
  function RemoveCalendar(s: Store, name: string): (r: Step<bool>)
    ensures r.result.Err? ==> r.store == s && r.result.error == JobPersistence
  {
    if TriggersWithCalendar(s, name) != None then Step(s, Err(JobPersistence))
    else Step(s.(calendars := s.calendars - {name}), Ok(true))
  }

  /** RemoveCalendar never removes anything. */
  lemma RemoveCalendarAlwaysThrows(s: Store, name: string)
    ensures RemoveCalendar(s, name) == Step(s, Err(JobPersistence))
  {
    assert TriggersWithCalendar(s, name).Some?;
  }

  /** RemoveCalendar refusing only a calendar some trigger still names. */
  function RemoveCalendarIntended(s: Store, name: string): (r: Step<bool>)
  {
    if |TriggersWithCalendar(s, name).value| > 0 then Step(s, Err(JobPersistence))
    else Step(s.(calendars := s.calendars - {name}), Ok(true))
  }

  /** The intended RemoveCalendar throws exactly when a trigger names the
      calendar; otherwise the calendar is gone and nothing else changes; so
      no trigger is ever left naming a missing calendar. */
  lemma RemoveCalendarIntendedGuards(s: Store, name: string)
    ensures var r := RemoveCalendarIntended(s, name);
      && (r.result.Err? <==> exists t :: t in s.triggers && t.calendar == Some(name))
      && (r.result.Err? ==> r.store == s && r.result.error == JobPersistence)
      && (r.result.Ok? ==> r.store == s.(calendars := s.calendars - {name}) && name !in r.store.calendars)
      && (CalendarsResolved(s) ==> CalendarsResolved(r.store))
      && (Valid(s) ==> Valid(r.store))
  {
    var c := TriggersWithCalendar(s, name).value;
    if |c| > 0 {
      assert c[0] in c;
    }
    var r := RemoveCalendarIntended(s, name);
    assert r.store.triggers == s.triggers && r.store.states == s.states;
    assert forall x :: FindTrigger(r.store, x) == FindTrigger(s, x) && StateOf(r.store, x) == StateOf(s, x);
  }

  /** ClearAllSchedulingData: empties the triggers, their states, the jobs,
      the calendars and every marker collection; instance leases, the fire
      counter and the misfire threshold stay. */
  function ClearAllSchedulingData(s: Store): (r: Store)
  {
    s.(triggers := [], states := [], pausedTriggerGroups := {}, jobs := map[],
       blockedJobs := {}, pausedJobGroups := {}, calendars := {})
  }

  /** After ClearAllSchedulingData the store is valid, every trigger is
      unknown, every job is missing, and the cluster's leases are kept. */
  lemma ClearLeavesNothing(s: Store, k: TriggerKey, jk: JobKey)
    ensures var r := ClearAllSchedulingData(s);
      && Valid(r)
      && GetTriggerStateIntended(r, k) == Reported.NotFound
      && RemoveJob(r, jk) == Step(r, Ok(false))
      && r.instances == s.instances && r.fireCounter == s.fireCounter && r.misfireThreshold == s.misfireThreshold
  {
    var r := ClearAllSchedulingData(s);
    assert TriggersForJob(r.triggers, jk) == [];
  }
}

=== FILE: store.dfy ===
/** The clustered MongoDB job store's data: its eight collections and the two
    process-wide values (the fired-trigger counter and the misfire threshold),
    as one immutable record, with the queries and updates its methods issue
    against the TriggerStates collection. */
module Store {
  import opened Wrappers
  import opened Exceptions
  import opened Quartz
  import Documents

  /** The `State` strings written to TriggerStates. */
  datatype StateName =
    | Waiting
    | Locked
    | Acquired
    | Executing
    | Paused
    | PausedAndBlocked
    | Blocked
    | Complete
    | Error

  /** A TriggerStates document: `_id` is the trigger key, `State` its state,
      `InstanceId` the owning scheduler instance when the field is set. */
  datatype StateRecord = StateRecord(key: TriggerKey, state: StateName, owner: Option<string>)

  /** Behaviour of the Mongo driver and server the store relies on:
      `multi` is whether an Update without UpdateFlags.Multi changes every
      match (the 1.x driver changes only the first), and `ninMatchesMissing`
      whether `$nin` also matches documents that lack the field (the server
      does). */
  datatype Driver = Driver(multi: bool, ninMatchesMissing: bool)

  /** The driver and server the store was written against. */
  const LegacyDriver := Driver(false, true)

  /** Timestamps are DateTime ticks of 100 ns. */
  const TicksPerMillisecond := 10_000

  /** All collections of the store. Jobs are keyed by their JobKey `_id`;
      Triggers and TriggerStates keep natural order, which the store's loops
      follow; the marker collections are sets of `_id`s; Instances maps an
      instance id to the ticks at which its lease expires. */
  datatype Store = Store(
    jobs: map<JobKey, Job>,
    triggers: seq<Trigger>,
    states: seq<StateRecord>,
    calendars: set<string>,
    pausedTriggerGroups: set<string>,
    pausedJobGroups: set<string>,
    blockedJobs: set<JobKey>,
    instances: map<string, int>,
    fireCounter: int,
    misfireThreshold: int)

  /** The outcome of one public call: the store after it, and the returned
      value or the exception thrown. Writes made before an exception stay. */
  datatype Step<T> = Step(store: Store, result: Result<T, Exception>)

  function TriggerKeyOf(t: Trigger): TriggerKey { t.key }
  function RecordKeyOf(r: StateRecord): TriggerKey { r.key }

  /** `Triggers.FindOneById(key)` and `CheckExists(TriggerKey)`. */
  function FindTrigger(s: Store, k: TriggerKey): Option<Trigger> {
    Documents.Find(s.triggers, TriggerKeyOf, k)
  }

  /** `TriggerStates.FindOneById(key)`. */
  function StateOf(s: Store, k: TriggerKey): Option<StateRecord> {
    Documents.Find(s.states, RecordKeyOf, k)
  }

  function SaveTrigger(s: Store, t: Trigger): (r: Store)
    ensures FindTrigger(r, t.key) == Some(t)
    ensures forall k :: k != t.key ==> FindTrigger(r, k) == FindTrigger(s, k)
    ensures r == s.(triggers := r.triggers)
  {
    s.(triggers := Documents.Save(s.triggers, TriggerKeyOf, t))
  }

  function SaveState(s: Store, rec: StateRecord): (r: Store)
    ensures StateOf(r, rec.key) == Some(rec)
    ensures forall k :: k != rec.key ==> StateOf(r, k) == StateOf(s, k)
    ensures r == s.(states := r.states)
  {
    s.(states := Documents.Save(s.states, RecordKeyOf, rec))
  }

  /** Removes a trigger's document and its state document (the two
      `Remove(Query.EQ("_id", key))` calls of RemoveTrigger). */
  function DeleteTriggerDocuments(s: Store, k: TriggerKey): (r: Store)
    ensures FindTrigger(r, k).None? && StateOf(r, k).None?
    ensures forall k' :: k' != k ==> FindTrigger(r, k') == FindTrigger(s, k') && StateOf(r, k') == StateOf(s, k')
    ensures forall t :: t in r.triggers ==> t in s.triggers && t.key != k
    ensures forall t :: t in s.triggers && t.key != k ==> t in r.triggers
    ensures |r.triggers| <= |s.triggers|
    ensures r == s.(triggers := r.triggers, states := r.states)
  {
    s.(triggers := Documents.Remove(s.triggers, TriggerKeyOf, k),
       states := Documents.Remove(s.states, RecordKeyOf, k))
  }

  /** The TriggerStates queries the store issues. */
  datatype Query =
    | ById(k: TriggerKey)
    | ByIdInState(k: TriggerKey, st: StateName)
    | ByIdNotInState(k: TriggerKey, st: StateName)
    | InState(st: StateName)
    | OwnedInState(owner: string, st: StateName)
    | OwnerNotIn(active: set<string>, matchesMissing: bool)
    | KeyIn(keys: seq<TriggerKey>)
    | KeyInState(keys: seq<TriggerKey>, st: StateName)
    | HeldByGone(active: set<string>)

  predicate Matches(q: Query, r: StateRecord) {
    match q
    case ById(k) => r.key == k
    case ByIdInState(k, st) => r.key == k && r.state == st
    case ByIdNotInState(k, st) => r.key == k && r.state != st
    case InState(st) => r.state == st
    case OwnedInState(owner, st) => r.owner == Some(owner) && r.state == st
    case OwnerNotIn(active, matchesMissing) =>
      if r.owner.None? then matchesMissing else r.owner.value !in active
    case KeyIn(keys) => r.key in keys
    case KeyInState(keys, st) => r.key in keys && r.state == st
    case HeldByGone(active) =>
      r.owner.Some? && r.owner.value !in active && (r.state == Locked || r.state == Acquired)
  }

  /** The modifications the store applies: `Set("State", st)`, optionally
      with `Unset("InstanceId")` or `Set("InstanceId", owner)`. */
  datatype Change =
    | SetState(st: StateName)
    | SetStateUnsetOwner(st: StateName)
    | SetStateAndOwner(st: StateName, owner: string)

  function Apply(c: Change, r: StateRecord): (r': StateRecord)
    ensures r'.key == r.key
  {
    match c
    case SetState(st) => r.(state := st)
    case SetStateUnsetOwner(st) => r.(state := st, owner := None)
    case SetStateAndOwner(st, owner) => r.(state := st, owner := Some(owner))
  }

  function MatcherOf(q: Query): StateRecord -> bool { r => Matches(q, r) }
  function ApplierOf(c: Change): StateRecord -> StateRecord { r => Apply(c, r) }

  /** `TriggerStates.Update(query, change)`; `multi` says whether every match
      is changed or only the first. */
  function UpdateStates(s: Store, q: Query, c: Change, multi: bool): (r: Store)
    ensures |r.states| == |s.states|
    ensures r == s.(states := r.states)
  {
    s.(states := Documents.Update(s.states, MatcherOf(q), ApplierOf(c), multi))
  }

  /** The record with key `k` is among those an update changes. */
  ghost predicate Picked(s: Store, q: Query, multi: bool, k: TriggerKey) {
    match Documents.IndexOf(s.states, RecordKeyOf, k)
    case None => false
    case Some(i) => Documents.Selected(s.states, MatcherOf(q), multi, i)
  }

  /** What an update does to one record: the changed ones are exactly the
      picked ones, a record the query does not match never changes, and with
      the multi flag every match changes. */
  lemma UpdateStateOf(s: Store, q: Query, c: Change, multi: bool, k: TriggerKey)
    requires Documents.UniqueKeys(s.states, RecordKeyOf)
    ensures Documents.UniqueKeys(UpdateStates(s, q, c, multi).states, RecordKeyOf)
    ensures StateOf(UpdateStates(s, q, c, multi), k) ==
      match StateOf(s, k)
      case None => None
      case Some(r) => Some(if Picked(s, q, multi, k) then Apply(c, r) else r)
    ensures StateOf(s, k).Some? && !Matches(q, StateOf(s, k).value) ==>
      StateOf(UpdateStates(s, q, c, multi), k) == StateOf(s, k)
    ensures StateOf(s, k).Some? && Matches(q, StateOf(s, k).value) && multi ==>
      StateOf(UpdateStates(s, q, c, multi), k) == Some(Apply(c, StateOf(s, k).value))
    ensures Picked(s, q, multi, k) ==> StateOf(s, k).Some? && Matches(q, StateOf(s, k).value)
  {
    var f := ApplierOf(c);
    assert forall x :: RecordKeyOf(f(x)) == RecordKeyOf(x);
    Documents.UpdateKeepsKeys(s.states, RecordKeyOf, MatcherOf(q), f, multi, k);
  }

  /** A query that can only match the record with key `k`. */
  predicate KeyQuery(q: Query, k: TriggerKey) {
    match q
    case ById(k') => k' == k
    case ByIdInState(k', _) => k' == k
    case ByIdNotInState(k', _) => k' == k
    case _ => false
  }

  /** The record for `k'` after changing the record for `k` if `q` matches it. */
  function KeyUpdated(s: Store, q: Query, c: Change, k: TriggerKey, k': TriggerKey): Option<StateRecord> {
    if k' == k && StateOf(s, k).Some? && Matches(q, StateOf(s, k).value)
    then Some(Apply(c, StateOf(s, k).value)) else StateOf(s, k')
  }

  /** An update by `_id` changes the one record with that key when the query
      matches it, whatever the multi flag, and no other record. */
  lemma UpdateByKey(s: Store, q: Query, c: Change, multi: bool, k: TriggerKey)
    requires Documents.UniqueKeys(s.states, RecordKeyOf) && KeyQuery(q, k)
    ensures Documents.UniqueKeys(UpdateStates(s, q, c, multi).states, RecordKeyOf)
    ensures forall k' :: StateOf(UpdateStates(s, q, c, multi), k') == KeyUpdated(s, q, c, k, k')
  {
    UpdateStateOf(s, q, c, multi, k);
    forall k' ensures StateOf(UpdateStates(s, q, c, multi), k') == KeyUpdated(s, q, c, k, k') {
      UpdateStateOf(s, q, c, multi, k');
      if k' == k && StateOf(s, k).Some? && Matches(q, StateOf(s, k).value) {
        var i := Documents.IndexOf(s.states, RecordKeyOf, k).value;
        assert Documents.Selected(s.states, MatcherOf(q), multi, i) by {
          forall j | 0 <= j < i ensures !MatcherOf(q)(s.states[j]) {
            assert s.states[j].key != k;
          }
        }
      }
    }
  }

  /** Without the multi flag an update changes at most one record. */
  lemma SingleUpdatePicksOne(s: Store, q: Query, k1: TriggerKey, k2: TriggerKey)
    requires Documents.UniqueKeys(s.states, RecordKeyOf)
    requires Picked(s, q, false, k1) && Picked(s, q, false, k2)
    ensures k1 == k2
  {
    var i := Documents.IndexOf(s.states, RecordKeyOf, k1).value;
    var j := Documents.IndexOf(s.states, RecordKeyOf, k2).value;
    assert i == j;
  }

  /** `GetTriggersForJob`: the job's triggers, in natural order. */
  function TriggersForJob(ts: seq<Trigger>, jk: JobKey): (r: seq<Trigger>)
    ensures forall t :: t in r <==> t in ts && t.jobKey == jk
    ensures |r| <= |ts|
    ensures Documents.UniqueKeys(ts, TriggerKeyOf) ==> Documents.UniqueKeys(r, TriggerKeyOf)
  {
    if |ts| == 0 then []
    else
      var rest := TriggersForJob(ts[1..], jk);
      assert Documents.UniqueKeys(ts, TriggerKeyOf) ==> Documents.UniqueKeys(ts[1..], TriggerKeyOf) by {
        if Documents.UniqueKeys(ts, TriggerKeyOf) {
          forall i, j | 0 <= i < j < |ts[1..]| ensures ts[1..][i].key != ts[1..][j].key {
            assert ts[1..][i] == ts[i + 1] && ts[1..][j] == ts[j + 1];
          }
        }
      }
      if ts[0].jobKey == jk then
        var r := [ts[0]] + rest;
        assert Documents.UniqueKeys(ts, TriggerKeyOf) ==> Documents.UniqueKeys(r, TriggerKeyOf) by {
          if Documents.UniqueKeys(ts, TriggerKeyOf) {
            forall j | 0 < j < |r| ensures r[0].key != r[j].key {
              assert r[j] == rest[j - 1] && r[j] in ts[1..];
              var m :| 0 <= m < |ts[1..]| && ts[1..][m] == r[j];
              assert ts[m + 1] == r[j];
            }
            forall i, j | 0 < i < j < |r| ensures r[i].key != r[j].key {
              assert r[i] == rest[i - 1] && r[j] == rest[j - 1];
            }
          }
        }
        r
      else rest
  }

  /** Keys are distinct. */
  ghost predicate Distinct(keys: seq<TriggerKey>) {
    forall i, j :: 0 <= i < j < |keys| ==> keys[i] != keys[j]
  }

  function KeysOf(ts: seq<Trigger>): (r: seq<TriggerKey>)
    ensures |r| == |ts|
    ensures forall i :: 0 <= i < |ts| ==> r[i] == ts[i].key
  {
    if |ts| == 0 then [] else [ts[0].key] + KeysOf(ts[1..])
  }

  /** The invariant every method keeps: `_id`s are unique, every trigger has
      exactly one state document and a stored job, and each job is stored
      under its own key. */
  ghost predicate Valid(s: Store) {
    && Documents.UniqueKeys(s.triggers, TriggerKeyOf)
    && Documents.UniqueKeys(s.states, RecordKeyOf)
    && (forall k :: FindTrigger(s, k).Some? <==> StateOf(s, k).Some?)
    && (forall t :: t in s.triggers ==> t.jobKey in s.jobs)
    && (forall jk :: jk in s.jobs ==> s.jobs[jk].key == jk)
  }

  /** An update of TriggerStates keeps the invariant and every record's key. */
  lemma UpdateKeepsValid(s: Store, q: Query, c: Change, multi: bool)
    requires Valid(s)
    ensures Valid(UpdateStates(s, q, c, multi))
    ensures forall k :: StateOf(UpdateStates(s, q, c, multi), k).Some? <==> StateOf(s, k).Some?
  {
    var r := UpdateStates(s, q, c, multi);
    forall k ensures StateOf(r, k).Some? <==> StateOf(s, k).Some? {
      UpdateStateOf(s, q, c, multi, k);
    }
    UpdateStateOf(s, q, c, multi, TriggerKey("", ""));
  }

  /** Saving a trigger whose key is already stored, for a stored job, keeps the invariant. */
  lemma SaveTriggerKeepsValid(s: Store, t: Trigger)
    requires Valid(s)
    requires FindTrigger(s, t.key).Some? && t.jobKey in s.jobs
    ensures Valid(SaveTrigger(s, t))
  {
    var r := SaveTrigger(s, t);
    Documents.SaveUnique(s.triggers, TriggerKeyOf, t);
    forall u | u in r.triggers ensures u.jobKey in r.jobs {
      var i :| 0 <= i < |r.triggers| && r.triggers[i] == u;
      if u.key != t.key {
        Documents.FindAt(r.triggers, TriggerKeyOf, i);
      } else {
        Documents.FindAt(r.triggers, TriggerKeyOf, i);
      }
    }
  }

  /** Saving a trigger of a stored job together with its state document keeps the invariant. */
  lemma SavePairKeepsValid(s: Store, t: Trigger, rec: StateRecord)
    requires Valid(s)
    requires rec.key == t.key && t.jobKey in s.jobs
    ensures Valid(SaveState(SaveTrigger(s, t), rec))
  {
    var s1 := SaveTrigger(s, t);
    var r := SaveState(s1, rec);
    Documents.SaveUnique(s.triggers, TriggerKeyOf, t);
    Documents.SaveUnique(s.states, RecordKeyOf, rec);
    forall k ensures FindTrigger(r, k).Some? <==> StateOf(r, k).Some? {
      if k != t.key {
        assert FindTrigger(r, k) == FindTrigger(s, k);
        assert StateOf(r, k) == StateOf(s, k);
      }
    }
    forall u | u in r.triggers ensures u.jobKey in r.jobs {
      var i :| 0 <= i < |r.triggers| && r.triggers[i] == u;
      Documents.FindAt(r.triggers, TriggerKeyOf, i);
      if u.key != t.key {
        assert FindTrigger(s, u.key) == Some(u);
      }
    }
  }

  /** Saving a state document for a stored trigger keeps the invariant. */
  lemma SaveStateKeepsValid(s: Store, rec: StateRecord)
    requires Valid(s)
    requires FindTrigger(s, rec.key).Some?
    ensures Valid(SaveState(s, rec))
  {
    Documents.SaveUnique(s.states, RecordKeyOf, rec);
  }

  /** The invariant and every lookup depend only on the three collections. */
  lemma SameDocuments(s: Store, r: Store)
    requires r.triggers == s.triggers && r.states == s.states && r.jobs == s.jobs
    ensures forall k :: FindTrigger(r, k) == FindTrigger(s, k) && StateOf(r, k) == StateOf(s, k)
    ensures Valid(s) ==> Valid(r)
  {
    assert forall k :: FindTrigger(r, k) == FindTrigger(s, k) && StateOf(r, k) == StateOf(s, k);
  }

  /** Deleting a trigger's two documents keeps the invariant. */
  lemma DeleteKeepsValid(s: Store, k: TriggerKey)
    requires Valid(s)
    ensures Valid(DeleteTriggerDocuments(s, k))
  {
    Documents.RemoveUnique(s.triggers, TriggerKeyOf, k);
    Documents.RemoveUnique(s.states, RecordKeyOf, k);
  }

  /** In a valid store the keys of a job's triggers are exactly the stored
      keys whose trigger names that job. */
  lemma JobTriggerKeys(s: Store, jk: JobKey, k: TriggerKey)
    requires Valid(s)
    ensures k in KeysOf(TriggersForJob(s.triggers, jk)) <==> FindTrigger(s, k).Some? && FindTrigger(s, k).value.jobKey == jk
  {
    var ts := TriggersForJob(s.triggers, jk);
    var keys := KeysOf(ts);
    if k in keys {
      var i :| 0 <= i < |keys| && keys[i] == k;
      assert ts[i] in s.triggers;
      var m :| 0 <= m < |s.triggers| && s.triggers[m] == ts[i];
      Documents.FindAt(s.triggers, TriggerKeyOf, m);
    }
    if FindTrigger(s, k).Some? && FindTrigger(s, k).value.jobKey == jk {
      var t := FindTrigger(s, k).value;
      assert t in ts;
      var i :| 0 <= i < |ts| && ts[i] == t;
      assert keys[i] == k;
    }
  }

  /** A stored trigger is what a lookup by its key finds. */
  lemma StoredTrigger(s: Store, t: Trigger)
    requires Documents.UniqueKeys(s.triggers, TriggerKeyOf) && t in s.triggers
    ensures FindTrigger(s, t.key) == Some(t)
  {
    var m :| 0 <= m < |s.triggers| && s.triggers[m] == t;
    Documents.FindAt(s.triggers, TriggerKeyOf, m);
  }
}

=== FILE: time_of_day_serializer.dfy ===
/** TimeOfDaySerializer: a Quartz TimeOfDay as {Hour, Minute, Second}. */
module TimeOfDaySerializer {
  import opened Wrappers
  import opened Exceptions
  import opened Bson

  datatype TimeOfDay = TimeOfDay(hour: int, minute: int, second: int)

  /** The ranges Quartz's TimeOfDay constructor accepts. */
  predicate Valid(t: TimeOfDay) {
    0 <= t.hour <= 23 && 0 <= t.minute <= 59 && 0 <= t.second <= 59
  }

  /** `new TimeOfDay(hour, minute, second)`: out-of-range parts throw ArgumentException. */
  function Construct(hour: int, minute: int, second: int): (r: Result<TimeOfDay, Exception>)
    ensures r.Ok? <==> Valid(TimeOfDay(hour, minute, second))
    ensures r.Ok? ==> r.value == TimeOfDay(hour, minute, second)
  {
    var t := TimeOfDay(hour, minute, second);
    if Valid(t) then Ok(t) else Err(Argument)
  }

  /** Serialize: exactly three Int32 elements, Hour, Minute, Second, in that order. */
  function Serialize(t: TimeOfDay): (v: Value)
    ensures v.Document? && |v.fields| == 3
    ensures v.fields[0] == ("Hour", Int32(t.hour))
    ensures v.fields[1] == ("Minute", Int32(t.minute))
    ensures v.fields[2] == ("Second", Int32(t.second))
  {
    Document([("Hour", Int32(t.hour)), ("Minute", Int32(t.minute)), ("Second", Int32(t.second))])
  }

  /** The shared private decoder: there is no type check; Null is null,
      a document is read element by element, anything else is not supported. */
  function Read(v: Value): (r: Result<Option<TimeOfDay>, Exception>)
    ensures v == Null <==> r == Ok(None)
    ensures !v.Null? && !v.Document? ==> r == Err(NotSupported)
    ensures r.Ok? && r.value.Some? ==> Valid(r.value.value) && v == Serialize(r.value.value)
  {
    match v
    case Null => Ok(None)
    case Document(fs) =>
      var h := ReadInt32(fs, 0, "Hour");
      if h.Err? then Err(h.error) else
      var m := ReadInt32(fs, 1, "Minute");
      if m.Err? then Err(m.error) else
      var s := ReadInt32(fs, 2, "Second");
      if s.Err? then Err(s.error) else
      if |fs| != 3 then Err(InvalidOperation) else
      var t := Construct(h.value, m.value, s.value);
      if t.Err? then Err(t.error) else Ok(Some(t.value))
    case _ => Err(NotSupported)
  }

  /** Both public overloads ignore the types they are given. */
  function Deserialize(v: Value, nominal: ClrType, actual: ClrType): (r: Result<Option<TimeOfDay>, Exception>)
    ensures r == Read(v)
  {
    Read(v)
  }

  function DeserializeNominal(v: Value, nominal: ClrType): (r: Result<Option<TimeOfDay>, Exception>)
    ensures r == Read(v)
  {
    Read(v)
  }

  lemma OverloadsAgree(v: Value, nominal: ClrType, actual: ClrType)
    ensures Deserialize(v, nominal, actual) == DeserializeNominal(v, nominal)
  {
  }

  /** The clean round trip: every valid time of day comes back unchanged. */
  lemma RoundTrip(t: TimeOfDay)
    requires Valid(t)
    ensures Deserialize(Serialize(t), OtherType("TimeOfDay"), OtherType("TimeOfDay")) == Ok(Some(t))
  {
  }

  /** And a document decodes to a time exactly when it is such an encoding. */
  lemma DecodesExactlyTheEncodings(v: Value)
    ensures Read(v).Ok? && Read(v).value.Some? <==> exists t :: Valid(t) && v == Serialize(t)
  {
    if exists t :: Valid(t) && v == Serialize(t) {
      var t :| Valid(t) && v == Serialize(t);
      RoundTrip(t);
    }
  }
}

=== FILE: trigger_key_serializer.dfy ===
/** TriggerKeySerializer: a TriggerKey as the document {Group, Name}. */
module TriggerKeySerializer {
  import opened Wrappers
  import opened Exceptions
  import opened Bson
  import opened Quartz

  /** The parameter order of the TriggerKey constructor the decoder calls.
      Quartz.NET's constructor is `TriggerKey(name, group)`. */
  datatype CtorOrder = NameThenGroup | GroupThenName

  const QuartzCtorOrder: CtorOrder := NameThenGroup

  function Construct(order: CtorOrder, first: string, second: string): TriggerKey {
    match order
    case NameThenGroup => TriggerKey(first, second)
    case GroupThenName => TriggerKey(second, first)
  }

  /** Serialize: a document with exactly two string elements, Group then Name. */
  function Serialize(k: TriggerKey): (v: Value)
    ensures v.Document? && |v.fields| == 2
    ensures v.fields[0].0 == "Group" && v.fields[1].0 == "Name"
  {
    Document([("Group", Str(k.group)), ("Name", Str(k.name))])
  }

  /** Deserialize as written: the type check, then a document read as
      Group followed by Name, both passed in that order to the constructor;
      BSON Null decodes to null; anything else throws. */
  function Deserialize(v: Value, nominal: ClrType, actual: ClrType, order: CtorOrder): (r: Result<Option<TriggerKey>, Exception>)
    ensures nominal != TriggerKeyType || actual != TriggerKeyType ==> r == Err(BsonSerialization)
    ensures nominal == TriggerKeyType && actual == TriggerKeyType ==>
              (v == Null <==> r == Ok(None)) &&
              (!v.Null? && !v.Document? ==> r == Err(BsonSerialization))
    ensures r.Ok? && r.value.Some? ==>
              exists g, n :: v == Document([("Group", Str(g)), ("Name", Str(n))]) && r.value.value == Construct(order, g, n)
  {
    if nominal != TriggerKeyType || actual != TriggerKeyType then Err(BsonSerialization)
    else match v
      case Document(fs) =>
        var group := ReadString(fs, 0, "Group");
        if group.Err? then Err(group.error) else
        var name := ReadString(fs, 1, "Name");
        if name.Err? then Err(name.error) else
        if |fs| != 2 then Err(InvalidOperation)   // ReadEndDocument with elements left
        else Ok(Some(Construct(order, group.value, name.value)))
      case Null => Ok(None)
      case _ => Err(BsonSerialization)
  }

  /** The two-argument overload passes the nominal type as the actual type. */
  function DeserializeNominal(v: Value, nominal: ClrType, order: CtorOrder): (r: Result<Option<TriggerKey>, Exception>)
    ensures nominal != TriggerKeyType ==> r == Err(BsonSerialization)
    ensures r == Deserialize(v, nominal, nominal, order)
  {
    Deserialize(v, nominal, nominal, order)
  }

  /** With Quartz's constructor the round trip exchanges name and group,
      so it is the identity exactly on keys whose name equals their group. */
  lemma QuartzRoundTripSwaps(k: TriggerKey)
    ensures Deserialize(Serialize(k), TriggerKeyType, TriggerKeyType, QuartzCtorOrder) == Ok(Some(TriggerKey(k.group, k.name)))
    ensures Deserialize(Serialize(k), TriggerKeyType, TriggerKeyType, QuartzCtorOrder) == Ok(Some(k)) <==> k.name == k.group
  {
  }

  /** A concrete key that does not survive the round trip. */
  lemma QuartzRoundTripCounterexample()
    ensures Deserialize(Serialize(TriggerKey("t1", "DEFAULT")), TriggerKeyType, TriggerKeyType, QuartzCtorOrder)
         == Ok(Some(TriggerKey("DEFAULT", "t1")))
  {
    QuartzRoundTripSwaps(TriggerKey("t1", "DEFAULT"));
  }

  /** The decoder as evidently intended: the value read from Name is the name. */
  function DeserializeIntended(v: Value, nominal: ClrType, actual: ClrType): (r: Result<Option<TriggerKey>, Exception>)
    ensures r.Ok? && r.value.Some? ==> v == Serialize(r.value.value)
  {
    match Deserialize(v, nominal, actual, NameThenGroup)
    case Ok(Some(k)) => Ok(Some(TriggerKey(k.group, k.name)))
    case other => other
  }

  lemma IntendedRoundTrip(k: TriggerKey)
    ensures DeserializeIntended(Serialize(k), TriggerKeyType, TriggerKeyType) == Ok(Some(k))
  {
  }
}

=== FILE: wrappers.dfy ===
/** Option and Result values used throughout the model in place of the
    source's nulls and exceptions. */
module Wrappers {

  /** A value that may be absent: the model of a nullable reference. */
  datatype Option<+T> = None | Some(value: T) {

    function GetOr(default: T): T {
      match this
      case Some(v) => v
      case None => default
    }
  }

  /** The outcome of an operation that may throw. */
  datatype Result<+T, +E> = Ok(value: T) | Err(error: E)
}

/** The .NET exception types the modelled code can raise. */
module Exceptions {

  datatype Exception =
    | ObjectAlreadyExists      // Quartz ObjectAlreadyExistsException
    | JobPersistence           // Quartz JobPersistenceException
    | NotImplemented           // System.NotImplementedException
    | NullReference            // a member access on a null reference
    | Argument                 // System.ArgumentException
    | ArgumentOutOfRange       // System.ArgumentOutOfRangeException
    | InvalidCast              // System.InvalidCastException
    | KeyNotFound              // System.Collections.Generic.KeyNotFoundException
    | BsonSerialization        // MongoDB BsonSerializationException
    | NotSupported             // System.NotSupportedException
    | InvalidOperation         // a BsonReader called in the wrong state
    | Deserialization          // the driver cannot read a stored document as the requested type
    | FileFormat               // MongoDB FileFormatException: a stored element no class member reads

  /** `catch (JobPersistenceException)` also catches its subclass
      ObjectAlreadyExistsException. */
  predicate IsJobPersistence(e: Exception) {
    e == JobPersistence || e == ObjectAlreadyExists
  }
}
